=== FILE: README.md ===
# ActiveMQ network bridge and KahaDB list index, in Dafny

This project models two pieces of sequential logic from ActiveMQ and proves
what they promise.

**The demand-forwarding network bridge** (`DemandForwardingBridgeSupport`)
connects a local broker to a remote one. It watches the remote broker's
consumer advisories and creates a local proxy consumer for each remote
consumer. It then forwards what the local broker dispatches to those proxies.

The bridge is modelled as a state machine over an immutable `Bridge` record
holding:

- lifecycle flags;
- what it knows of the peer;
- the configured destination lists;
- the sessions it opened;
- the two subscription maps;
- counters;
- an event log.

Each transport callback and lifecycle call is a pure function from one state
to the next. Whatever the bridge sends, or asks other components to do, is
appended to the log as an event.

The following are parameters:

- the broker regions whose subscriptions duplicate arbitration looks at;
- the destination wildcard matcher;
- the network filter's verdict on a message;
- the local broker's answer to the connection request.

The bridge modules are:

- `BrokerPaths`: broker paths, `contains` and `appendToBrokerPath`, and the TTL and loop guard.
- `Destinations`: the destination-permission rules.
- `Registry`: the two subscription maps kept in lockstep.
- `Arbitration`: duplicate-subscription arbitration and the hop-based priority.
- `Bridge`: the bridge's operations.
- `BridgeProperties`: the invariant over every run, the lifecycle rules, advisory handling, ack batching and the three ways a dispatched message leaves the local broker.

**The KahaDB paged list index** (`ListIndex` with `ListNode`) stores an
ordered key/value list as a chain of pages. Each page holds one node: an
ordered run of entries and the id of the next page. The index keeps `head`,
`tail` and `size`.

The stored pages are a `map<int, Node>`. A page id that is not a key is a
free page. The list itself, `Items`, is the concatenation of the entries
along the chain from the head. Whether a node fits in one page is the page
file's decision, so it enters every storing operation as a predicate `fits`.

The KahaDB modules are:

- `ListNodes`: node operations.
- `Payload`: the node marshaller and its round trip.
- `PageChains`: walking the chain and flattening it.
- `ListIndexes`: the index operations.
- `ListShapes`: the page edits those operations make.
- `ListIndexProperties`: the list-level properties.
- `ListIterators`: the entry iterator.
- `ListFindings`: four places where the code as written goes wrong, each next to the corrected behaviour.

Where the source as written breaks its own list, the operation is defined
once with a flag. Both behaviours are proved about:

- `LoadWith` (`tailFromHead`);
- `AddFirstWith` and `Store`/`Split` (`moveTail`);
- `RemoveWith` and `DoRemove` (`asWritten`).

The `...AsWritten` members are the source's behaviour. The plain names
(`Load`, `AddFirst`, `Remove`) are the corrected ones, and the list
properties are stated about those.

## Model

| member | source | states |
|---|---|---|
| BrokerPaths.Scan | activemq-core/src/main/java/org/apache/activemq/network/DemandForwardingBridgeSupport.java:875-884 | The scan finds the id exactly when some position of the path holds it. |
| BrokerPaths.Contains | activemq-core/src/main/java/org/apache/activemq/network/DemandForwardingBridgeSupport.java:875-884 | A null path contains nothing; otherwise `contains` is membership of the id in the path. |
| BrokerPaths.Append | activemq-core/src/main/java/org/apache/activemq/network/DemandForwardingBridgeSupport.java:886-894 | The result is the old path's ids followed by the appended ids, in order, its length the sum; a null or empty path yields just the appended ids. |
| BrokerPaths.AppendId | activemq-core/src/main/java/org/apache/activemq/network/DemandForwardingBridgeSupport.java:896-904 | The single-id form yields the old path with the id as one more last element. |
| BrokerPaths.AppendIdIsAppend | activemq-core/src/main/java/org/apache/activemq/network/DemandForwardingBridgeSupport.java:886-904 | The single-id form agrees with the array form applied to a one-element array. |
| BrokerPaths.ContainsAfterAppend | activemq-core/src/main/java/org/apache/activemq/network/DemandForwardingBridgeSupport.java:875-894 | After appending, an id is on the path iff it was on the old path or among the appended ids. |
| BrokerPaths.AppendedLocalIdIsRejected | activemq-core/src/main/java/org/apache/activemq/network/DemandForwardingBridgeSupport.java:550-562 | Loop freedom: a path to which the local broker appended its id is dropped by the advisory guard, whatever the TTL. |
| BrokerPaths.TTLBoundary | activemq-core/src/main/java/org/apache/activemq/network/DemandForwardingBridgeSupport.java:550-562 | For a path without the local id, `networkTTL - 1` hops pass the guard and `networkTTL` hops are dropped. |
| Destinations.FindSelecting | activemq-core/src/main/java/org/apache/activemq/network/DemandForwardingBridgeSupport.java:920-929 | The list loop finds a match exactly when some entry's filter matches and its destination type agrees. |
| Destinations.IsPermissableDestination | activemq-core/src/main/java/org/apache/activemq/network/DemandForwardingBridgeSupport.java:906-955 | Each rule in the source's order: a temporary destination is permitted iff temporaries are allowed or bridged; a static match permits; otherwise an exclusion refuses; otherwise a non-empty dynamic list permits exactly its matches; otherwise permitted. |
| Destinations.DynamicListOnlyNarrows | activemq-core/src/main/java/org/apache/activemq/network/DemandForwardingBridgeSupport.java:942-954 | Whatever a dynamic list lets through would also pass with no dynamic list. |
| Destinations.ExcludedIsRefused | activemq-core/src/main/java/org/apache/activemq/network/DemandForwardingBridgeSupport.java:931-940 | A non-temporary destination that an exclusion selects is refused unless a static entry selects it. |
| Registry.Register | activemq-core/src/main/java/org/apache/activemq/network/DemandForwardingBridgeSupport.java:1140-1141 | The subscription is put under its local id in one map and its remote id in the other; every other key keeps its entry. |
| Registry.Unregister | activemq-core/src/main/java/org/apache/activemq/network/DemandForwardingBridgeSupport.java:994-997 | Both ids leave their maps; every other key keeps its entry. |
| Registry.RemoveByRemoteId | activemq-core/src/main/java/org/apache/activemq/network/DemandForwardingBridgeSupport.java:1154-1165 | An unknown remote id changes nothing. A known one answers that subscription, and neither its remote id nor its local id is left in the maps. |
| Registry.Clear | activemq-core/src/main/java/org/apache/activemq/network/DemandForwardingBridgeSupport.java:1185-1188 | Both maps end empty. |
| Registry.RegisterKeepsLockstep | activemq-core/src/main/java/org/apache/activemq/network/DemandForwardingBridgeSupport.java:1137-1141 | Registering a subscription whose two ids are both new keeps the maps in lockstep and registers it. |
| Registry.UnregisterKeepsLockstep | activemq-core/src/main/java/org/apache/activemq/network/DemandForwardingBridgeSupport.java:994-997 | Unregistering a registered subscription keeps the lockstep and leaves it registered under neither id. |
| Registry.UndoRestores | activemq-core/src/main/java/org/apache/activemq/network/DemandForwardingBridgeSupport.java:978-997 | Undoing a registration of new ids gives back exactly the maps from before, so a suppressed `addConsumerInfo` leaves the registry as it found it. |
| Registry.RemoveByRemoteIdKeepsLockstep | activemq-core/src/main/java/org/apache/activemq/network/DemandForwardingBridgeSupport.java:643-649 | Removal by remote id keeps the maps in lockstep. |
| Registry.ReusedRemoteIdBreaksLockstep | activemq-core/src/main/java/org/apache/activemq/network/DemandForwardingBridgeSupport.java:1140-1141 | A second subscription under a remote id already registered breaks the lockstep. This is why the invariant needs fresh remote ids. |
| Arbitration.MatchFound | activemq-core/src/main/java/org/apache/activemq/network/DemandForwardingBridgeSupport.java:1071-1080 | True exactly when some network consumer id of the existing subscription is among the candidate's. |
| Arbitration.FirstOverlap | activemq-core/src/main/java/org/apache/activemq/network/DemandForwardingBridgeSupport.java:1015-1027 | The scan answers the first overlapping subscription, or none exactly when no subscription overlaps. |
| Arbitration.Arbitrate | activemq-core/src/main/java/org/apache/activemq/network/DemandForwardingBridgeSupport.java:1003-1061 | Admit when suppression is off for the type. Otherwise the first overlap decides: suppress iff it is not an inactive durable subscription and its priority is at least the candidate's; replace it iff its priority is lower; admit with no overlap. |
| Arbitration.FirstOverlapUnique | activemq-core/src/main/java/org/apache/activemq/network/DemandForwardingBridgeSupport.java:1015-1027 | At most one index is the first overlap. |
| Arbitration.OnlyFirstOverlapMatters | activemq-core/src/main/java/org/apache/activemq/network/DemandForwardingBridgeSupport.java:1015-1027 | The subscriptions after the first overlap can be anything without changing the decision. |
| Arbitration.HigherPriorityWins | activemq-core/src/main/java/org/apache/activemq/network/DemandForwardingBridgeSupport.java:1035-1061 | Against an overlapping subscription that is not an inactive durable one, a strictly higher-priority candidate replaces it and a lower-or-equal one is suppressed. |
| Arbitration.ToByte | activemq-core/src/main/java/org/apache/activemq/network/DemandForwardingBridgeSupport.java:1106 | The Java `(byte)` cast: the result is in [-128, 127] and congruent to the input modulo 256, and in-range inputs are unchanged. |
| Arbitration.HopPriority | activemq-core/src/main/java/org/apache/activemq/network/DemandForwardingBridgeSupport.java:1105-1110 | The priority is a byte, and a path of at most one hop keeps the base. |
| Arbitration.LongerPathLowerPriority | activemq-core/src/main/java/org/apache/activemq/network/DemandForwardingBridgeSupport.java:1105-1110 | Within byte range, the priority is the base minus `length + 1` for paths of two hops or more, so a longer path gives a strictly lower priority than a shorter one. |
| Arbitration.HopPriorityWraps | activemq-core/src/main/java/org/apache/activemq/network/DemandForwardingBridgeSupport.java:1106-1109 | The subtraction wraps in byte arithmetic: base -120 with a ten-hop path gives priority 125. |
| Bridge.Init | activemq-core/src/main/java/org/apache/activemq/network/DemandForwardingBridgeSupport.java:100-146 | A new bridge has every lifecycle flag off, empty maps, an empty log, and satisfies the invariant. |
| Bridge.ServiceException | activemq-core/src/main/java/org/apache/activemq/network/DemandForwardingBridgeSupport.java:383-398 | A disposed bridge is untouched. Otherwise disposal is scheduled and the listener told of the failure, and nothing else changes. |
| Bridge.Start | activemq-core/src/main/java/org/apache/activemq/network/DemandForwardingBridgeSupport.java:157-198 | One-shot: `started` ends set and a second call changes nothing. The first starts both transports and schedules the remote half, or refuses to start a bridge already disposed. |
| Bridge.Stop | activemq-core/src/main/java/org/apache/activemq/network/DemandForwardingBridgeSupport.java:335-381 | Acts only when started. Afterwards the bridge is not started and is disposed. The first stop of a live bridge resets `remoteBridgeStarted` and sends shutdown to both sides. The log only grows. |
| Bridge.DemandConsumerInfo | activemq-core/src/main/java/org/apache/activemq/network/DemandForwardingBridgeSupport.java:319-328 | The demand consumer subscribes to the configured advisory topic, widened by the temporary-destination advisories exactly when those are bridged, with the configured prefetch and dispatch mode. |
| Bridge.RemoteSessionEvents | activemq-core/src/main/java/org/apache/activemq/network/DemandForwardingBridgeSupport.java:288-329 | Everything goes to the remote side. A `BrokerInfo` is sent iff the bridge was not created by a duplex connector, and a demand consumer iff it is not static. An existing remote connection is retired, and a new connection is opened. |
| Bridge.StartRemoteBridge | activemq-core/src/main/java/org/apache/activemq/network/DemandForwardingBridgeSupport.java:282-333 | One-shot on `remoteBridgeStarted`; only the remote session state and the log change. |
| Bridge.StartLocalBridge | activemq-core/src/main/java/org/apache/activemq/network/DemandForwardingBridgeSupport.java:232-280 | One-shot on `localBridgeStarted`, and a no-op while disposed. Otherwise it opens the local connection. A refused connection request fails the bridge and leaves the subscriptions alone; an accepted one opens the local session. |
| Bridge.ProxyConsumer | activemq-core/src/main/java/org/apache/activemq/network/DemandForwardingBridgeSupport.java:1095-1152 | The proxy has the new local id, the configured prefetch and dispatch mode, and the hop priority when priority decrease is on (the remote priority otherwise). A non-durable consumer also gets the network filter as predicate. |
| Bridge.CreateDemandSubscription | activemq-core/src/main/java/org/apache/activemq/network/DemandForwardingBridgeSupport.java:1089-1152 | The remote consumer's own id joins its network consumer ids, a temporary destination moves to the local connection, and the subscription is registered under both ids. |
| Bridge.CreateStaticSubscription | activemq-core/src/main/java/org/apache/activemq/network/DemandForwardingBridgeSupport.java:1120-1135 | A static subscription draws its "remote" id and then its local id from the sequence, two numbers in all, and is registered. |
| Bridge.SetupStaticDestinations | activemq-core/src/main/java/org/apache/activemq/network/DemandForwardingBridgeSupport.java:960-976 | The sequence advances by two per static destination, and only the sequence, the maps and the log change. |
| Bridge.ArrivedConsumer | activemq-core/src/main/java/org/apache/activemq/network/DemandForwardingBridgeSupport.java:1215-1217 | The consumer's path gains the remote broker's path at the end, and nothing else changes. |
| Bridge.AddConsumerInfo | activemq-core/src/main/java/org/apache/activemq/network/DemandForwardingBridgeSupport.java:978-997 | The subscription is created. If arbitration suppresses it, it is unregistered again and the answer is false. Otherwise the replaced duplicate's removal is requested, the proxy is sent to the local broker, and the answer is true. One sequence number is used either way. |
| Bridge.RemoveDemandSubscription | activemq-core/src/main/java/org/apache/activemq/network/DemandForwardingBridgeSupport.java:1154-1165 | An unknown id changes nothing. A known one is taken out of both maps, and its proxy's removal is scheduled. |
| Bridge.RemoveDemandSubscriptionByLocalId | activemq-core/src/main/java/org/apache/activemq/network/DemandForwardingBridgeSupport.java:1167-1179 | Answers true iff the local id is registered. In that case it is removal by that subscription's remote id; otherwise nothing changes. |
| Bridge.ClearDownSubscriptions | activemq-core/src/main/java/org/apache/activemq/network/DemandForwardingBridgeSupport.java:1185-1188 | Both maps end empty; nothing else changes. |
| Bridge.AdvisoryAck | activemq-core/src/main/java/org/apache/activemq/network/DemandForwardingBridgeSupport.java:526-534 | The counter goes up by one. When `4 * count > 3 * prefetch` a batch of that count is acknowledged and the counter resets to 0. |
| Bridge.AckAdvisory | activemq-core/src/main/java/org/apache/activemq/network/DemandForwardingBridgeSupport.java:526-534 | The step throws iff there is no demand consumer. A due acknowledgement is sent to the remote side under the demand consumer's id; otherwise nothing is sent. |
| Bridge.ForwardedDestination | activemq-core/src/main/java/org/apache/activemq/network/DemandForwardingBridgeSupport.java:603-609 | The re-issued destination advisory comes from the local connection. Its path gains the remote broker at the end, and a temporary destination is re-owned by the local session. |
| Bridge.ServiceRemoteConsumerAdvisory | activemq-core/src/main/java/org/apache/activemq/network/DemandForwardingBridgeSupport.java:536-618 | An ignored consumer (browser, too many hops, a loop, or not permitted) leaves the bridge unchanged. Otherwise it is added, or the call throws when there is no local session. A destination advisory is dropped by the same hop and loop guard, or else forwarded. Forwarding throws without the local connection, and for a temporary destination also without the local session. A remove advisory removes the subscription, and a null structure throws. |
| Bridge.ServiceRemoteBrokerInfo | activemq-core/src/main/java/org/apache/activemq/network/DemandForwardingBridgeSupport.java:1219-1237 | The bridge learns the remote id. A remote id equal to the local id stops the bridge; otherwise the local half is scheduled. |
| Bridge.ServiceRemoteDuplex | activemq-core/src/main/java/org/apache/activemq/network/DemandForwardingBridgeSupport.java:440-505 | On a duplex bridge, an ack for a registered remote consumer is redirected to its proxy, and one for an unknown consumer is dropped. A consumer is taken only once `localStartedLatch` is released, and is added only while started. A permitted plain message is forwarded locally, and shutdown fails the bridge. |
| Bridge.RemoteBrokerInfo | activemq-core/src/main/java/org/apache/activemq/network/DemandForwardingBridgeSupport.java:408-435 | The bridge records the peer's `BrokerInfo` and id and takes the configured destination lists. It then passes the command to the local broker and announces the peer. |
| Bridge.HandleRemote | activemq-core/src/main/java/org/apache/activemq/network/DemandForwardingBridgeSupport.java:402-516 | Stated once any latch the command waits on is released. A dispatch without a message throws. A connection error fails the bridge, and a `BrokerInfo` is recorded. A non-duplex bridge ignores other commands: it neither throws nor changes anything. |
| Bridge.ServiceRemoteCommand | activemq-core/src/main/java/org/apache/activemq/network/DemandForwardingBridgeSupport.java:400-524 | A disposed bridge ignores the remote side. Otherwise, once any latch the command waits on is released, the command is handled, and a throw ends in `serviceRemoteException`. |
| Bridge.IncOutstanding | activemq-core/src/main/java/org/apache/activemq/network/DemandForwardingBridgeSupport.java:685 | That proxy's outstanding count rises by one, and every other count stays. |
| Bridge.DecOutstanding | activemq-core/src/main/java/org/apache/activemq/network/DemandForwardingBridgeSupport.java:695-716 | That proxy's outstanding count falls by one, not below zero, and every other count stays. |
| Bridge.ConfigureMessage | activemq-core/src/main/java/org/apache/activemq/network/DemandForwardingBridgeSupport.java:665-676 | The forwarded copy ends its path with this broker, so `contains` finds it. It carries the bridge's producer, the dispatch's destination and no transaction. The original transaction id keeps the first one seen, and nothing else changes. |
| Bridge.Forward | activemq-core/src/main/java/org/apache/activemq/network/DemandForwardingBridgeSupport.java:700-746 | A non-persistent message, sends not forced synchronous, is sent one-way and acknowledged at once. Any other message is sent as a request with the count left raised. |
| Bridge.LocalDispatch | activemq-core/src/main/java/org/apache/activemq/network/DemandForwardingBridgeSupport.java:681-751 | A dispatch to an unknown proxy, without a message, or not accepted changes nothing. Otherwise a durable proxy whose filter rejects the message acknowledges it without forwarding. Any other message is forwarded, and without a producer the bridge fails. |
| Bridge.OnForwardResponse | activemq-core/src/main/java/org/apache/activemq/network/DemandForwardingBridgeSupport.java:725-742 | The outstanding count falls either way. A normal response acknowledges the dispatch locally and counts a dequeue; an exception response fails the bridge. |
| Bridge.ServiceLocalCommand | activemq-core/src/main/java/org/apache/activemq/network/DemandForwardingBridgeSupport.java:678-774 | A disposed bridge ignores the local side. A dispatch is counted and handled. Shutdown stops the bridge, and so does a loop-back `BrokerInfo` once `startedLatch` is released. A connection error fails the bridge. The subscriptions never change. |
| BridgeProperties.SetupStaticRegistersEach | activemq-core/src/main/java/org/apache/activemq/network/DemandForwardingBridgeSupport.java:960-976 | Setting up the static destinations registers one new subscription per destination. The maps stay in lockstep, with every id drawn from the sequence. |
| BridgeProperties.StaticSetupFromEmpty | activemq-core/src/main/java/org/apache/activemq/network/DemandForwardingBridgeSupport.java:271-275 | The static subscriptions set up in empty maps satisfy the bridge invariant. |
| BridgeProperties.StartLocalBridgeKeepsInv | activemq-core/src/main/java/org/apache/activemq/network/DemandForwardingBridgeSupport.java:232-280 | Starting the local half keeps the invariant. |
| BridgeProperties.AddConsumerKeepsInv | activemq-core/src/main/java/org/apache/activemq/network/DemandForwardingBridgeSupport.java:978-992 | For a fresh remote id, `addConsumerInfo` keeps the invariant. A suppressed consumer leaves the maps exactly as they were; an added one is registered under its remote id. |
| BridgeProperties.RemoveKeepsInv | activemq-core/src/main/java/org/apache/activemq/network/DemandForwardingBridgeSupport.java:1154-1165 | Removal keeps the invariant, and the remote id is gone afterwards. |
| BridgeProperties.AdvisoryKeepsInv | activemq-core/src/main/java/org/apache/activemq/network/DemandForwardingBridgeSupport.java:403-407 | Handling and acknowledging an advisory with a fresh consumer id keeps the invariant. |
| BridgeProperties.BrokerInfoKeepsInv | activemq-core/src/main/java/org/apache/activemq/network/DemandForwardingBridgeSupport.java:408-435 | The peer's `BrokerInfo` keeps the invariant. |
| BridgeProperties.RemoteCommandKeepsInv | activemq-core/src/main/java/org/apache/activemq/network/DemandForwardingBridgeSupport.java:400-524 | Any remote command that does not wait, and whose consumer id is fresh, keeps the invariant. |
| BridgeProperties.LocalCommandKeepsInv | activemq-core/src/main/java/org/apache/activemq/network/DemandForwardingBridgeSupport.java:678-774 | Any local command that does not wait keeps the invariant. |
| BridgeProperties.TransitionKeepsInv | activemq-core/src/main/java/org/apache/activemq/network/DemandForwardingBridgeSupport.java:157-381 | Every lifecycle call, command or callback with a fresh remote consumer id keeps the invariant. |
| BridgeProperties.RunKeepsInv | activemq-core/src/main/java/org/apache/activemq/network/DemandForwardingBridgeSupport.java:157-381 | Any run of such transitions keeps the invariant. |
| BridgeProperties.FromInitKeepsInv | activemq-core/src/main/java/org/apache/activemq/network/DemandForwardingBridgeSupport.java:143-146 | From construction on, any run of such transitions keeps the two maps in lockstep. |
| BridgeProperties.LifecycleCallsAreOneShot | activemq-core/src/main/java/org/apache/activemq/network/DemandForwardingBridgeSupport.java:157-381 | `start`, `stop`, `startRemoteBridge` and `startLocalBridge` each take effect once; repeating a call changes nothing. |
| BridgeProperties.DisposedIsFinal | activemq-core/src/main/java/org/apache/activemq/network/DemandForwardingBridgeSupport.java:400-401 | Disposal is never undone, and a disposed bridge ignores commands from both sides. |
| BridgeProperties.RemoteLoopBackDisposes | activemq-core/src/main/java/org/apache/activemq/network/DemandForwardingBridgeSupport.java:1219-1237 | A started bridge whose peer is its own broker ends disposed and sends shutdown to both sides. It never schedules the local half. |
| BridgeProperties.StopNeverSchedulesStart | activemq-core/src/main/java/org/apache/activemq/network/DemandForwardingBridgeSupport.java:335-381 | `stop` never schedules a local start. |
| BridgeProperties.RemotePeerStartsLocalHalf | activemq-core/src/main/java/org/apache/activemq/network/DemandForwardingBridgeSupport.java:1219-1237 | A live bridge whose peer is another broker records its id and schedules the local half. |
| BridgeProperties.AcceptedLocalStartOpensLatches | activemq-core/src/main/java/org/apache/activemq/network/DemandForwardingBridgeSupport.java:232-273 | With the remote half started, a local start the local broker accepts releases both latches. |
| BridgeProperties.RefusedLocalStartKeepsLatchesShut | activemq-core/src/main/java/org/apache/activemq/network/DemandForwardingBridgeSupport.java:253-272 | A local start the local broker refuses throws before its count-down, so neither latch is released. |
| BridgeProperties.StopOpensLatches | activemq-core/src/main/java/org/apache/activemq/network/DemandForwardingBridgeSupport.java:335-372 | The first stop of a started bridge releases both latches. |
| BridgeProperties.WaitingCommandChangesNothing | activemq-core/src/main/java/org/apache/activemq/network/DemandForwardingBridgeSupport.java:400-480 | A command that waits on a latch not yet released has not completed: nothing is registered, sent, stopped or failed. |
| BridgeProperties.ReleasedAdvisoryFindsLocalSession | activemq-core/src/main/java/org/apache/activemq/network/DemandForwardingBridgeSupport.java:402-406 | Once `startedLatch` is released on a live bridge, an advisory with a data structure never fails for want of the local connection or session. |
| BridgeProperties.IgnoredConsumerIsOnlyAcknowledged | activemq-core/src/main/java/org/apache/activemq/network/DemandForwardingBridgeSupport.java:543-569 | An ignored consumer advisory, once `startedLatch` is released, changes no subscription and sends nothing to the local broker. |
| BridgeProperties.AcceptedConsumerIsBridged | activemq-core/src/main/java/org/apache/activemq/network/DemandForwardingBridgeSupport.java:573-583 | An accepted consumer arriving once `startedLatch` is released, with suppression off for its type, is registered under its remote id, and its proxy goes to the local broker. |
| BridgeProperties.DuplexAckReachesProxy | activemq-core/src/main/java/org/apache/activemq/network/DemandForwardingBridgeSupport.java:467-476 | On a duplex bridge, a remote ack for a registered consumer reaches that subscription's local proxy. |
| BridgeProperties.RemoveByLocalIdRemoves | activemq-core/src/main/java/org/apache/activemq/network/DemandForwardingBridgeSupport.java:1167-1179 | Removal by a registered local id succeeds and takes that proxy out of the local map. |
| BridgeProperties.AckThresholdExact | activemq-core/src/main/java/org/apache/activemq/network/DemandForwardingBridgeSupport.java:528 | `count > prefetch * .75` holds exactly from `3 * prefetch / 4 + 1` on. |
| BridgeProperties.AckRunBatches | activemq-core/src/main/java/org/apache/activemq/network/DemandForwardingBridgeSupport.java:526-534 | Any number of advisories is acknowledged in batches of exactly the threshold, with fewer than the threshold left counted. |
| BridgeProperties.DefaultPrefetchBatches | activemq-core/src/main/java/org/apache/activemq/network/DemandForwardingBridgeSupport.java:526-534 | With prefetch 1000, acknowledgements come in batches of 751. |
| BridgeProperties.FirstAckAt76 | activemq-core/src/main/java/org/apache/activemq/network/DemandForwardingBridgeSupport.java:526-534 | With prefetch 100, 75 advisories send no acknowledgement, and the 76th acknowledges all 76. |
| BridgeProperties.FilteredDurableIsAckedNotForwarded | activemq-core/src/main/java/org/apache/activemq/network/DemandForwardingBridgeSupport.java:687-698 | A durable proxy's filtered message is acknowledged locally, not forwarded, and the outstanding count is left as it was. |
| BridgeProperties.AsyncForwardIsAckedAtOnce | activemq-core/src/main/java/org/apache/activemq/network/DemandForwardingBridgeSupport.java:705-718 | A non-persistent message is sent one-way, with this broker ending its path, and acknowledged locally at once. |
| BridgeProperties.SyncForwardAwaitsResponse | activemq-core/src/main/java/org/apache/activemq/network/DemandForwardingBridgeSupport.java:719-746 | A persistent message is sent as a request, raising the outstanding count by one. The response acknowledges it and brings the count back. |
| ListNodes.FirstMatch | kahadb/src/main/java/org/apache/kahadb/index/ListIndex.java:109-114 | The head-first scan answers the first position with the key, or none exactly when no entry has it. |
| ListNodes.LastMatch | kahadb/src/main/java/org/apache/kahadb/index/ListNode.java:316-323 | The tail-first scan answers the last position with the key, or none exactly when no entry has it. |
| ListNodes.RemoveAt | kahadb/src/main/java/org/apache/kahadb/index/ListNode.java:237 | Unlinking an entry leaves the others in order, one fewer. |
| ListNodes.NodePut | kahadb/src/main/java/org/apache/kahadb/index/ListNode.java:259-266 | A null key is refused with `IllegalArgumentException`. Otherwise the entry goes last, the others are unchanged, and `next` stays. |
| ListNodes.NodeAddFirst | kahadb/src/main/java/org/apache/kahadb/index/ListNode.java:268-275 | A null key is refused. Otherwise the entry goes first and the others follow unchanged. |
| ListNodes.NodeGet | kahadb/src/main/java/org/apache/kahadb/index/ListNode.java:311-325 | A null key is refused. Otherwise the answer is the value of the entry with the key nearest the tail, or null exactly when no entry has it. |
| ListNodes.NodeContains | kahadb/src/main/java/org/apache/kahadb/index/ListNode.java:356-370 | A null key is refused. Otherwise true iff some entry has the key. |
| ListNodes.NodeSize | kahadb/src/main/java/org/apache/kahadb/index/ListNode.java:51-53 | The size is zero exactly when `isEmpty` holds. |
| ListNodes.NodeFirst | kahadb/src/main/java/org/apache/kahadb/index/ListNode.java:331-333 | The first entry, or null exactly for an empty node. |
| ListNodes.NodeLast | kahadb/src/main/java/org/apache/kahadb/index/ListNode.java:335-337 | The last entry, or null exactly for an empty node. |
| ListNodes.PutThenGet | kahadb/src/main/java/org/apache/kahadb/index/ListNode.java:259-325 | What was put last is what the node's `get` finds, whatever else the node holds. |
| ListNodes.AddFirstThenGet | kahadb/src/main/java/org/apache/kahadb/index/ListNode.java:268-325 | What was added first is found by the node's `get` only if no later entry has the same key. |
| ListNodes.NodeGetIsNotFirstMatch | kahadb/src/main/java/org/apache/kahadb/index/ListNode.java:316-323 | On a node holding two entries with one key, the node's `get` answers the later one. |
| Payload.WriteSigned | kahadb/src/main/java/org/apache/kahadb/index/ListNode.java:203-209 | `writeLong` and `writeShort` emit exactly 8 and 2 bytes. |
| Payload.ReadSigned | kahadb/src/main/java/org/apache/kahadb/index/ListNode.java:221-222 | `readLong` and `readShort` answer a value in the two's-complement range of their width. |
| Payload.SignedRoundTrip | kahadb/src/main/java/org/apache/kahadb/index/ListNode.java:203-222 | Reading back a written long or short gives the value written. |
| Payload.WritePayload | kahadb/src/main/java/org/apache/kahadb/index/ListNode.java:202-216 | Writing fails with the short-overflow error exactly when there are more than 32767 entries. Otherwise the bytes start with `next` as a long and the count as a short. |
| Payload.ReadEntries | kahadb/src/main/java/org/apache/kahadb/index/ListNode.java:223-227 | A successful read yields exactly the count of entries, none for a negative count. |
| Payload.ReadPayload | kahadb/src/main/java/org/apache/kahadb/index/ListNode.java:219-229 | The node read has a long `next` and at most 32767 entries, and fewer than 10 bytes are an end of stream. |
| Payload.EntriesRoundTrip | kahadb/src/main/java/org/apache/kahadb/index/ListNode.java:210-227 | With codecs that round-trip, written entries read back the same, whatever follows them. |
| Payload.PayloadRoundTrip | kahadb/src/main/java/org/apache/kahadb/index/ListNode.java:202-229 | For a node of at most 32767 entries, writing succeeds. Reading back, with any bytes after, gives the same `next` and the same entries in order. |
| Payload.TooManyEntriesRefused | kahadb/src/main/java/org/apache/kahadb/index/ListNode.java:204-207 | A node of 32768 entries cannot be written. |
| PageChains.Walk | kahadb/src/main/java/org/apache/kahadb/index/ListIndex.java:72-78 | The walk visits stored pages, each linked to the one before, from the start. A complete walk ends at a page with no next page; a dangling one names the first id that is not stored. |
| PageChains.ScanFrom | kahadb/src/main/java/org/apache/kahadb/index/ListNode.java:142-161 | The pages the entry iterator moves into all hold entries. |
| PageChains.Scan | kahadb/src/main/java/org/apache/kahadb/index/ListNode.java:127-161 | The iterator's scan starts at a stored head, and a missing head ends it at once. |
| PageChains.WalkFollowsChain | kahadb/src/main/java/org/apache/kahadb/index/ListIndex.java:72-78 | A walk with enough steps follows a chain exactly to its end. |
| PageChains.ChainIsFound | kahadb/src/main/java/org/apache/kahadb/index/ListIndex.java:72-78 | The walk from the head finds any chain that starts there. |
| PageChains.ScanFollowsChain | kahadb/src/main/java/org/apache/kahadb/index/ListNode.java:142-161 | Along a chain whose pages all hold entries, the scan reads every page. |
| PageChains.ScanReadsChain | kahadb/src/main/java/org/apache/kahadb/index/ListNode.java:127-161 | The iterator reads a whole chain whose pages after the head hold entries. |
| ListIndexes.New | kahadb/src/main/java/org/apache/kahadb/index/ListIndex.java:50-53 | A new index is not loaded, has size 0, and has its tail field at the default 0. |
| ListIndexes.ScanOfValid | kahadb/src/main/java/org/apache/kahadb/index/ListNode.java:127-161 | On a valid index, the entry iterator reads exactly the list. |
| ListIndexes.LoadAsWritten | kahadb/src/main/java/org/apache/kahadb/index/ListIndex.java:55-81 | `load` as written: only the first call acts. A stored list of one page keeps the old tail. |
| ListIndexes.Load | kahadb/src/main/java/org/apache/kahadb/index/ListIndex.java:55-81 | Only the first call acts, marking the index loaded. A missing marshaller is refused with `IllegalArgumentException`. |
| ListIndexes.Unload | kahadb/src/main/java/org/apache/kahadb/index/ListIndex.java:83-86 | Only the loaded mark changes. |
| ListIndexes.Write | kahadb/src/main/java/org/apache/kahadb/index/ListIndex.java:222-224 | Storing a node succeeds iff its count survives the short cast and it fits. Success replaces exactly that page; too many entries is the short-overflow error. |
| ListIndexes.Store | kahadb/src/main/java/org/apache/kahadb/index/ListNode.java:277-284 | Storing, and splitting on overflow, keeps size, head and loaded. An add-first store without the tail fix keeps the tail. |
| ListIndexes.Split | kahadb/src/main/java/org/apache/kahadb/index/ListNode.java:290-304 | A split that succeeds keeps size, head and loaded. An add-first split without the tail fix keeps the tail. A failed split yields only its failure. |
| ListIndexes.Add | kahadb/src/main/java/org/apache/kahadb/index/ListIndex.java:126-131 | `IllegalState` when not loaded. A tail page that cannot be loaded is a broken chain, and a null key is `IllegalArgument`. A failed store yields only its failure. |
| ListIndexes.AddFirstAsWritten | kahadb/src/main/java/org/apache/kahadb/index/ListNode.java:290-297 | `addFirst` as written never moves the tail and counts the entry. |
| ListIndexes.AddFirst | kahadb/src/main/java/org/apache/kahadb/index/ListIndex.java:133-138 | `IllegalState` when not loaded. A head page that cannot be loaded is a broken chain, and a null key is `IllegalArgument`. |
| ListIndexes.Get | kahadb/src/main/java/org/apache/kahadb/index/ListIndex.java:107-116 | `IllegalState` when not loaded; the value is stated against the list by `GetFindsFirst`. |
| ListIndexes.ContainsKey | kahadb/src/main/java/org/apache/kahadb/index/ListIndex.java:96-105 | `IllegalState` when not loaded; the answer is stated against the list by `ContainsKeyIff`. |
| ListIndexes.GetFirst | kahadb/src/main/java/org/apache/kahadb/index/ListIndex.java:186-188 | Fails exactly when the head page cannot be loaded. |
| ListIndexes.GetLast | kahadb/src/main/java/org/apache/kahadb/index/ListIndex.java:190-192 | Fails exactly when the tail page cannot be loaded. |
| ListIndexes.IsEmpty | kahadb/src/main/java/org/apache/kahadb/index/ListIndex.java:174-176 | Fails exactly when the head page cannot be loaded. |
| ListIndexes.DoRemove | kahadb/src/main/java/org/apache/kahadb/index/ListNode.java:236-257 | Removing an entry from a page keeps size and loaded; the counting is `onRemove`'s. |
| ListIndexes.RemoveEntry | kahadb/src/main/java/org/apache/kahadb/index/ListNode.java:173-186 | The iterator's remove followed by `onRemove` drops the size by one. |
| ListIndexes.RemoveAsWritten | kahadb/src/main/java/org/apache/kahadb/index/ListIndex.java:140-154 | `IllegalState` when not loaded, and a removed match drops the size by one. |
| ListIndexes.Remove | kahadb/src/main/java/org/apache/kahadb/index/ListIndex.java:140-154 | `IllegalState` when not loaded. No match leaves the index as it was, and a removed match drops the size by one. |
| ListIndexes.FreeFrom | kahadb/src/main/java/org/apache/kahadb/index/ListNode.java:93-113 | The node iterator's freeing pass only frees pages. It frees the start page unless its next page cannot be loaded. |
| ListIndexes.Clear | kahadb/src/main/java/org/apache/kahadb/index/ListIndex.java:160-168 | Head, tail, loaded and the allocation mark stay. A missing head is a broken chain, and a complete pass frees the head and sets size 0. |
| ListIndexProperties.LoadFreeHead | kahadb/src/main/java/org/apache/kahadb/index/ListIndex.java:65-70 | Loading over a free head page gives a valid empty list whose head and tail are that page. |
| ListIndexProperties.LoadFindsChain | kahadb/src/main/java/org/apache/kahadb/index/ListIndex.java:71-79 | Loading over a stored list finds it. The chain is the list, the tail its last page, and the size its entry count. |
| ListIndexProperties.AddAppends | kahadb/src/main/java/org/apache/kahadb/index/ListIndex.java:122-131 | On a valid list, `add` succeeds iff the tail page can take the entry or a new page can. It then leaves a valid list with the entry at the end and the size one more. |
| ListIndexProperties.AddGrown | kahadb/src/main/java/org/apache/kahadb/index/ListNode.java:259-284 | When the grown tail page fits, it is written in place. |
| ListIndexProperties.AddSplit | kahadb/src/main/java/org/apache/kahadb/index/ListNode.java:290-304 | When it does not fit but the new entry alone does, only the new entry moves to a new last page, which becomes the tail. |
| ListIndexProperties.AddRefused | kahadb/src/main/java/org/apache/kahadb/index/ListNode.java:259-284 | A full tail page, or neither fitting, makes `add` fail. The index the failure leaves behind is not stated. |
| ListIndexProperties.AddFirstPrepends | kahadb/src/main/java/org/apache/kahadb/index/ListIndex.java:133-138 | On a valid list, `addFirst` succeeds iff the head page can take the entry or keep it alone. It then leaves a valid list with the entry at the front and the size one more. |
| ListIndexProperties.AddFirstGrown | kahadb/src/main/java/org/apache/kahadb/index/ListNode.java:268-284 | When the grown head page fits, it is written in place. |
| ListIndexProperties.AddFirstSplit | kahadb/src/main/java/org/apache/kahadb/index/ListNode.java:290-297 | Otherwise the head keeps only the new entry, and a new page linked after it takes the rest and the old successor. |
| ListIndexProperties.AddFirstRefused | kahadb/src/main/java/org/apache/kahadb/index/ListNode.java:268-284 | A full head page, or neither fitting, makes `addFirst` fail. |
| ListIndexProperties.GetFindsFirst | kahadb/src/main/java/org/apache/kahadb/index/ListIndex.java:107-116 | On a valid list, `get` answers the value of the first entry with the key from the head, null iff none has it. A null key fails unless the list is empty. |
| ListIndexProperties.ContainsKeyIff | kahadb/src/main/java/org/apache/kahadb/index/ListIndex.java:96-105 | On a valid list, `containsKey` holds iff some entry has the key. |
| ListIndexProperties.IndexGetIsNotNodeGet | kahadb/src/main/java/org/apache/kahadb/index/ListIndex.java:107-116 | On one page holding two entries with one key, the list's `get` answers the earlier value and the node's `get` the later. |
| ListIndexProperties.EndsOfValid | kahadb/src/main/java/org/apache/kahadb/index/ListIndex.java:174-192 | On a valid list, `getFirst` is the first entry, `getLast` the last, `isEmpty` holds iff there is none, and `size` counts them. |
| ListIndexProperties.FrontOfValid | kahadb/src/main/java/org/apache/kahadb/index/ListIndex.java:186-188 | The head page's entries start the list, and the page is empty only when the list is. |
| ListIndexProperties.BackOfValid | kahadb/src/main/java/org/apache/kahadb/index/ListIndex.java:190-192 | The tail page's entries end the list, and the page is empty only when the list is. |
| ListIndexProperties.RemoveInPage | kahadb/src/main/java/org/apache/kahadb/index/ListNode.java:254-256 | A page that keeps other entries is written without the removed one, in place. |
| ListIndexProperties.RemoveDropsHead | kahadb/src/main/java/org/apache/kahadb/index/ListNode.java:239-243 | An emptied head with a successor is freed, and the successor becomes the head. |
| ListIndexProperties.RemoveEmptiesList | kahadb/src/main/java/org/apache/kahadb/index/ListNode.java:244-247 | An emptied only page stays, empty, as head and tail. |
| ListIndexProperties.RemoveUnlinksPage | kahadb/src/main/java/org/apache/kahadb/index/ListNode.java:248-253 | An emptied page after another is unlinked with `prev.next = current.next` and freed. The tail moves back to `prev` if it was that page. |
| ListIndexProperties.UnlinkIndex | kahadb/src/main/java/org/apache/kahadb/index/ListNode.java:248-253 | The unlinked index, counted off, is valid and lacks exactly that page's entry. |
| ListIndexProperties.RemoveEntryRemoves | kahadb/src/main/java/org/apache/kahadb/index/ListNode.java:173-186 | On a valid list, the iterator's remove of entry `g` takes out exactly that entry. The list stays valid, the other entries keep their order, and the size drops by one. |
| ListIndexProperties.DoRemoveCounted | kahadb/src/main/java/org/apache/kahadb/index/ListNode.java:236-257 | Whichever of the four cases applies, the list counted off is valid and lacks exactly the removed entry. |
| ListIndexProperties.RemoveTakesFirstMatch | kahadb/src/main/java/org/apache/kahadb/index/ListIndex.java:140-154 | On a valid list, `remove` takes out only the first entry with the key and answers its value, with the size one less. With no match it answers null and changes nothing, and a null key fails unless the list is empty. |
| ListIndexProperties.FreeChain | kahadb/src/main/java/org/apache/kahadb/index/ListNode.java:93-113 | Freeing from the first page of a chain frees exactly its pages and reports nothing. |
| ListIndexProperties.ClearFreesChain | kahadb/src/main/java/org/apache/kahadb/index/ListIndex.java:160-168 | On a valid list, `clear` frees exactly the chain's pages, keeps every other page, and sets the size to 0. |
| ListIndexProperties.ClearedIndexRefusesAdd | kahadb/src/main/java/org/apache/kahadb/index/ListIndex.java:126-138 | After `clear` the head and tail pages are free, so `add`, `addFirst` and `getFirst` fail to load them. |
| ListIndexProperties.ClearThenReload | kahadb/src/main/java/org/apache/kahadb/index/ListIndex.java:55-86 | A list cleared, unloaded and loaded again is the valid empty list on its old head page. |
| ListFindings.LoadLeavesTailUnset | kahadb/src/main/java/org/apache/kahadb/index/ListIndex.java:71-79 | As written, loading a stored one-page list keeps the tail at 0, a page holding no node, so the next `add` fails. |
| ListFindings.LoadSetsTail | kahadb/src/main/java/org/apache/kahadb/index/ListIndex.java:71-79 | With the tail starting at the head, the loaded list is valid and `add` appends to it. |
| ListFindings.AddFirstLosesEntry | kahadb/src/main/java/org/apache/kahadb/index/ListNode.java:290-304 | As written, an add-first split of the only page leaves the tail on the head. The next `add` links past the extension, and an entry falls out of the list. |
| ListFindings.AddFirstKeepsEntry | kahadb/src/main/java/org/apache/kahadb/index/ListNode.java:290-304 | With the tail moved to the extension, the list stays valid and keeps both entries. |
| ListFindings.RemoveLeavesTailFreed | kahadb/src/main/java/org/apache/kahadb/index/ListNode.java:248-253 | As written, emptying the last page frees it but leaves the tail on it, so the next `add` fails. |
| ListFindings.RemoveMovesTailBack | kahadb/src/main/java/org/apache/kahadb/index/ListNode.java:248-253 | With the tail moved back to `prev`, the list stays valid and keeps the other entry. |
| ListFindings.RemoveStoresHead | kahadb/src/main/java/org/apache/kahadb/index/ListNode.java:254-256 | As written, removing from a later page that keeps entries writes the head page again. The stored pages stay unchanged while the size drops. |
| ListFindings.RemoveStoresPage | kahadb/src/main/java/org/apache/kahadb/index/ListNode.java:254-256 | Writing the changed page keeps the list valid without the entry. |
| ListIterators.Advance | kahadb/src/main/java/org/apache/kahadb/index/ListNode.java:142-157 | With no next page the iterator stays and answers false, and a next page that is not stored is `NoSuchElement`. A true answer leaves it on an entry with nothing marked for `remove`. |
| ListIterators.HasNext | kahadb/src/main/java/org/apache/kahadb/index/ListNode.java:159-161 | True, without moving, while the node has an entry left. A true answer always leaves the iterator on an entry. |
| ListIterators.Next | kahadb/src/main/java/org/apache/kahadb/index/ListNode.java:163-171 | Answers the next entry of the node and marks it for `remove`; with none left, `NoSuchElement`. |
| ListIterators.SkipTo | kahadb/src/main/java/org/apache/kahadb/index/ListNode.java:131-139 | The positioning loop either lands on an entry of a node or fails with `NoSuchElement`. |
| ListIterators.Open | kahadb/src/main/java/org/apache/kahadb/index/ListNode.java:127-140 | A head that cannot be loaded is a broken chain. For `pos <= 0` the iterator starts at the head's first entry, and it never starts with an entry marked for `remove`. |
| ListIterators.IterRemove | kahadb/src/main/java/org/apache/kahadb/index/ListNode.java:173-186 | Without an entry returned by `next` since the last remove, `IllegalState`. A successful remove drops the size by one and clears the mark. |
| ListIterators.AdvanceReads | kahadb/src/main/java/org/apache/kahadb/index/ListNode.java:142-157 | Off the end of its node, the iterator moves on exactly when entries remain in the list. |
| ListIterators.HasNextReads | kahadb/src/main/java/org/apache/kahadb/index/ListNode.java:159-161 | On a valid list, `hasNext` answers whether entry `g` exists, and the iterator stays at that entry. |
| ListIterators.NextReads | kahadb/src/main/java/org/apache/kahadb/index/ListNode.java:163-171 | On a valid list, `next` answers entry `g`, moves one on, and marks that entry for `remove`. |
| ListIterators.SkipReads | kahadb/src/main/java/org/apache/kahadb/index/ListNode.java:131-139 | Skipping `n` entries from entry `g` lands on entry `g + n`, or fails with `NoSuchElement` when the list has no such entry. |
| ListIterators.OpenReads | kahadb/src/main/java/org/apache/kahadb/index/ListNode.java:127-140 | On a valid list, `iterator(pos)` starts at entry `pos`, or at the start for `pos <= 0` or an empty list. A position past the last entry is `NoSuchElement`. |
| ListIterators.IterRemoveReads | kahadb/src/main/java/org/apache/kahadb/index/ListNode.java:173-186 | On a valid list, `remove` after `next` takes out exactly the entry `next` answered and leaves a valid list one shorter. A second `remove` is refused. |
| ListIterators.IterRemoveGoesOn | kahadb/src/main/java/org/apache/kahadb/index/ListNode.java:173-186 | When the page keeps other entries, the iterator goes on reading the shorter list from the entry after the removed one. |
| ListIterators.ReadFrom | kahadb/src/main/java/org/apache/kahadb/index/ListIndex.java:182-184 | Opening at `pos` and reading until `hasNext` is false reads exactly the list from `pos` on, and a position past the end fails. |
| ListIterators.ReadRest | kahadb/src/main/java/org/apache/kahadb/index/ListNode.java:159-171 | Reading with `hasNext` and `next` from entry `g0` reads exactly the rest of the list. |

## Left out

- Transports, the `oneway`/`asyncRequest` I/O and the async task runner are left out: they are not sequential logic. Sends become events in the log, scheduled tasks become events, and the forward response callback is its own transition.
- The ten-second shutdown wait and `synchronized` blocks are left out. The model runs one transition at a time.
- A run may start the local half at any time, while the source starts it only from the task that `serviceRemoteBrokerInfo` schedules. The run lemmas therefore cover more runs than the source can make, including a local start before the remote broker is known.
- Bridge.HandleRemote: is stated only for a command that does not wait (`Waits`). In the source a dispatch blocks in `waitStarted` until both halves have started or `stop` runs. A consumer sent to a duplex bridge likewise blocks until the local half has started. In a run such a call does not complete, and the state stays as it is until a later transition delivers the command again. A thread that passed the disposed check and is then released by `stop` goes on to handle its command on the disposed bridge. The model instead takes each command whole, in the state where it is delivered, so a disposed bridge ignores it.
- Bridge.ServiceRemoteCommand: is stated only for a command that does not wait, for the reason given for Bridge.HandleRemote.
- Bridge.ServiceRemoteDuplex: is stated for a consumer only once `localStartedLatch` is released, for the reason given for Bridge.HandleRemote.
- Bridge.ServiceLocalCommand: is stated only for a command that does not wait (`LocalWaits`). The local broker's loop-back `BrokerInfo` blocks in `waitStarted` before it disposes the bridge.
- BridgeProperties.RemoteCommandKeepsInv: holds only when no consumer arrives under a remote id already registered. The source has no such guard: the advisory path (lines 538-583) does not look the id up, and lines 1140-1141 put into both maps unconditionally. The first proxy then stays in the local-id map for good, and a later remove advisory (lines 1154-1165) reaches only the second. Registry.ReusedRemoteIdBreaksLockstep shows the maps leaving lockstep.
- BridgeProperties.TransitionKeepsInv: holds only for transitions that bring no consumer under a registered remote id, for the reason given for BridgeProperties.RemoteCommandKeepsInv.
- BridgeProperties.RunKeepsInv: holds only for runs in which no consumer arrives under a registered remote id, for the reason given for BridgeProperties.RemoteCommandKeepsInv.
- BridgeProperties.FromInitKeepsInv: holds only for runs in which no consumer arrives under a registered remote id, for the reason given for BridgeProperties.RemoteCommandKeepsInv.
- BridgeProperties.AcceptedConsumerIsBridged: requires the consumer's remote id not to be registered yet. With a reused id the source still registers the new proxy, but the invariant no longer holds afterwards.
- JMX, logging, SSL peer certificates and the listener's `onStart`/`onStop` are left out. The listener calls appear only as events.
- The property introspection of the remote `BrokerInfo` (lines 411-430 of `DemandForwardingBridgeSupport.java`) is not modelled: the destination lists are taken from the configuration.
- `DestinationFilter` wildcard matching and the `NetworkBridgeFilter` factories belong to other classes, so both are parameters. The filter records only what it was created from.
- The broker's region lookup and `removeDuplicateSubscription` across network connectors are left out. The region subscriptions are an input, and a replacement appears as an event requesting the removal.
- Arbitration.Arbitrate: a replacement is only an event asking for the duplicate's removal. The `IOException` that removal may throw is logged and swallowed by the source, which admits the candidate either way, so the model leaves it out.
- Security exceptions are logged at a different level only, so they are not told apart from other exceptions.
- Connection ids and client ids are strings in the source; the model keeps the generator's prefix and sequence number.
- KahaDB transactions (`tx.commit`, rollback), the page cache and the page file are left out. The stored pages are a map, and a freed page is one that is no longer a key.
- Page allocation always hands out the first id past the pages in use (`limit`); free-list reuse is not modelled.
- The page overflow decision is the parameter `fits`. `storeNode` is always called without overflow, so a node that does not fit always splits.
- Key and value marshallers are codecs given as parameters. A missing marshaller is a flag on the index.
- `PageChains.Walk` takes as many steps as there are pages. A cyclic chain ends as `Diverges`, where the source would loop for ever.
- A page that holds no node, when loaded, surfaces as `BrokenChain(id)`. The page file's own exception, and the node iterator's wrapping of it in `IllegalStateException`, are not distinguished.
- The node iterator's `remove`, which always throws `UnsupportedOperationException`, is not modelled.
- ListIndexes.Split: a failed split returns only the failure, without the index it leaves behind. In the source, an add-last split first moves `tailPageId` to the freshly allocated extension (line 298 of `ListNode.java`). It then writes this node (line 302) before the extension's own store (line 303) can throw. The extension throws, for instance, with a `NullPointerException` at line 300 when the new entry alone does not fit. So the source keeps a tail on a page that was never stored, plus the allocated and written pages. The model drops that state.
- ListIndexes.Store: a failure carries no index either, for the reason given for ListIndexes.Split.
- ListIndexes.Add: a failed add carries no index, for the reason given for ListIndexes.Split. After such a failure the source's next `add` fails to load the tail, while the model's caller still holds the earlier, valid index.
- ListIndexes.AddFirst: a failed add-first carries no index either, for the reason given for ListIndexes.Split. The pages an add-first split allocated and wrote before the failure are dropped.
- ListIndexProperties.AddRefused: states only that the add fails. It does not state that the index is still usable afterwards: in the source, a refused add-last split leaves the tail on an unstored page.
- ListIterators.IterRemove: requires the node the iterator holds to be the page as stored. The source removes from its in-memory node whatever the page holds.
- ListIterators.Advance: the iterator reads each page from the stored pages and forgets the entry to remove when it moves to another page. So a `remove` after a `hasNext` that changed pages is refused, where the source would unlink the entry from the node it left.
- ListIterators.IterRemoveGoesOn: continuing after a remove that dropped the iterator's page is not stated. The source then reads on through a page it has freed.
- ListIterators.ReadFrom: requires a valid list. On a cyclic chain the source would never return.
- ListIndexes.RemoveEntry: requires the entry to be one the iterator reads. `ListIndex.remove` only removes entries it has just read.

## Findings

| source | as written | input that shows it | evidently intended | confidence | as-written member | corrected member |
|---|---|---|---|---|---|---|
| kahadb/src/main/java/org/apache/kahadb/index/ListIndex.java:71-79 | `tailPageId` is only assigned inside the loop over the pages after the head | A freshly constructed index (tail field 0) over a stored one-page list on page 5: after `load` the tail is 0, which holds no node, and the next `add` fails | The tail starts at the head, so a one-page list ends where it starts | medium, not executed | ListFindings.LoadLeavesTailUnset | ListFindings.LoadSetsTail |
| kahadb/src/main/java/org/apache/kahadb/index/ListNode.java:292-296 | An add-first split links the extension after the head but never moves the tail | One page holding one entry, a page check passing one entry per page: `addFirst` splits the page, the tail stays on the head, and the next `add` links its new page after the head, past the extension, losing its entry | When the split page was the tail, the extension becomes the tail | medium, not executed | ListFindings.AddFirstLosesEntry | ListFindings.AddFirstKeepsEntry |
| kahadb/src/main/java/org/apache/kahadb/index/ListNode.java:248-253 | Unlinking an emptied page after the head frees it but leaves `tailPageId` on it when it was the tail | A two-page list whose second page holds one entry: removing that entry frees page 2, the tail stays 2, and the next `add` fails to load it | When the freed page was the tail, the tail moves back to `prev` | medium, not executed | ListFindings.RemoveLeavesTailFreed | ListFindings.RemoveMovesTailBack |
| kahadb/src/main/java/org/apache/kahadb/index/ListNode.java:254-256 | `store(tx)` writes the node `doRemove` runs on, the head the iterator was made from, and not `current` | A two-page list whose second page holds two entries: removing the first of them writes the head page again, the stored second page keeps the entry, and the size drops by one | The page the entry was removed from is written | low (a shared page cache may hide it), not executed | ListFindings.RemoveStoresHead | ListFindings.RemoveStoresPage |

=== FILE: arbitration.dfy ===
/**
 * Duplicate-subscription arbitration (`duplicateSuppressionIsRequired`,
 * `matchFound`, `hasLowerPriority`) and the hop-based consumer priority of
 * `doCreateDemandSubscription`.
 */
module Arbitration {
  import opened Results
  import opened BrokerPaths
  import opened Registry

  /**
   * A live subscription of the local broker, as the region reports it:
   * `durableTopicSubscription` tells whether it is a `DurableTopicSubscription`
   * and `active` whether that durable subscription is active.
   */
  datatype RegionSubscription = RegionSubscription(info: ConsumerInfo, durableTopicSubscription: bool, active: bool)

  /** `isInActiveDurableSub`. */
  predicate InactiveDurable(s: RegionSubscription) {
    s.info.durable && s.durableTopicSubscription && !s.active
  }

  /**
   * `matchFound(candidateConsumers, networkConsumers)`: scans the existing
   * subscription's network consumer ids for one the candidate also carries.
   */
  function MatchFound(candidates: seq<ConsumerId>, networkConsumers: seq<ConsumerId>): (found: bool)
    ensures found <==> exists i :: 0 <= i < |networkConsumers| && networkConsumers[i] in candidates
  {
    if |networkConsumers| == 0 then false
    else if networkConsumers[0] in candidates then true
    else
      var rest := MatchFound(candidates, networkConsumers[1..]);
      assert forall i :: 1 <= i < |networkConsumers| ==> networkConsumers[i] == networkConsumers[1..][i - 1];
      rest
  }

  /** An existing subscription overlaps the candidate's network consumer ids. */
  predicate Overlaps(candidates: seq<ConsumerId>, s: RegionSubscription) {
    |s.info.networkConsumerIds| > 0 && MatchFound(candidates, s.info.networkConsumerIds)
  }

  /** `subs[i]` is the first subscription that overlaps. */
  ghost predicate FirstOverlapAt(candidates: seq<ConsumerId>, subs: seq<RegionSubscription>, i: int) {
    0 <= i < |subs| && Overlaps(candidates, subs[i])
    && forall j :: 0 <= j < i ==> !Overlaps(candidates, subs[j])
  }

  /** The scan of the region's subscriptions, from index `from` on. */
  function FirstOverlap(candidates: seq<ConsumerId>, subs: seq<RegionSubscription>, from: nat): (r: Option<nat>)
    requires from <= |subs|
    requires forall j :: 0 <= j < from ==> !Overlaps(candidates, subs[j])
    ensures r.Some? ==> FirstOverlapAt(candidates, subs, r.value)
    ensures r.None? ==> forall j :: 0 <= j < |subs| ==> !Overlaps(candidates, subs[j])
    decreases |subs| - from
  {
    if from == |subs| then None
    else if Overlaps(candidates, subs[from]) then Some(from)
    else FirstOverlap(candidates, subs, from + 1)
  }

  /** What arbitration decides about a candidate demand subscription. */
  datatype Decision =
    | Admit
    | Suppress
      /** Admit, after asking for the existing lower-priority subscription to be removed. */
    | Replace(existing: ConsumerId)

  /** Suppression is switched off for the candidate's destination type. */
  predicate SuppressionDisabled(suppressQueues: bool, suppressTopics: bool, candidate: DemandSubscription) {
    (candidate.remoteInfo.destination.IsQueue() && !suppressQueues)
    || (candidate.remoteInfo.destination.IsTopic() && !suppressTopics)
  }

  /**
   * `duplicateSuppressionIsRequired` together with `hasLowerPriority`: the
   * first live subscription whose network consumer ids meet the candidate's
   * decides. `current` is the region's subscription list for the candidate's
   * destination type.
   */
  function Arbitrate(suppressQueues: bool, suppressTopics: bool, candidate: DemandSubscription,
                     current: seq<RegionSubscription>): (d: Decision)
    ensures SuppressionDisabled(suppressQueues, suppressTopics, candidate) ==> d == Admit
    ensures d == Suppress <==>
              !SuppressionDisabled(suppressQueues, suppressTopics, candidate)
              && exists i :: FirstOverlapAt(candidate.remoteInfo.networkConsumerIds, current, i)
                             && !InactiveDurable(current[i])
                             && current[i].info.priority >= candidate.localInfo.priority
    ensures d.Replace? <==>
              !SuppressionDisabled(suppressQueues, suppressTopics, candidate)
              && exists i :: FirstOverlapAt(candidate.remoteInfo.networkConsumerIds, current, i)
                             && !InactiveDurable(current[i])
                             && current[i].info.priority < candidate.localInfo.priority
                             && d == Replace(current[i].info.consumerId)
    ensures (forall j :: 0 <= j < |current| ==> !Overlaps(candidate.remoteInfo.networkConsumerIds, current[j]))
            ==> d == Admit
  {
    if SuppressionDisabled(suppressQueues, suppressTopics, candidate) then Admit
    else
      match FirstOverlap(candidate.remoteInfo.networkConsumerIds, current, 0)
      case None => Admit
      case Some(i) =>
        FirstOverlapUnique(candidate.remoteInfo.networkConsumerIds, current, i);
        if InactiveDurable(current[i]) then Admit
        else if current[i].info.priority >= candidate.localInfo.priority then Suppress
        else Replace(current[i].info.consumerId)
  }

  /** At most one index is the first overlap. */
  lemma FirstOverlapUnique(candidates: seq<ConsumerId>, subs: seq<RegionSubscription>, i: int)
    requires FirstOverlapAt(candidates, subs, i)
    ensures forall j :: FirstOverlapAt(candidates, subs, j) ==> j == i
  {
  }

  /**
   * Only the first overlapping subscription matters: whatever follows it in
   * the region's list can be replaced without changing the decision.
   */
  lemma OnlyFirstOverlapMatters(suppressQueues: bool, suppressTopics: bool, candidate: DemandSubscription,
                                before: seq<RegionSubscription>, s: RegionSubscription,
                                after1: seq<RegionSubscription>, after2: seq<RegionSubscription>)
    requires forall j :: 0 <= j < |before| ==> !Overlaps(candidate.remoteInfo.networkConsumerIds, before[j])
    requires Overlaps(candidate.remoteInfo.networkConsumerIds, s)
    ensures Arbitrate(suppressQueues, suppressTopics, candidate, before + [s] + after1)
            == Arbitrate(suppressQueues, suppressTopics, candidate, before + [s] + after2)
  {
    var c := candidate.remoteInfo.networkConsumerIds;
    var l1, l2 := before + [s] + after1, before + [s] + after2;
    assert FirstOverlapAt(c, l1, |before|) && FirstOverlapAt(c, l2, |before|);
    assert l1[|before|] == s && l2[|before|] == s;
  }

  /**
   * Between two subscriptions sharing a network consumer id, the one with
   * strictly higher priority survives: a higher-priority candidate replaces
   * the existing one, a lower-or-equal one is suppressed.
   */
  lemma HigherPriorityWins(suppressQueues: bool, suppressTopics: bool, candidate: DemandSubscription,
                           existing: RegionSubscription)
    requires !SuppressionDisabled(suppressQueues, suppressTopics, candidate)
    requires Overlaps(candidate.remoteInfo.networkConsumerIds, existing) && !InactiveDurable(existing)
    ensures candidate.localInfo.priority > existing.info.priority
            ==> Arbitrate(suppressQueues, suppressTopics, candidate, [existing]) == Replace(existing.info.consumerId)
    ensures candidate.localInfo.priority <= existing.info.priority
            ==> Arbitrate(suppressQueues, suppressTopics, candidate, [existing]) == Suppress
  {
    assert FirstOverlapAt(candidate.remoteInfo.networkConsumerIds, [existing], 0);
  }

  /** Java's narrowing cast `(byte) x`: two's-complement wrap into [-128, 127]. */
  function ToByte(x: int): (b: int)
    ensures -128 <= b < 128
    ensures (b - x) % 256 == 0
    ensures -128 <= x < 128 ==> b == x
  {
    (x + 128) % 256 - 128
  }

  /**
   * The priority given to the local proxy consumer when priority decrease is
   * configured: the base, cast to a byte, lowered by `length + 1` (in byte
   * arithmetic) only when the path has more than one hop.
   */
  function HopPriority(base: int, path: Path): (p: int)
    ensures -128 <= p < 128
    ensures |Ids(path)| <= 1 ==> p == ToByte(base)
  {
    var b := ToByte(base);
    if path.Some? && |path.value| > 1 then ToByte(b - (|path.value| + 1)) else b
  }

  /**
   * Away from byte wrap-around, priority falls by exactly `length + 1` once
   * the path has two hops or more, so longer paths give strictly lower
   * priorities; a one-hop path keeps the base.
   */
  lemma LongerPathLowerPriority(base: int, a: seq<BrokerId>, b: seq<BrokerId>)
    requires -128 <= base < 128
    requires 1 < |a| < |b| && base - (|b| + 1) >= -128
    ensures HopPriority(base, Some(a)) == base - (|a| + 1)
    ensures HopPriority(base, Some(b)) == base - (|b| + 1)
    ensures HopPriority(base, Some(b)) < HopPriority(base, Some(a)) < HopPriority(base, Some(a[..1]))
  {
  }

  /**
   * The subtraction is done in byte arithmetic: a long enough path wraps a
   * low priority round to a high one.
   */
  lemma HopPriorityWraps(path: seq<BrokerId>)
    requires |path| == 10
    ensures HopPriority(-120, Some(path)) == 125
  {
  }
}

=== FILE: bridge.dfy ===
/**
 * The demand-forwarding network bridge between a local and a remote broker
 * (`DemandForwardingBridgeSupport`), as a state machine over immutable
 * states. Each transport callback and each lifecycle call is a function from
 * a bridge state to the next one; what the bridge sends, requests or asks
 * other components to do is appended to the state's event log.
 *
 * The broker's region (the live subscriptions arbitration looks at), the
 * destination-filter matcher and the network filter's verdict on a message
 * are parameters.
 */
module Bridge {
  import opened Results
  import opened BrokerPaths
  import opened Destinations
  import opened Registry
  import opened Arbitration

  /** The `NetworkBridgeConfiguration` settings the bridge logic reads. */
  datatype Config = Config(
    brokerName: string,
    networkTTL: int,
    prefetchSize: int,
    destinationFilter: string,
    lists: DestinationLists,
    bridgeTempDestinations: bool,
    duplex: bool,
    staticBridge: bool,
    dispatchAsync: bool,
    alwaysSyncSend: bool,
    decreaseNetworkConsumerPriority: bool,
    consumerPriorityBase: int,
    suppressDuplicateQueueSubscriptions: bool,
    suppressDuplicateTopicSubscriptions: bool)

  /** The composite advisory topic for temporary destinations (`AdvisorySupport`). */
  const TempDestinationAdvisoryTopics: string := "ActiveMQ.Advisory.TempQueue,ActiveMQ.Advisory.TempTopic"

  datatype ProducerId = ProducerId(connectionId: ConnectionId, sessionId: int, value: int)

  datatype BrokerInfo = BrokerInfo(brokerId: BrokerId, brokerName: string, duplexConnection: bool)

  datatype DestinationInfo = DestinationInfo(connectionId: Option<ConnectionId>, destination: Destination,
                                             brokerPath: Path, add: bool)

  /** The data structure an advisory message carries; `NoData` is a null one. */
  datatype Advisory =
    | NoData
    | ConsumerAdvisory(consumer: ConsumerInfo)
    | DestinationAdvisory(destInfo: DestinationInfo)
    | RemoveAdvisory(removedId: ConsumerId)
    | OtherData

  /**
   * The fields of a message the bridge reads or rewrites. `onAdvisoryTopic`
   * says whether the destination is a consumer or destination advisory topic.
   */
  datatype Message = Message(
    messageId: string,
    destination: Destination,
    brokerPath: Path,
    producerId: ProducerId,
    transactionId: Option<string>,
    originalTransactionId: Option<string>,
    persistent: bool,
    responseRequired: bool,
    commandId: int,
    onAdvisoryTopic: bool,
    data: Advisory)

  datatype MessageDispatch = MessageDispatch(consumerId: ConsumerId, destination: Destination, message: Option<Message>)

  datatype AckKind = StandardAck | IndividualAck
  datatype MessageAck = MessageAck(kind: AckKind, consumerId: ConsumerId, messageId: string, count: int)

  /** The commands that reach or leave the bridge. */
  datatype Command =
    | Dispatch(md: MessageDispatch)
    | BrokerInfoCommand(info: BrokerInfo)
    | ConnectionError
    | MessageCommand(message: Message)
    | ConnectionInfoCommand(connectionId: ConnectionId)
    | SessionInfoCommand(sessionConnection: ConnectionId)
    | ProducerInfoCommand(producerId: ProducerId)
    | AckCommand(ack: MessageAck)
    | ConsumerInfoCommand(consumer: ConsumerInfo)
    | RemoveConsumerCommand(removedConsumer: ConsumerId)
    | DestinationInfoCommand(destInfo: DestinationInfo)
    | RemoveConnectionCommand(removedConnection: ConnectionId)
    | ResponseCommand(correlationId: int)
    | Shutdown
    | KeepAlive
    | WireFormat

  datatype Side = LocalSide | RemoteSide

  /** Notifications to the broker (`networkBridgeStarted`, `addBroker`, ...). */
  datatype Note = BridgeStarted | BridgeStopped | PeerAdded | PeerRemoved

  /** What the bridge does to the world, in order. */
  datatype Event =
    | Send(to: Side, command: Command)           // oneway
    | Request(to: Side, command: Command)        // request or asyncRequest, awaiting a response
    | TransportsStarted
    | TransportsStopped
    | LocalStartScheduled
    | RemoteStartScheduled
    | DisposeScheduled                           // asynchronous dispose of the controlling service
    | ListenerStarted
    | ListenerStopped
    | ListenerFailed
    | BrokerNotified(note: Note)
    | RemoveDuplicate(existing: ConsumerId)      // asked of the network connectors
    | RemoveWhenDrained(localConsumer: ConsumerId) // remove command sent once outstanding responses drain
    | StartRefused                               // start() threw, the bridge being disposed

  /** What stays fixed over the bridge's life: its configuration and identity. */
  datatype Setup = Setup(cfg: Config, idPrefix: string, localBrokerId: BrokerId, createdByDuplex: bool)

  /** The lifecycle flags (`started`, `disposed`, `localBridgeStarted`, ...). */
  datatype Flags = Flags(started: bool, disposed: bool, localBridgeStarted: bool, remoteBridgeStarted: bool,
                         lastConnectSucceeded: bool)

  /** What the bridge has learnt of the brokers at either end. */
  datatype Peers = Peers(remoteBrokerInfo: Option<BrokerInfo>, remoteBrokerId: Option<BrokerId>,
                         localBrokerInfo: Option<BrokerInfo>)

  /**
   * The id generator's sequence and what the bridge opened with it: the
   * local connection and session, the remote connection, the producer and
   * the demand consumer.
   */
  datatype Sessions = Sessions(idSeq: nat, localConnection: Option<ConnectionId>, localSession: Option<ConnectionId>,
                               remoteConnection: Option<ConnectionId>, producer: Option<ProducerId>,
                               demandConsumer: Option<ConsumerId>)

  /** Outstanding responses per local proxy consumer, and the message counters. */
  datatype Counters = Counters(outstanding: map<ConsumerId, nat>, demandConsumerDispatched: int,
                               enqueued: nat, dequeued: nat)

  /** The bridge's state. `consumerSeq` is the local consumer id sequence. */
  datatype Bridge = Bridge(setup: Setup, flags: Flags, peers: Peers, lists: DestinationLists, sessions: Sessions,
                           consumerSeq: nat, registry: Registry, counters: Counters, log: seq<Event>)

  /** The live subscriptions of the local broker's queue and topic regions. */
  datatype Regions = Regions(queues: seq<RegionSubscription>, topics: seq<RegionSubscription>)

  /** The result of a step that may end by throwing: the state reached, and whether it threw. */
  datatype Step = Step(bridge: Bridge, threw: bool)

  /**
   * The bridge invariant: the two subscription maps are in lockstep, every
   * local proxy id was issued from the consumer sequence, and nothing is
   * registered before the local session exists (which only the local start
   * opens).
   */
  ghost predicate Inv(b: Bridge) {
    && Lockstep(b.registry)
    && (forall l :: l in b.registry.byLocal ==> l.value <= b.consumerSeq)
    && (!b.flags.localBridgeStarted ==> b.sessions.localSession.None?)
    && (b.sessions.localSession.None? ==> b.registry == Empty)
  }

  /** `r` has the subscriptions, consumer sequence and local session of `b`. */
  predicate SameSubscriptions(r: Bridge, b: Bridge) {
    && r.registry == b.registry && r.consumerSeq == b.consumerSeq
    && r.sessions.localSession == b.sessions.localSession
    && r.flags.localBridgeStarted == b.flags.localBridgeStarted
  }

  /** A freshly constructed bridge. */
  function Init(cfg: Config, idPrefix: string, localBrokerId: BrokerId, createdByDuplex: bool): (b: Bridge)
    ensures !b.flags.started && !b.flags.disposed && !b.flags.localBridgeStarted && !b.flags.remoteBridgeStarted
    ensures b.registry == Empty && b.log == []
    ensures Inv(b)
  {
    Bridge(Setup(cfg, idPrefix, localBrokerId, createdByDuplex), Flags(false, false, false, false, false),
           Peers(None, None, None), DestinationLists([], [], []), Sessions(0, None, None, None, None, None),
           0, Empty, Counters(map[], 0, 0, 0), [])
  }

  function Emit(b: Bridge, events: seq<Event>): Bridge {
    b.(log := b.log + events)
  }

  /** `isDuplex`. */
  predicate Duplex(b: Bridge) {
    b.setup.cfg.duplex || b.setup.createdByDuplex
  }

  /**
   * `remoteBrokerPath`, a one-element array holding the remote broker's id
   * once its `BrokerInfo` has arrived.
   */
  function RemotePath(b: Bridge): seq<BrokerId> {
    if b.peers.remoteBrokerId.Some? then [b.peers.remoteBrokerId.value] else []
  }

  /** The local connection and session exist, so local consumer ids can be issued. */
  predicate LocalSessionOpen(b: Bridge) {
    b.sessions.localConnection.Some? && b.sessions.localSession.Some?
  }

  /**
   * `startedLatch` (count two) is released: the remote half has started and
   * the local half has opened its session, or the bridge is disposed. Only
   * `stop` disposes the bridge, and it counts the latch down twice; a local
   * start the local broker refuses throws before its count-down.
   */
  predicate StartedLatchOpen(b: Bridge) {
    b.flags.disposed || (b.flags.remoteBridgeStarted && b.flags.localBridgeStarted && LocalSessionOpen(b))
  }

  /** `localStartedLatch` (count one) is released: the local half has opened its session, or the bridge is disposed. */
  predicate LocalStartedLatchOpen(b: Bridge) {
    b.flags.disposed || (b.flags.localBridgeStarted && LocalSessionOpen(b))
  }

  /**
   * Servicing `cmd` would block: a dispatch waits for `startedLatch`, and a
   * consumer sent to a duplex bridge waits for `localStartedLatch`. A
   * disposed bridge ignores the command before reaching either wait.
   */
  predicate Waits(b: Bridge, cmd: Command) {
    && !b.flags.disposed
    && ((cmd.Dispatch? && !StartedLatchOpen(b)) || (cmd.ConsumerInfoCommand? && Duplex(b) && !LocalStartedLatchOpen(b)))
  }

  /**
   * Servicing the local `cmd` would block: the local broker's `BrokerInfo`
   * on a bridge whose remote side is its own broker waits for
   * `startedLatch` before disposing the bridge.
   */
  predicate LocalWaits(b: Bridge, cmd: Command) {
    && !b.flags.disposed && cmd.BrokerInfoCommand?
    && b.peers.remoteBrokerId == Some(b.setup.localBrokerId) && !StartedLatchOpen(b)
  }

  // ---------------------------------------------------------------------
  // Lifecycle
  // ---------------------------------------------------------------------

  /**
   * `serviceRemoteException` and `serviceLocalException`: unless already
   * disposed, schedule disposal of the controlling service and tell the
   * listener the bridge failed. The state is otherwise left alone: disposal
   * itself happens later, through `Stop`.
   */
  function ServiceException(b: Bridge): (r: Bridge)
    ensures b.flags.disposed ==> r == b
    ensures !b.flags.disposed ==> r.log == b.log + [DisposeScheduled, ListenerFailed]
    ensures r.(log := b.log) == b
  {
    if b.flags.disposed then b else Emit(b, [DisposeScheduled, ListenerFailed])
  }

  /**
   * `start`: one-shot. Starts both transports and schedules the remote half
   * of the bridge, or refuses when the bridge was disposed in between.
   */
  function Start(b: Bridge): (r: Bridge)
    ensures r.flags == b.flags.(started := true)
    ensures b.flags.started ==> r == b
    ensures !b.flags.started ==>
              r.log == b.log + [TransportsStarted, if b.flags.disposed then StartRefused else RemoteStartScheduled]
    ensures r.(flags := b.flags, log := b.log) == b
  {
    if b.flags.started then b
    else
      var b1 := Emit(b.(flags := b.flags.(started := true)), [TransportsStarted]);
      if !b1.flags.disposed then Emit(b1, [RemoteStartScheduled]) else Emit(b1, [StartRefused])
  }

  /** What the first stop of a live bridge does before the peer notifications. */
  const ShutdownEvents: seq<Event> :=
    [ListenerStopped, Send(LocalSide, Shutdown), Send(RemoteSide, Shutdown), TransportsStopped]

  /**
   * `stop`: one-shot on the started flag. The first stop of a live bridge
   * disposes it, sends shutdown to both sides and stops the transports; a
   * bridge that knows its peer also tells the broker the peer is gone.
   */
  function Stop(b: Bridge): (r: Bridge)
    ensures !r.flags.started
    ensures !b.flags.started ==> r == b
    ensures b.flags.started ==> r.flags.disposed
    ensures b.flags.started && !b.flags.disposed ==>
              !r.flags.remoteBridgeStarted && |r.log| >= |b.log| + 4 && r.log[..|b.log| + 4] == b.log + ShutdownEvents
    ensures b.flags.disposed ==> r.flags.remoteBridgeStarted == b.flags.remoteBridgeStarted
    ensures r.flags.localBridgeStarted == b.flags.localBridgeStarted
    ensures r.(flags := b.flags, log := b.log) == b
    ensures |b.log| <= |r.log| && r.log[..|b.log|] == b.log
  {
    if !b.flags.started then b
    else
      var b1 := b.(flags := b.flags.(started := false));
      var b2 :=
        if b1.flags.disposed then b1
        else Emit(b1.(flags := b1.flags.(disposed := true, remoteBridgeStarted := false)), ShutdownEvents);
      if b2.peers.remoteBrokerInfo.Some? then Emit(b2, [BrokerNotified(PeerRemoved), BrokerNotified(BridgeStopped)])
      else b2
  }

  /** The id generator's next connection id. */
  function NextConnectionId(b: Bridge): ConnectionId {
    ConnectionId(b.setup.idPrefix, b.sessions.idSeq + 1)
  }

  /**
   * The demand consumer: subscribes to the configured advisory topics,
   * widened to the temporary-destination advisories when temporary
   * destinations are bridged.
   */
  function DemandConsumerInfo(cfg: Config, id: ConsumerId): (info: ConsumerInfo)
    ensures info.consumerId == id && info.destination.kind == Topic
    ensures info.prefetchSize == cfg.prefetchSize && info.dispatchAsync == cfg.dispatchAsync
    ensures cfg.bridgeTempDestinations ==>
              info.destination.name == cfg.destinationFilter + "," + TempDestinationAdvisoryTopics
    ensures !cfg.bridgeTempDestinations ==> info.destination.name == cfg.destinationFilter
  {
    var topic := cfg.destinationFilter + (if cfg.bridgeTempDestinations then "," + TempDestinationAdvisoryTopics else "");
    ConsumerInfo(id, Destination(Topic, topic, None), None, false, false, 0, [], cfg.dispatchAsync, cfg.prefetchSize, None)
  }

  /** What the remote half sends when it starts. */
  function RemoteSessionEvents(b: Bridge): (events: seq<Event>)
    ensures forall e | e in events :: e.Send? && e.to == RemoteSide
    ensures (exists i | 0 <= i < |events| :: events[i].command.BrokerInfoCommand?) <==> !b.setup.createdByDuplex
    ensures (exists i | 0 <= i < |events| :: events[i].command.ConsumerInfoCommand?) <==> !b.setup.cfg.staticBridge
    ensures b.sessions.remoteConnection.Some? ==>
              Send(RemoteSide, RemoveConnectionCommand(b.sessions.remoteConnection.value)) in events
    ensures Send(RemoteSide, ConnectionInfoCommand(NextConnectionId(b))) in events
  {
    var cfg := b.setup.cfg;
    var announce :=
      if b.setup.createdByDuplex then []
      else [Send(RemoteSide, BrokerInfoCommand(BrokerInfo(b.setup.localBrokerId, cfg.brokerName, cfg.duplex)))];
    var retire :=
      if b.sessions.remoteConnection.Some? then [Send(RemoteSide, RemoveConnectionCommand(b.sessions.remoteConnection.value))]
      else [];
    var conn := NextConnectionId(b);
    var connect :=
      [Send(RemoteSide, ConnectionInfoCommand(conn)), Send(RemoteSide, SessionInfoCommand(conn)),
       Send(RemoteSide, ProducerInfoCommand(ProducerId(conn, 1, 1)))];
    var demand :=
      if cfg.staticBridge then []
      else [Send(RemoteSide, ConsumerInfoCommand(DemandConsumerInfo(cfg, ConsumerId(conn, 1, 1))))];
    var events := announce + retire + connect + demand;
    assert events[|announce + retire|] == Send(RemoteSide, ConnectionInfoCommand(conn));
    assert !b.setup.createdByDuplex ==> events[0] == announce[0];
    assert !cfg.staticBridge ==> events[|events| - 1] == demand[0];
    assert b.sessions.remoteConnection.Some? ==> events[|announce|] == retire[0];
    events
  }

  /**
   * `startRemoteBridge`: one-shot. Announces this broker unless the bridge
   * was created by a duplex connector, retires an earlier remote connection,
   * opens a new connection, session and producer and, unless the bridge is
   * static, subscribes to the remote consumer advisories.
   */
  function StartRemoteBridge(b: Bridge): (r: Bridge)
    ensures r.flags == b.flags.(remoteBridgeStarted := true)
    ensures b.flags.remoteBridgeStarted ==> r == b
    ensures !b.flags.remoteBridgeStarted ==>
              && r.log == b.log + RemoteSessionEvents(b)
              && r.sessions.remoteConnection == Some(NextConnectionId(b))
              && r.sessions.producer == Some(ProducerId(NextConnectionId(b), 1, 1))
              && (b.setup.cfg.staticBridge ==> r.sessions.demandConsumer == b.sessions.demandConsumer)
              && (!b.setup.cfg.staticBridge ==> r.sessions.demandConsumer == Some(ConsumerId(NextConnectionId(b), 1, 1)))
    ensures r.sessions.localSession == b.sessions.localSession
    ensures r.(flags := b.flags, sessions := b.sessions, log := b.log) == b
  {
    if b.flags.remoteBridgeStarted then b
    else
      var conn := NextConnectionId(b);
      var demand := if b.setup.cfg.staticBridge then b.sessions.demandConsumer else Some(ConsumerId(conn, 1, 1));
      Emit(b.(flags := b.flags.(remoteBridgeStarted := true),
              sessions := b.sessions.(idSeq := b.sessions.idSeq + 1, remoteConnection := Some(conn),
                                      producer := Some(ProducerId(conn, 1, 1)), demandConsumer := demand)),
           RemoteSessionEvents(b))
  }

  /**
   * `startLocalBridge`: one-shot. Unless disposed, opens the local
   * connection (a request the local broker may refuse, which ends in
   * `ServiceException`), then the session, notifies the broker and the
   * listener, and subscribes for every statically included destination.
   */
  function StartLocalBridge(b: Bridge, localBrokerAccepts: bool): (r: Bridge)
    ensures r.flags == b.flags.(localBridgeStarted := true)
    ensures b.flags.localBridgeStarted ==> r == b
    ensures !b.flags.localBridgeStarted && b.flags.disposed ==> r == b.(flags := r.flags)
    ensures !b.flags.localBridgeStarted && !b.flags.disposed ==>
              && r.sessions.localConnection == Some(NextConnectionId(b))
              && (localBrokerAccepts ==> r.sessions.localSession == Some(NextConnectionId(b)))
              && (!localBrokerAccepts ==>
                    && r.sessions.localSession == b.sessions.localSession && r.registry == b.registry
                    && r.log == b.log + [Request(LocalSide, ConnectionInfoCommand(NextConnectionId(b))),
                                         DisposeScheduled, ListenerFailed])
  {
    if b.flags.localBridgeStarted then b
    else
      var b1 := b.(flags := b.flags.(localBridgeStarted := true));
      if b1.flags.disposed then b1
      else
        var conn := NextConnectionId(b1);
        var b2 := Emit(b1.(sessions := b1.sessions.(idSeq := b1.sessions.idSeq + 1, localConnection := Some(conn))),
                       [Request(LocalSide, ConnectionInfoCommand(conn))]);
        if !localBrokerAccepts then ServiceException(b2)
        else
          var b3 := Emit(b2.(sessions := b2.sessions.(localSession := Some(conn))),
                         [Send(LocalSide, SessionInfoCommand(conn)), BrokerNotified(BridgeStarted), ListenerStarted]);
          SetupStaticDestinations(b3, b3.lists.staticallyIncluded)
  }

  // ---------------------------------------------------------------------
  // Demand subscriptions
  // ---------------------------------------------------------------------

  /** The local proxy consumer's id for the next subscription. */
  function NextLocalId(b: Bridge): ConsumerId
    requires LocalSessionOpen(b)
  {
    ConsumerId(b.sessions.localSession.value, 1, b.consumerSeq + 1)
  }

  /**
   * The local proxy consumer for a remote consumer: the next local id, the
   * configured prefetch and dispatch mode, a priority that falls with the
   * hop count when priority decrease is configured, and the network filter
   * as an additional predicate unless the consumer is durable.
   */
  function ProxyConsumer(cfg: Config, remote: ConsumerInfo, localId: ConsumerId, filter: NetworkFilter): (local: ConsumerInfo)
    ensures local.consumerId == localId
    ensures local.(consumerId := remote.consumerId, priority := remote.priority, dispatchAsync := remote.dispatchAsync,
                   prefetchSize := remote.prefetchSize, additionalPredicate := remote.additionalPredicate) == remote
    ensures local.prefetchSize == cfg.prefetchSize && local.dispatchAsync == cfg.dispatchAsync
    ensures cfg.decreaseNetworkConsumerPriority ==> local.priority == HopPriority(cfg.consumerPriorityBase, remote.brokerPath)
    ensures !cfg.decreaseNetworkConsumerPriority ==> local.priority == remote.priority
    ensures !remote.durable ==> local.additionalPredicate == Some(filter)
    ensures remote.durable ==> local.additionalPredicate == remote.additionalPredicate
  {
    var priority := if cfg.decreaseNetworkConsumerPriority
                    then HopPriority(cfg.consumerPriorityBase, remote.brokerPath) else remote.priority;
    remote.(consumerId := localId, priority := priority, dispatchAsync := cfg.dispatchAsync,
            prefetchSize := cfg.prefetchSize,
            additionalPredicate := if remote.durable then remote.additionalPredicate else Some(filter))
  }

  /**
   * `createDemandSubscription(info)` with `doCreateDemandSubscription` and
   * `configureDemandSubscription`: records the remote consumer's own id among
   * its network consumer ids, moves a temporary destination to the local
   * connection, builds the network filter and the local proxy consumer, and
   * registers the subscription under both ids.
   */
  function CreateDemandSubscription(b: Bridge, info: ConsumerInfo): (res: (Bridge, DemandSubscription))
    requires LocalSessionOpen(b)
    ensures var (r, sub) := res;
      && sub.RemoteId() == info.consumerId && sub.LocalId() == NextLocalId(b)
      && sub.remoteInfo.networkConsumerIds == info.networkConsumerIds + [info.consumerId]
      && sub.remoteInfo.brokerPath == info.brokerPath
      && sub.remoteInfo.destination.kind == info.destination.kind
      && sub.remoteInfo.destination.name == info.destination.name
      && (info.destination.IsTemporary() ==> sub.remoteInfo.destination.owner == b.sessions.localConnection)
      && (!info.destination.IsTemporary() ==> sub.remoteInfo.destination == info.destination)
      && sub.localInfo == ProxyConsumer(b.setup.cfg, sub.remoteInfo, NextLocalId(b), sub.filter)
      && sub.filter == NetworkFilter(info.consumerId, sub.remoteInfo.destination, RemotePath(b), b.setup.cfg.networkTTL)
      && r == b.(consumerSeq := b.consumerSeq + 1, registry := Register(b.registry, sub))
  {
    var withOwnId := info.(networkConsumerIds := info.networkConsumerIds + [info.consumerId]);
    // The proxy's ConsumerInfo is a shallow copy: both share the one destination object.
    var dest := if info.destination.IsTemporary() then info.destination.(owner := b.sessions.localConnection)
                else info.destination;
    var remote := withOwnId.(destination := dest);
    var filter := NetworkFilter(remote.consumerId, dest, RemotePath(b), b.setup.cfg.networkTTL);
    var sub := DemandSubscription(remote, ProxyConsumer(b.setup.cfg, remote, NextLocalId(b), filter), filter);
    (b.(consumerSeq := b.consumerSeq + 1, registry := Register(b.registry, sub)), sub)
  }

  /**
   * `createDemandSubscription(destination)`: a subscription for a statically
   * included destination, whose "remote" consumer id is itself drawn from
   * the local sequence, so each static destination uses two sequence numbers.
   */
  function CreateStaticSubscription(b: Bridge, dest: Destination): (res: (Bridge, DemandSubscription))
    requires LocalSessionOpen(b)
    ensures res.1.RemoteId() == NextLocalId(b)
    ensures res.1.LocalId() == ConsumerId(b.sessions.localSession.value, 1, b.consumerSeq + 2)
    ensures res.1.remoteInfo.networkConsumerIds == [NextLocalId(b)]
    ensures res.0 == b.(consumerSeq := b.consumerSeq + 2, registry := Register(b.registry, res.1))
  {
    var info := ConsumerInfo(NextLocalId(b), dest, None, false, false, 0, [], false, 0, None);
    CreateDemandSubscription(b.(consumerSeq := b.consumerSeq + 1), info)
  }

  /** `setupStaticDestinations`: subscribe for each destination and send the proxy consumer to the local broker. */
  function SetupStaticDestinations(b: Bridge, dests: seq<Destination>): (r: Bridge)
    requires LocalSessionOpen(b)
    ensures r.consumerSeq == b.consumerSeq + 2 * |dests|
    ensures r.(consumerSeq := b.consumerSeq, registry := b.registry, log := b.log) == b
    decreases |dests|
  {
    if |dests| == 0 then b
    else
      var (b1, sub) := CreateStaticSubscription(b, dests[0]);
      SetupStaticDestinations(Emit(b1, [Send(LocalSide, ConsumerInfoCommand(sub.localInfo))]), dests[1..])
  }

  /** The consumer as the bridge sees it: with the remote broker appended to its path. */
  function ArrivedConsumer(b: Bridge, consumer: ConsumerInfo): (info: ConsumerInfo)
    ensures Ids(info.brokerPath) == Ids(consumer.brokerPath) + RemotePath(b)
    ensures info.(brokerPath := consumer.brokerPath) == consumer
  {
    var path := Append(consumer.brokerPath, RemotePath(b));
    assert path == Ids(consumer.brokerPath) + RemotePath(b);
    consumer.(brokerPath := Some(path))
  }

  /** The region subscriptions arbitration compares a subscription with. */
  function CurrentSubscriptions(regions: Regions, sub: DemandSubscription): seq<RegionSubscription> {
    if sub.remoteInfo.destination.IsTopic() then regions.topics else regions.queues
  }

  /** Arbitration for a subscription under the bridge's configuration. */
  function Decide(b: Bridge, sub: DemandSubscription, regions: Regions): Decision {
    Arbitrate(b.setup.cfg.suppressDuplicateQueueSubscriptions, b.setup.cfg.suppressDuplicateTopicSubscriptions,
              sub, CurrentSubscriptions(regions, sub))
  }

  /**
   * `addConsumerInfo`: adds the remote broker to the consumer's path, creates
   * and registers the demand subscription, then lets arbitration decide.
   * A suppressed subscription is unregistered again; an admitted one is sent
   * to the local broker, after asking for the removal of the duplicate it
   * replaces. Returns whether the consumer was added.
   */
  function AddConsumerInfo(b: Bridge, consumer: ConsumerInfo, regions: Regions): (res: (Bridge, bool))
    requires LocalSessionOpen(b)
    ensures var (b1, sub) := CreateDemandSubscription(b, ArrivedConsumer(b, consumer));
      && (res.1 <==> Decide(b, sub, regions) != Suppress)
      && (!res.1 ==> res.0 == b1.(registry := Unregister(b1.registry, sub)))
      && (Decide(b, sub, regions) == Admit ==> res.0 == Emit(b1, [Send(LocalSide, ConsumerInfoCommand(sub.localInfo))]))
      && (Decide(b, sub, regions).Replace? ==>
            res.0 == Emit(b1, [RemoveDuplicate(Decide(b, sub, regions).existing),
                               Send(LocalSide, ConsumerInfoCommand(sub.localInfo))]))
    ensures res.0.(registry := b.registry, consumerSeq := b.consumerSeq, log := b.log) == b
    ensures res.0.consumerSeq == b.consumerSeq + 1
  {
    var (b1, sub) := CreateDemandSubscription(b, ArrivedConsumer(b, consumer));
    match Decide(b, sub, regions)
    case Suppress => (b1.(registry := Unregister(b1.registry, sub)), false)
    case Admit => (Emit(b1, [Send(LocalSide, ConsumerInfoCommand(sub.localInfo))]), true)
    case Replace(existing) =>
      (Emit(b1, [RemoveDuplicate(existing), Send(LocalSide, ConsumerInfoCommand(sub.localInfo))]), true)
  }

  /**
   * `removeDemandSubscription(id)` with `removeSubscription`: take the
   * subscription out of both maps and have the local proxy consumer removed
   * once its outstanding responses drain. An unknown id changes nothing.
   */
  function RemoveDemandSubscription(b: Bridge, id: ConsumerId): (r: Bridge)
    ensures id !in b.registry.byRemote ==> r == b
    ensures id in b.registry.byRemote ==>
              r.registry == RemoveByRemoteId(b.registry, id).0
              && r.log == b.log + [RemoveWhenDrained(b.registry.byRemote[id].LocalId())]
    ensures r.(registry := b.registry, log := b.log) == b
  {
    var (reg, removed) := RemoveByRemoteId(b.registry, id);
    match removed
    case None => b
    case Some(sub) => Emit(b.(registry := reg), [RemoveWhenDrained(sub.LocalId())])
  }

  /** `removeDemandSubscriptionByLocalId`: the same removal, found through the local id. */
  function RemoveDemandSubscriptionByLocalId(b: Bridge, localId: ConsumerId): (res: (Bridge, bool))
    ensures res.1 <==> localId in b.registry.byLocal
    ensures !res.1 ==> res.0 == b
    ensures res.1 ==> res.0 == RemoveDemandSubscription(b, b.registry.byLocal[localId].RemoteId())
  {
    if localId in b.registry.byLocal then (RemoveDemandSubscription(b, b.registry.byLocal[localId].RemoteId()), true)
    else (b, false)
  }

  /** `clearDownSubscriptions`. */
  function ClearDownSubscriptions(b: Bridge): (r: Bridge)
    ensures r.registry.byLocal == map[] && r.registry.byRemote == map[]
    ensures r.(registry := b.registry) == b
  {
    b.(registry := Clear(b.registry))
  }

  // ---------------------------------------------------------------------
  // Remote side
  // ---------------------------------------------------------------------

  /**
   * The advisory acknowledgement counter of `ackAdvisory`: count one more
   * dispatch, and acknowledge the batch (resetting the count) once it
   * exceeds three quarters of the prefetch size. Returns the new count and
   * the size of the acknowledged batch, if one is due.
   */
  function AdvisoryAck(dispatched: int, prefetch: int): (r: (int, Option<int>))
    ensures 4 * (dispatched + 1) > 3 * prefetch ==> r == (0, Some(dispatched + 1))
    ensures 4 * (dispatched + 1) <= 3 * prefetch ==> r == (dispatched + 1, None)
  {
    var n := dispatched + 1;
    if 4 * n > 3 * prefetch then (0, Some(n)) else (n, None)
  }

  /**
   * `ackAdvisory`: bump the counter, then acknowledge to the remote broker
   * through the demand consumer. Without a demand consumer (a static
   * bridge) the counter is bumped and the step throws.
   */
  function AckAdvisory(b: Bridge, message: Message): (s: Step)
    ensures s.threw <==> b.sessions.demandConsumer.None?
    ensures s.bridge.counters.demandConsumerDispatched
            == if s.threw then b.counters.demandConsumerDispatched + 1
               else AdvisoryAck(b.counters.demandConsumerDispatched, b.setup.cfg.prefetchSize).0
    ensures !s.threw && AdvisoryAck(b.counters.demandConsumerDispatched, b.setup.cfg.prefetchSize).1.Some? ==>
              s.bridge.log == b.log + [Send(RemoteSide, AckCommand(MessageAck(StandardAck, b.sessions.demandConsumer.value,
                message.messageId, AdvisoryAck(b.counters.demandConsumerDispatched, b.setup.cfg.prefetchSize).1.value)))]
    ensures s.threw || AdvisoryAck(b.counters.demandConsumerDispatched, b.setup.cfg.prefetchSize).1.None? ==>
              s.bridge.log == b.log
    ensures s.bridge.(counters := b.counters, log := b.log) == b
  {
    var counters := b.counters;
    if b.sessions.demandConsumer.None? then
      Step(b.(counters := counters.(demandConsumerDispatched := counters.demandConsumerDispatched + 1)), true)
    else
      match AdvisoryAck(counters.demandConsumerDispatched, b.setup.cfg.prefetchSize)
      case (n, None) => Step(b.(counters := counters.(demandConsumerDispatched := n)), false)
      case (n, Some(count)) =>
        var ack := MessageAck(StandardAck, b.sessions.demandConsumer.value, message.messageId, count);
        Step(Emit(b.(counters := counters.(demandConsumerDispatched := n)), [Send(RemoteSide, AckCommand(ack))]), false)
  }

  /** A consumer advisory the bridge ignores: a browser, too many hops, a loop, or a destination not permitted. */
  predicate IgnoredConsumer(b: Bridge, info: ConsumerInfo, matches: Matcher) {
    || info.browser
    || Rejected(info.brokerPath, b.setup.cfg.networkTTL, b.setup.localBrokerId)
    || !Permitted(b.lists, b.setup.cfg.bridgeTempDestinations, matches, info.destination, false)
  }

  /** The destination advisory re-issued to the local broker. */
  function ForwardedDestination(b: Bridge, di: DestinationInfo): (fwd: DestinationInfo)
    ensures fwd.connectionId == b.sessions.localConnection
    ensures Ids(fwd.brokerPath) == Ids(di.brokerPath) + RemotePath(b)
    ensures di.destination.IsTemporary() ==> fwd.destination.owner == b.sessions.localSession
    ensures fwd.destination.(owner := di.destination.owner) == di.destination && fwd.add == di.add
  {
    var dest := if di.destination.IsTemporary() then di.destination.(owner := b.sessions.localSession)
                else di.destination;
    var path := Append(di.brokerPath, RemotePath(b));
    assert path == Ids(di.brokerPath) + RemotePath(b);
    di.(connectionId := b.sessions.localConnection, destination := dest, brokerPath := Some(path))
  }

  /**
   * `serviceRemoteConsumerAdvisory`. A consumer advisory is ignored for a
   * browser, a path of `networkTTL` hops or more, a path through this
   * broker, or a destination not permitted; otherwise the consumer is added.
   * A destination advisory that passes the same hop and loop checks is
   * re-issued to the local broker from the local connection, with the
   * remote broker appended to its path. A remove advisory removes the
   * subscription. A null data structure throws, and so does a consumer to
   * add without a local session, or a destination to forward without a
   * local connection (or, for a temporary destination, without a local
   * session).
   */
  function ServiceRemoteConsumerAdvisory(b: Bridge, data: Advisory, matches: Matcher, regions: Regions): (s: Step)
    ensures data.NoData? ==> s.threw
    ensures data.ConsumerAdvisory? && IgnoredConsumer(b, data.consumer, matches) ==> s == Step(b, false)
    ensures data.ConsumerAdvisory? && !IgnoredConsumer(b, data.consumer, matches) ==>
              if LocalSessionOpen(b) then s == Step(AddConsumerInfo(b, data.consumer, regions).0, false)
              else s == Step(b, true)
    ensures data.DestinationAdvisory? && Rejected(data.destInfo.brokerPath, b.setup.cfg.networkTTL, b.setup.localBrokerId)
            ==> s == Step(b, false)
    ensures data.DestinationAdvisory? && !Rejected(data.destInfo.brokerPath, b.setup.cfg.networkTTL, b.setup.localBrokerId)
            ==> if b.sessions.localConnection.None? || (data.destInfo.destination.IsTemporary() && b.sessions.localSession.None?)
                then s == Step(b, true)
                else s == Step(Emit(b, [Send(LocalSide, DestinationInfoCommand(ForwardedDestination(b, data.destInfo)))]), false)
    ensures data.RemoveAdvisory? ==> s == Step(RemoveDemandSubscription(b, data.removedId), false)
    ensures data.OtherData? ==> s == Step(b, false)
  {
    match data
    case NoData => Step(b, true)
    case ConsumerAdvisory(info) =>
      if info.browser then Step(b, false)
      else if info.brokerPath.Some? && |info.brokerPath.value| >= b.setup.cfg.networkTTL then Step(b, false)
      else if Contains(info.brokerPath, b.setup.localBrokerId) then Step(b, false)
      else if !Permitted(b.lists, b.setup.cfg.bridgeTempDestinations, matches, info.destination, false) then Step(b, false)
      else if !LocalSessionOpen(b) then Step(b, true)
      else Step(AddConsumerInfo(b, info, regions).0, false)
    case DestinationAdvisory(di) =>
      if di.brokerPath.Some? && |di.brokerPath.value| >= b.setup.cfg.networkTTL then Step(b, false)
      else if Contains(di.brokerPath, b.setup.localBrokerId) then Step(b, false)
      else if b.sessions.localConnection.None? || (di.destination.IsTemporary() && b.sessions.localSession.None?)
      then Step(b, true)
      else Step(Emit(b, [Send(LocalSide, DestinationInfoCommand(ForwardedDestination(b, di)))]), false)
    case RemoveAdvisory(id) => Step(RemoveDemandSubscription(b, id), false)
    case OtherData => Step(b, false)
  }

  /** Handle an advisory, then acknowledge it unless handling threw. */
  function AdvisoryThenAck(b: Bridge, message: Message, matches: Matcher, regions: Regions): Step {
    var s1 := ServiceRemoteConsumerAdvisory(b, message.data, matches, regions);
    if s1.threw then s1 else AckAdvisory(s1.bridge, message)
  }

  /**
   * `serviceRemoteBrokerInfo`: learn the remote broker's id; a bridge that
   * has connected to its own broker disposes itself; a bridge not disposed
   * schedules the local half of the bridge.
   */
  function ServiceRemoteBrokerInfo(b: Bridge, info: BrokerInfo): (r: Bridge)
    ensures info.brokerId != b.setup.localBrokerId ==>
              r == Emit(b.(peers := b.peers.(remoteBrokerId := Some(info.brokerId))),
                        if b.flags.disposed then [] else [LocalStartScheduled])
    ensures info.brokerId == b.setup.localBrokerId ==>
              var stopped := Stop(b.(peers := b.peers.(remoteBrokerId := Some(info.brokerId))));
              r == if stopped.flags.disposed then stopped else Emit(stopped, [LocalStartScheduled])
  {
    var b1 := b.(peers := b.peers.(remoteBrokerId := Some(info.brokerId)));
    var b2 := if b1.setup.localBrokerId == info.brokerId then Stop(b1) else b1;
    if !b2.flags.disposed then Emit(b2, [LocalStartScheduled]) else b2
  }

  /**
   * The commands a duplex bridge accepts from the remote side: messages
   * (advisories are serviced, others forwarded to the local broker if
   * permitted, answering a response-required one), connection, session and
   * producer announcements, acknowledgements (redirected to the local proxy
   * consumer), consumers (added while the bridge is started) and shutdown.
   * A consumer is taken only once `localStartedLatch` is released.
   */
  function ServiceRemoteDuplex(b: Bridge, cmd: Command, matches: Matcher, regions: Regions): (s: Step)
    requires cmd.ConsumerInfoCommand? ==> LocalStartedLatchOpen(b)
    ensures cmd.AckCommand? && cmd.ack.consumerId in b.registry.byRemote ==>
              s == Step(Emit(b, [Send(LocalSide, AckCommand(cmd.ack.(consumerId := b.registry.byRemote[cmd.ack.consumerId].LocalId())))]), false)
    ensures cmd.AckCommand? && cmd.ack.consumerId !in b.registry.byRemote ==> s == Step(b, false)
    ensures cmd.ConsumerInfoCommand? ==>
              s == if !b.flags.started then Step(b, false)
                   else if LocalSessionOpen(b) then Step(AddConsumerInfo(b, cmd.consumer, regions).0, false)
                   else Step(b, true)
    ensures cmd.MessageCommand? && !cmd.message.onAdvisoryTopic ==>
              s == if !Permitted(b.lists, b.setup.cfg.bridgeTempDestinations, matches, cmd.message.destination, true)
                   then Step(b, false)
                   else if cmd.message.responseRequired
                   then Step(Emit(b, [Send(LocalSide, cmd), Send(RemoteSide, ResponseCommand(cmd.message.commandId))]), false)
                   else Step(Emit(b, [Send(LocalSide, cmd)]), false)
    ensures cmd.Shutdown? ==> s == Step(ServiceException(b), false)
  {
    match cmd
    case MessageCommand(m) =>
      if m.onAdvisoryTopic then AdvisoryThenAck(b, m, matches, regions)
      else if !Permitted(b.lists, b.setup.cfg.bridgeTempDestinations, matches, m.destination, true) then Step(b, false)
      else if m.responseRequired then
        Step(Emit(b, [Send(LocalSide, cmd), Send(RemoteSide, ResponseCommand(m.commandId))]), false)
      else Step(Emit(b, [Send(LocalSide, cmd)]), false)
    case ConnectionInfoCommand(_) => Step(Emit(b, [Send(LocalSide, cmd)]), false)
    case SessionInfoCommand(_) => Step(Emit(b, [Send(LocalSide, cmd)]), false)
    case ProducerInfoCommand(_) => Step(Emit(b, [Send(LocalSide, cmd)]), false)
    case AckCommand(ack) =>
      if ack.consumerId in b.registry.byRemote then
        var local := b.registry.byRemote[ack.consumerId].LocalId();
        Step(Emit(b, [Send(LocalSide, AckCommand(ack.(consumerId := local)))]), false)
      else Step(b, false)
    case ConsumerInfoCommand(info) =>
      if !b.flags.started then Step(b, false)
      else if !LocalSessionOpen(b) then Step(b, true)
      else Step(AddConsumerInfo(b, info, regions).0, false)
    case Shutdown => Step(ServiceException(b), false)
    case _ => Step(b, false)
  }

  /** The remote broker's `BrokerInfo`: record it, take the configured destination lists, and check for a loop. */
  function RemoteBrokerInfo(b: Bridge, cmd: Command): (r: Bridge)
    requires cmd.BrokerInfoCommand?
    ensures r.peers.remoteBrokerId == Some(cmd.info.brokerId) && r.peers.remoteBrokerInfo == Some(cmd.info)
    ensures r.lists == b.setup.cfg.lists && r.flags.lastConnectSucceeded
    ensures |r.log| >= 2 && r.log[|r.log| - 2..] == [Send(LocalSide, cmd), BrokerNotified(PeerAdded)]
  {
    var b1 := b.(flags := b.flags.(lastConnectSucceeded := true), peers := b.peers.(remoteBrokerInfo := Some(cmd.info)),
                 lists := b.setup.cfg.lists);
    Emit(ServiceRemoteBrokerInfo(b1, cmd.info), [Send(LocalSide, cmd), BrokerNotified(PeerAdded)])
  }

  /**
   * The body of `serviceRemoteCommand`'s try block, once any latch it waits
   * on is released.
   */
  function HandleRemote(b: Bridge, cmd: Command, matches: Matcher, regions: Regions): (s: Step)
    requires !Waits(b, cmd)
    ensures cmd.Dispatch? && cmd.md.message.None? ==> s.threw
    ensures cmd.ConnectionError? ==> s == Step(ServiceException(b), false)
    ensures cmd.BrokerInfoCommand? ==> s == Step(RemoteBrokerInfo(b, cmd), false)
    ensures !Duplex(b) && !cmd.Dispatch? && !cmd.BrokerInfoCommand? && !cmd.ConnectionError? ==> s == Step(b, false)
  {
    match cmd
    case Dispatch(md) =>
      if md.message.None? then Step(b, true)
      else AdvisoryThenAck(b, md.message.value, matches, regions)
    case BrokerInfoCommand(_) => Step(RemoteBrokerInfo(b, cmd), false)
    case ConnectionError => Step(ServiceException(b), false)
    case _ => if Duplex(b) then ServiceRemoteDuplex(b, cmd, matches, regions) else Step(b, false)
  }

  /**
   * `serviceRemoteCommand`: a disposed bridge ignores the remote side; a
   * command whose handling throws ends in `ServiceException`. The call
   * returns only once any latch it waits on is released.
   */
  function ServiceRemoteCommand(b: Bridge, cmd: Command, matches: Matcher, regions: Regions): (r: Bridge)
    requires !Waits(b, cmd)
    ensures b.flags.disposed ==> r == b
    ensures !b.flags.disposed ==>
              r == if HandleRemote(b, cmd, matches, regions).threw
                   then ServiceException(HandleRemote(b, cmd, matches, regions).bridge)
                   else HandleRemote(b, cmd, matches, regions).bridge
  {
    if b.flags.disposed then b
    else
      var s := HandleRemote(b, cmd, matches, regions);
      if s.threw then ServiceException(s.bridge) else s.bridge
  }

  // ---------------------------------------------------------------------
  // Local side
  // ---------------------------------------------------------------------

  /** Responses still awaited for a local proxy consumer. */
  function Outstanding(b: Bridge, id: ConsumerId): nat {
    if id in b.counters.outstanding then b.counters.outstanding[id] else 0
  }

  function IncOutstanding(b: Bridge, id: ConsumerId): (r: Bridge)
    ensures Outstanding(r, id) == Outstanding(b, id) + 1
    ensures forall other :: other != id ==> Outstanding(r, other) == Outstanding(b, other)
    ensures r.(counters := b.counters) == b
    ensures r.counters.(outstanding := b.counters.outstanding) == b.counters
  {
    b.(counters := b.counters.(outstanding := b.counters.outstanding[id := Outstanding(b, id) + 1]))
  }

  function DecOutstanding(b: Bridge, id: ConsumerId): (r: Bridge)
    ensures Outstanding(r, id) == if Outstanding(b, id) > 0 then Outstanding(b, id) - 1 else 0
    ensures forall other :: other != id ==> Outstanding(r, other) == Outstanding(b, other)
    ensures r.(counters := b.counters) == b
    ensures r.counters.(outstanding := b.counters.outstanding) == b.counters
  {
    if Outstanding(b, id) > 0
    then b.(counters := b.counters.(outstanding := b.counters.outstanding[id := Outstanding(b, id) - 1]))
    else b
  }

  /**
   * `configureMessage`: the copy sent to the remote broker carries this
   * broker at the end of its path, the bridge's producer, the dispatch's
   * destination, and no transaction, the original transaction id keeping
   * the first one the message was seen under.
   */
  function ConfigureMessage(md: MessageDispatch, localBrokerId: BrokerId, producer: ProducerId): (m: Message)
    requires md.message.Some?
    ensures Ids(m.brokerPath) == Ids(md.message.value.brokerPath) + [localBrokerId]
    ensures Contains(m.brokerPath, localBrokerId)
    ensures m.producerId == producer && m.destination == md.destination
    ensures m.transactionId.None?
    ensures md.message.value.originalTransactionId.Some? ==> m.originalTransactionId == md.message.value.originalTransactionId
    ensures md.message.value.originalTransactionId.None? ==> m.originalTransactionId == md.message.value.transactionId
    ensures m.(brokerPath := md.message.value.brokerPath, producerId := md.message.value.producerId,
               destination := md.message.value.destination, transactionId := md.message.value.transactionId,
               originalTransactionId := md.message.value.originalTransactionId) == md.message.value
  {
    var msg := md.message.value;
    var path := Append(msg.brokerPath, [localBrokerId]);
    assert path == Ids(msg.brokerPath) + [localBrokerId];
    ContainsAfterAppend(msg.brokerPath, [localBrokerId], localBrokerId);
    msg.(brokerPath := Some(path), producerId := producer, destination := md.destination,
         originalTransactionId := if msg.originalTransactionId.None? then msg.transactionId else msg.originalTransactionId,
         transactionId := None)
  }

  /** The individual acknowledgement of a dispatch to the local broker. */
  function LocalAck(md: MessageDispatch): Event
    requires md.message.Some?
  {
    Send(LocalSide, AckCommand(MessageAck(IndividualAck, md.consumerId, md.message.value.messageId, 1)))
  }

  /**
   * Forward a dispatched message to the remote broker: one-way and
   * acknowledged at once when it is non-persistent and sends are not all
   * synchronous, otherwise as a request that keeps one more response
   * outstanding until its callback runs.
   */
  function Forward(b: Bridge, md: MessageDispatch): (r: Bridge)
    requires md.message.Some? && b.sessions.producer.Some?
    ensures var forwarded := ConfigureMessage(md, b.setup.localBrokerId, b.sessions.producer.value);
      if !b.setup.cfg.alwaysSyncSend && !md.message.value.persistent then
        && r.log == b.log + [Send(RemoteSide, MessageCommand(forwarded)), LocalAck(md)]
        && r.counters == b.counters.(dequeued := b.counters.dequeued + 1)
      else
        && r.log == b.log + [Request(RemoteSide, MessageCommand(forwarded))]
        && r.counters == IncOutstanding(b, md.consumerId).counters
    ensures r.(counters := b.counters, log := b.log) == b
  {
    var forwarded := ConfigureMessage(md, b.setup.localBrokerId, b.sessions.producer.value);
    if !b.setup.cfg.alwaysSyncSend && !md.message.value.persistent then
      Emit(b.(counters := b.counters.(dequeued := b.counters.dequeued + 1)),
           [Send(RemoteSide, MessageCommand(forwarded)), LocalAck(md)])
    else
      Emit(IncOutstanding(b, md.consumerId), [Request(RemoteSide, MessageCommand(forwarded))])
  }

  /**
   * A message dispatched by the local broker to a proxy consumer.
   * `accepted` is the subscription's verdict on taking one more outstanding
   * response; `filterMatches` is the network filter's verdict on a message.
   * A durable subscription whose filter rejects the message acknowledges it
   * without forwarding; otherwise the message is forwarded. Without a
   * producer the step fails, the outstanding count left raised.
   */
  function LocalDispatch(b: Bridge, md: MessageDispatch, filterMatches: (NetworkFilter, Message) -> bool,
                         accepted: bool): (r: Bridge)
    ensures md.consumerId !in b.registry.byLocal || md.message.None? || !accepted ==> r == b
    ensures md.consumerId in b.registry.byLocal && md.message.Some? && accepted ==>
              var sub := b.registry.byLocal[md.consumerId];
              if sub.localInfo.durable && !filterMatches(sub.filter, md.message.value) then r == Emit(b, [LocalAck(md)])
              else if b.sessions.producer.None? then r == ServiceException(IncOutstanding(b, md.consumerId))
              else r == Forward(b, md)
    ensures r.(counters := b.counters, log := b.log) == b
  {
    if md.consumerId !in b.registry.byLocal || md.message.None? || !accepted then b
    else
      var sub := b.registry.byLocal[md.consumerId];
      if sub.localInfo.durable && !filterMatches(sub.filter, md.message.value) then Emit(b, [LocalAck(md)])
      else if b.sessions.producer.None? then ServiceException(IncOutstanding(b, md.consumerId))
      else Forward(b, md)
  }

  /**
   * The response callback of a synchronous forward: an exception response
   * fails the bridge, a normal one acknowledges the dispatch locally; either
   * way the outstanding count falls.
   */
  function OnForwardResponse(b: Bridge, md: MessageDispatch, failed: bool): (r: Bridge)
    requires md.message.Some?
    ensures Outstanding(r, md.consumerId) == if Outstanding(b, md.consumerId) > 0 then Outstanding(b, md.consumerId) - 1 else 0
    ensures !failed ==> r.log == b.log + [LocalAck(md)] && r.counters.dequeued == b.counters.dequeued + 1
    ensures failed ==> r.log == ServiceException(b).log && r.counters.dequeued == b.counters.dequeued
    ensures r.(counters := b.counters, log := b.log) == b
  {
    var b1 := if failed then ServiceException(b)
              else Emit(b.(counters := b.counters.(dequeued := b.counters.dequeued + 1)), [LocalAck(md)]);
    DecOutstanding(b1, md.consumerId)
  }

  /**
   * `serviceLocalCommand`: a disposed bridge ignores the local side. A
   * dispatch is counted and forwarded; a `BrokerInfo` showing the remote
   * broker is this broker stops the bridge; shutdown stops it; a connection
   * error fails it.
   */
  function ServiceLocalCommand(b: Bridge, cmd: Command, filterMatches: (NetworkFilter, Message) -> bool,
                               accepted: bool): (r: Bridge)
    requires !LocalWaits(b, cmd)
    ensures b.flags.disposed ==> r == b
    ensures !b.flags.disposed && cmd.Dispatch? ==>
              r == LocalDispatch(b.(counters := b.counters.(enqueued := b.counters.enqueued + 1)), cmd.md, filterMatches, accepted)
    ensures !b.flags.disposed && cmd.Shutdown? ==> r == Stop(b)
    ensures !b.flags.disposed && cmd.BrokerInfoCommand? ==>
              r.peers.localBrokerInfo == Some(cmd.info)
              && (r.flags.disposed <==> (b.peers.remoteBrokerId == Some(b.setup.localBrokerId) && b.flags.started))
    ensures !b.flags.disposed && cmd.ConnectionError? ==> r == ServiceException(b)
    ensures SameSubscriptions(r, b)
  {
    if b.flags.disposed then b
    else
      match cmd
      case Dispatch(md) =>
        LocalDispatch(b.(counters := b.counters.(enqueued := b.counters.enqueued + 1)), md, filterMatches, accepted)
      case BrokerInfoCommand(info) =>
        var b1 := b.(peers := b.peers.(localBrokerInfo := Some(info)));
        if b1.peers.remoteBrokerId == Some(b1.setup.localBrokerId) then Stop(b1) else b1
      case Shutdown => Stop(b)
      case ConnectionError => ServiceException(b)
      case _ => b
  }
}

=== FILE: bridge_props.dfy ===
/**
 * Properties of the bridge: the subscription invariant over every
 * transition and every run, the lifecycle's one-shot and disposal rules,
 * advisory handling, advisory acknowledgement batching and the three ways a
 * dispatched message leaves the local broker.
 */
module BridgeProperties {
  import opened Results
  import opened BrokerPaths
  import opened Destinations
  import opened Registry
  import opened Arbitration
  import opened Bridge

  // ---------------------------------------------------------------------
  // Static subscriptions
  // ---------------------------------------------------------------------

  /** Lockstep maps whose ids on both sides were all issued from the sequence. */
  ghost predicate IssuedIds(r: Registry, seqNo: nat) {
    && Lockstep(r)
    && (forall l :: l in r.byLocal ==> l.value <= seqNo)
    && (forall k :: k in r.byRemote ==> k.value <= seqNo)
  }

  /**
   * Setting up the static destinations registers one new subscription per
   * destination and keeps the maps in lockstep: both ids of each static
   * subscription are fresh, being drawn from the sequence.
   */
  lemma {:induction false} SetupStaticRegistersEach(b: Bridge, dests: seq<Destination>)
    requires LocalSessionOpen(b) && IssuedIds(b.registry, b.consumerSeq)
    ensures var r := SetupStaticDestinations(b, dests);
      IssuedIds(r.registry, r.consumerSeq) && |r.registry.byLocal| == |b.registry.byLocal| + |dests|
    decreases |dests|
  {
    if |dests| > 0 {
      var (b1, sub) := CreateStaticSubscription(b, dests[0]);
      assert sub.LocalId() !in b.registry.byLocal && sub.RemoteId() !in b.registry.byRemote;
      RegisterKeepsLockstep(b.registry, sub);
      assert |b1.registry.byLocal.Keys| == |b.registry.byLocal.Keys| + 1;
      var b2 := Emit(b1, [Send(LocalSide, ConsumerInfoCommand(sub.localInfo))]);
      SetupStaticRegistersEach(b2, dests[1..]);
    }
  }

  // ---------------------------------------------------------------------
  // The subscription invariant, operation by operation
  // ---------------------------------------------------------------------

  /** The static subscriptions, set up in empty maps, satisfy the invariant. */
  lemma StaticSetupFromEmpty(b: Bridge)
    requires b.flags.localBridgeStarted && LocalSessionOpen(b) && b.registry == Empty
    ensures Inv(SetupStaticDestinations(b, b.lists.staticallyIncluded))
  {
    assert IssuedIds(b.registry, b.consumerSeq);
    SetupStaticRegistersEach(b, b.lists.staticallyIncluded);
    var r := SetupStaticDestinations(b, b.lists.staticallyIncluded);
    assert r.sessions == b.sessions && r.flags == b.flags;
  }

  /** Starting the local half keeps the invariant: it registers only the static subscriptions, into empty maps. */
  lemma StartLocalBridgeKeepsInv(b: Bridge, localBrokerAccepts: bool)
    requires Inv(b)
    ensures Inv(StartLocalBridge(b, localBrokerAccepts))
  {
    var r := StartLocalBridge(b, localBrokerAccepts);
    if b.flags.localBridgeStarted {
      assert r == b;
    } else {
      assert b.registry == Empty;
      if b.flags.disposed || !localBrokerAccepts {
        assert r.registry == Empty && r.consumerSeq == b.consumerSeq;
        assert Lockstep(r.registry);
      } else {
        var conn := NextConnectionId(b);
        var b1 := b.(flags := b.flags.(localBridgeStarted := true));
        var b2 := Emit(b1.(sessions := b1.sessions.(idSeq := b1.sessions.idSeq + 1, localConnection := Some(conn))),
                       [Request(LocalSide, ConnectionInfoCommand(conn))]);
        var b3 := Emit(b2.(sessions := b2.sessions.(localSession := Some(conn))),
                       [Send(LocalSide, SessionInfoCommand(conn)), BrokerNotified(BridgeStarted), ListenerStarted]);
        assert r == SetupStaticDestinations(b3, b3.lists.staticallyIncluded);
        StaticSetupFromEmpty(b3);
      }
    }
  }

  /**
   * Adding a consumer whose remote id is not registered keeps the invariant.
   * A suppressed consumer leaves the maps exactly as they were; an added one
   * is registered under its remote id.
   */
  lemma AddConsumerKeepsInv(b: Bridge, consumer: ConsumerInfo, regions: Regions)
    requires Inv(b) && LocalSessionOpen(b) && consumer.consumerId !in b.registry.byRemote
    ensures var (r, added) := AddConsumerInfo(b, consumer, regions);
      && Inv(r)
      && (!added ==> r.registry == b.registry)
      && (added ==> r.registry.byRemote.Keys == b.registry.byRemote.Keys + {consumer.consumerId}
                    && r.registry.byRemote[consumer.consumerId].localInfo.consumerId == NextLocalId(b))
  {
    var (b1, sub) := CreateDemandSubscription(b, ArrivedConsumer(b, consumer));
    var (r, added) := AddConsumerInfo(b, consumer, regions);
    assert sub.LocalId() !in b.registry.byLocal;
    RegisterKeepsLockstep(b.registry, sub);
    if !added {
      UndoRestores(b.registry, sub);
      assert r.registry == b.registry;
    } else {
      assert r.registry == Register(b.registry, sub);
    }
    assert r.sessions == b.sessions && r.flags == b.flags;
  }

  /** Removal by remote id keeps the invariant, and the id is gone afterwards. */
  lemma RemoveKeepsInv(b: Bridge, id: ConsumerId)
    requires Inv(b)
    ensures Inv(RemoveDemandSubscription(b, id))
    ensures id !in RemoveDemandSubscription(b, id).registry.byRemote
  {
    RemoveByRemoteIdKeepsLockstep(b.registry, id);
  }

  /** A remote consumer id that a command would register is not registered already. */
  predicate FreshAdvisory(b: Bridge, data: Advisory) {
    data.ConsumerAdvisory? ==> data.consumer.consumerId !in b.registry.byRemote
  }

  predicate FreshCommand(b: Bridge, cmd: Command) {
    match cmd
    case Dispatch(md) => md.message.Some? ==> FreshAdvisory(b, md.message.value.data)
    case MessageCommand(m) => FreshAdvisory(b, m.data)
    case ConsumerInfoCommand(c) => c.consumerId !in b.registry.byRemote
    case _ => true
  }

  lemma AdvisoryKeepsInv(b: Bridge, message: Message, matches: Matcher, regions: Regions)
    requires Inv(b) && FreshAdvisory(b, message.data)
    ensures Inv(AdvisoryThenAck(b, message, matches, regions).bridge)
  {
    var data := message.data;
    var s1 := ServiceRemoteConsumerAdvisory(b, data, matches, regions);
    if data.ConsumerAdvisory? && !IgnoredConsumer(b, data.consumer, matches) && LocalSessionOpen(b) {
      AddConsumerKeepsInv(b, data.consumer, regions);
    } else if data.RemoveAdvisory? {
      RemoveKeepsInv(b, data.removedId);
    }
    assert Inv(s1.bridge);
  }

  /** The remote broker's `BrokerInfo` touches no subscription. */
  lemma BrokerInfoKeepsInv(b: Bridge, cmd: Command)
    requires Inv(b) && cmd.BrokerInfoCommand?
    ensures Inv(RemoteBrokerInfo(b, cmd))
  {
    var b1 := b.(flags := b.flags.(lastConnectSucceeded := true),
                 peers := b.peers.(remoteBrokerInfo := Some(cmd.info)), lists := b.setup.cfg.lists);
    var b2 := b1.(peers := b1.peers.(remoteBrokerId := Some(cmd.info.brokerId)));
    var r := ServiceRemoteBrokerInfo(b1, cmd.info);
    assert SameSubscriptions(r, b);
  }

  /**
   * Servicing a remote command keeps the invariant, provided any consumer
   * it registers comes with a remote id not registered yet.
   */
  lemma RemoteCommandKeepsInv(b: Bridge, cmd: Command, matches: Matcher, regions: Regions)
    requires Inv(b) && FreshCommand(b, cmd) && !Waits(b, cmd)
    ensures Inv(ServiceRemoteCommand(b, cmd, matches, regions))
  {
    if !b.flags.disposed {
      var s := HandleRemote(b, cmd, matches, regions);
      match cmd {
        case Dispatch(md) =>
          if md.message.Some? { AdvisoryKeepsInv(b, md.message.value, matches, regions); }
        case BrokerInfoCommand(info) => BrokerInfoKeepsInv(b, cmd);
        case ConnectionError =>
        case MessageCommand(m) =>
          if Duplex(b) && m.onAdvisoryTopic { AdvisoryKeepsInv(b, m, matches, regions); }
        case ConsumerInfoCommand(c) =>
          if Duplex(b) && b.flags.started && LocalSessionOpen(b) { AddConsumerKeepsInv(b, c, regions); }
        case _ =>
      }
      assert Inv(s.bridge);
    }
  }

  /** Servicing a local command never touches the subscriptions. */
  lemma LocalCommandKeepsInv(b: Bridge, cmd: Command, filterMatches: (NetworkFilter, Message) -> bool, accepted: bool)
    requires Inv(b) && !LocalWaits(b, cmd)
    ensures Inv(ServiceLocalCommand(b, cmd, filterMatches, accepted))
  {
  }

  // ---------------------------------------------------------------------
  // Runs
  // ---------------------------------------------------------------------

  /** Everything that can happen to a bridge: lifecycle calls, commands from either side, and callbacks. */
  datatype Transition =
    | StartCall
    | StopCall
    | LocalStart(localBrokerAccepts: bool)
    | RemoteStart
    | FromRemote(cmd: Command, matches: Matcher, regions: Regions)
    | FromLocal(cmd: Command, filterMatches: (NetworkFilter, Message) -> bool, accepted: bool)
    | ForwardResponse(md: MessageDispatch, failed: bool)
    | RemoveByLocalId(localId: ConsumerId)

  /**
   * The state once the call `t` returns. A remote command that would wait on
   * a latch not yet released has not returned: its thread is parked and the
   * state is unchanged, and a later transition delivers the command again.
   */
  function Apply(b: Bridge, t: Transition): Bridge {
    match t
    case StartCall => Start(b)
    case StopCall => Stop(b)
    case LocalStart(accepts) => StartLocalBridge(b, accepts)
    case RemoteStart => StartRemoteBridge(b)
    case FromRemote(cmd, matches, regions) => if Waits(b, cmd) then b else ServiceRemoteCommand(b, cmd, matches, regions)
    case FromLocal(cmd, filterMatches, accepted) =>
      if LocalWaits(b, cmd) then b else ServiceLocalCommand(b, cmd, filterMatches, accepted)
    case ForwardResponse(md, failed) => if md.message.Some? then OnForwardResponse(b, md, failed) else b
    case RemoveByLocalId(localId) => RemoveDemandSubscriptionByLocalId(b, localId).0
  }

  /** The transition brings no already-registered remote consumer id. */
  predicate FreshTransition(b: Bridge, t: Transition) {
    t.FromRemote? ==> FreshCommand(b, t.cmd)
  }

  /** Every transition keeps the invariant. */
  lemma TransitionKeepsInv(b: Bridge, t: Transition)
    requires Inv(b) && FreshTransition(b, t)
    ensures Inv(Apply(b, t))
  {
    match t {
      case StartCall =>
      case StopCall =>
      case LocalStart(accepts) => StartLocalBridgeKeepsInv(b, accepts);
      case RemoteStart =>
      case FromRemote(cmd, matches, regions) => if !Waits(b, cmd) { RemoteCommandKeepsInv(b, cmd, matches, regions); }
      case FromLocal(cmd, filterMatches, accepted) =>
        if !LocalWaits(b, cmd) { LocalCommandKeepsInv(b, cmd, filterMatches, accepted); }
      case ForwardResponse(md, failed) =>
      case RemoveByLocalId(localId) =>
        if localId in b.registry.byLocal { RemoveKeepsInv(b, b.registry.byLocal[localId].RemoteId()); }
    }
  }

  /** The state after a run of transitions. */
  function Run(b: Bridge, ts: seq<Transition>): Bridge
    decreases |ts|
  {
    if |ts| == 0 then b else Run(Apply(b, ts[0]), ts[1..])
  }

  /** Every transition of the run is fresh in the state it meets. */
  predicate FreshRun(b: Bridge, ts: seq<Transition>)
    decreases |ts|
  {
    |ts| == 0 || (FreshTransition(b, ts[0]) && FreshRun(Apply(b, ts[0]), ts[1..]))
  }

  /**
   * From construction on, whatever happens, the subscription maps stay in
   * lockstep and every local proxy id was issued from the sequence, as long
   * as remote consumer ids are not reused while registered.
   */
  lemma {:induction false} RunKeepsInv(b: Bridge, ts: seq<Transition>)
    requires Inv(b) && FreshRun(b, ts)
    ensures Inv(Run(b, ts))
    decreases |ts|
  {
    if |ts| > 0 {
      TransitionKeepsInv(b, ts[0]);
      RunKeepsInv(Apply(b, ts[0]), ts[1..]);
    }
  }

  /** The same from a freshly constructed bridge. */
  lemma FromInitKeepsInv(cfg: Config, idPrefix: string, localBrokerId: BrokerId, createdByDuplex: bool,
                         ts: seq<Transition>)
    requires FreshRun(Init(cfg, idPrefix, localBrokerId, createdByDuplex), ts)
    ensures Inv(Run(Init(cfg, idPrefix, localBrokerId, createdByDuplex), ts))
  {
    RunKeepsInv(Init(cfg, idPrefix, localBrokerId, createdByDuplex), ts);
  }

  // ---------------------------------------------------------------------
  // Lifecycle
  // ---------------------------------------------------------------------

  /** `start`, `stop` and both halves' starts take effect once: a second call changes nothing. */
  lemma LifecycleCallsAreOneShot(b: Bridge, accepts1: bool, accepts2: bool)
    ensures Start(Start(b)) == Start(b)
    ensures Stop(Stop(b)) == Stop(b)
    ensures StartRemoteBridge(StartRemoteBridge(b)) == StartRemoteBridge(b)
    ensures StartLocalBridge(StartLocalBridge(b, accepts1), accepts2) == StartLocalBridge(b, accepts1)
  {
  }

  /** Disposal is final, and a disposed bridge ignores both sides. */
  lemma DisposedIsFinal(b: Bridge, t: Transition)
    requires b.flags.disposed
    ensures Apply(b, t).flags.disposed
    ensures t.FromRemote? || t.FromLocal? ==> Apply(b, t) == b
  {
  }

  /**
   * A started bridge whose remote side turns out to be its own broker stops:
   * it is disposed, sends shutdown to both sides, and never schedules the
   * local half.
   */
  lemma RemoteLoopBackDisposes(b: Bridge, info: BrokerInfo, matches: Matcher, regions: Regions)
    requires b.flags.started && !b.flags.disposed && info.brokerId == b.setup.localBrokerId
    ensures var r := ServiceRemoteCommand(b, BrokerInfoCommand(info), matches, regions);
      && r.flags.disposed
      && Send(LocalSide, Shutdown) in r.log[|b.log|..] && Send(RemoteSide, Shutdown) in r.log[|b.log|..]
      && LocalStartScheduled !in r.log[|b.log|..]
  {
    var cmd := BrokerInfoCommand(info);
    var b1 := b.(flags := b.flags.(lastConnectSucceeded := true), peers := b.peers.(remoteBrokerInfo := Some(info)),
                 lists := b.setup.cfg.lists);
    var stopped := Stop(b1.(peers := b1.peers.(remoteBrokerId := Some(info.brokerId))));
    StopNeverSchedulesStart(b1.(peers := b1.peers.(remoteBrokerId := Some(info.brokerId))));
    var tail := [Send(LocalSide, cmd), BrokerNotified(PeerAdded)];
    var r := ServiceRemoteCommand(b, cmd, matches, regions);
    assert r == Emit(stopped, tail);
    assert r.log[|b.log|..] == stopped.log[|b.log|..] + tail;
    assert r.log[|b.log|..][1] == Send(LocalSide, Shutdown) && r.log[|b.log|..][2] == Send(RemoteSide, Shutdown);
  }

  /** `stop` emits shutdown and listener events, never a start. */
  lemma StopNeverSchedulesStart(b: Bridge)
    ensures LocalStartScheduled !in Stop(b).log[|b.log|..]
  {
    if b.flags.started {
      var b1 := b.(flags := b.flags.(started := false));
      var b2 :=
        if b1.flags.disposed then b1
        else Emit(b1.(flags := b1.flags.(disposed := true, remoteBridgeStarted := false)), ShutdownEvents);
      var notes := if b2.peers.remoteBrokerInfo.Some? then [BrokerNotified(PeerRemoved), BrokerNotified(BridgeStopped)] else [];
      assert Stop(b).log[|b.log|..] == (if b1.flags.disposed then [] else ShutdownEvents) + notes;
    }
  }

  /** A bridge whose remote side is another broker schedules its local half. */
  lemma RemotePeerStartsLocalHalf(b: Bridge, info: BrokerInfo, matches: Matcher, regions: Regions)
    requires !b.flags.disposed && info.brokerId != b.setup.localBrokerId
    ensures var r := ServiceRemoteCommand(b, BrokerInfoCommand(info), matches, regions);
      && !r.flags.disposed && r.peers.remoteBrokerId == Some(info.brokerId)
      && r.log == b.log + [LocalStartScheduled, Send(LocalSide, BrokerInfoCommand(info)), BrokerNotified(PeerAdded)]
  {
  }

  // ---------------------------------------------------------------------
  // Latches
  // ---------------------------------------------------------------------

  /** With the remote half started, a local start the local broker accepts releases both latches. */
  lemma AcceptedLocalStartOpensLatches(b: Bridge)
    requires !b.flags.disposed && !b.flags.localBridgeStarted && b.flags.remoteBridgeStarted
    ensures StartedLatchOpen(StartLocalBridge(b, true)) && LocalStartedLatchOpen(StartLocalBridge(b, true))
  {
  }

  /** A local start the local broker refuses throws before counting down: neither latch is released. */
  lemma RefusedLocalStartKeepsLatchesShut(b: Bridge)
    requires !b.flags.disposed && !b.flags.localBridgeStarted && b.sessions.localSession.None?
    ensures !StartedLatchOpen(StartLocalBridge(b, false)) && !LocalStartedLatchOpen(StartLocalBridge(b, false))
  {
  }

  /** Stopping a started bridge releases both latches, so no thread stays parked on them. */
  lemma StopOpensLatches(b: Bridge)
    requires b.flags.started
    ensures StartedLatchOpen(Stop(b)) && LocalStartedLatchOpen(Stop(b))
  {
  }

  /** A command that waits leaves the bridge as it is: nothing is registered, sent, stopped or failed. */
  lemma WaitingCommandChangesNothing(b: Bridge, cmd: Command, matches: Matcher, regions: Regions,
                                     filterMatches: (NetworkFilter, Message) -> bool, accepted: bool)
    ensures Waits(b, cmd) ==> Apply(b, FromRemote(cmd, matches, regions)) == b
    ensures LocalWaits(b, cmd) ==> Apply(b, FromLocal(cmd, filterMatches, accepted)) == b
  {
  }

  /**
   * Once `startedLatch` is released on a live bridge, an advisory with a data
   * structure never fails for want of the local connection or session.
   */
  lemma ReleasedAdvisoryFindsLocalSession(b: Bridge, data: Advisory, matches: Matcher, regions: Regions)
    requires !b.flags.disposed && StartedLatchOpen(b) && !data.NoData?
    ensures !ServiceRemoteConsumerAdvisory(b, data, matches, regions).threw
  {
  }

  // ---------------------------------------------------------------------
  // Advisories
  // ---------------------------------------------------------------------

  /** No event of `events` sends anything to the local broker. */
  predicate NothingToLocal(events: seq<Event>) {
    forall i :: 0 <= i < |events| ==> !(events[i].Send? && events[i].to == LocalSide)
  }

  /**
   * A consumer advisory for a browser, a consumer too many hops away, one
   * that already passed through this broker or one on a destination not
   * permitted changes no subscription and sends nothing to the local broker;
   * at most it is acknowledged to the remote broker.
   */
  lemma IgnoredConsumerIsOnlyAcknowledged(b: Bridge, md: MessageDispatch, matches: Matcher, regions: Regions)
    requires StartedLatchOpen(b) && !b.flags.disposed && md.message.Some? && md.message.value.data.ConsumerAdvisory?
    requires IgnoredConsumer(b, md.message.value.data.consumer, matches)
    ensures var r := ServiceRemoteCommand(b, Dispatch(md), matches, regions);
      && r.registry == b.registry && r.consumerSeq == b.consumerSeq
      && |r.log| >= |b.log| && NothingToLocal(r.log[|b.log|..])
  {
    var s := AckAdvisory(b, md.message.value);
    var r := ServiceRemoteCommand(b, Dispatch(md), matches, regions);
    if s.threw {
      assert r.log[|b.log|..] == [DisposeScheduled, ListenerFailed];
    } else if AdvisoryAck(b.counters.demandConsumerDispatched, b.setup.cfg.prefetchSize).1.Some? {
      assert r.log[|b.log|..] == s.bridge.log[|b.log|..];
    } else {
      assert r.log[|b.log|..] == [];
    }
  }

  /**
   * A consumer advisory that passes every check, on a destination type for
   * which duplicate suppression is off, is bridged: the consumer is
   * registered under its remote id and its proxy is sent to the local broker.
   */
  lemma AcceptedConsumerIsBridged(b: Bridge, md: MessageDispatch, matches: Matcher, regions: Regions)
    requires Inv(b) && !b.flags.disposed && StartedLatchOpen(b) && b.sessions.demandConsumer.Some?
    requires md.message.Some? && md.message.value.data.ConsumerAdvisory?
    requires !IgnoredConsumer(b, md.message.value.data.consumer, matches)
    requires md.message.value.data.consumer.consumerId !in b.registry.byRemote
    requires var dest := md.message.value.data.consumer.destination;
      (dest.IsQueue() && !b.setup.cfg.suppressDuplicateQueueSubscriptions)
      || (dest.IsTopic() && !b.setup.cfg.suppressDuplicateTopicSubscriptions)
    ensures var r := ServiceRemoteCommand(b, Dispatch(md), matches, regions);
      && md.message.value.data.consumer.consumerId in r.registry.byRemote
      && Inv(r)
      && exists i :: |b.log| <= i < |r.log| && r.log[i].Send? && r.log[i].to == LocalSide
                     && r.log[i].command == ConsumerInfoCommand(r.registry.byRemote[md.message.value.data.consumer.consumerId].localInfo)
  {
    var consumer := md.message.value.data.consumer;
    var (b1, sub) := CreateDemandSubscription(b, ArrivedConsumer(b, consumer));
    assert sub.remoteInfo.destination.kind == consumer.destination.kind;
    assert SuppressionDisabled(b.setup.cfg.suppressDuplicateQueueSubscriptions,
                               b.setup.cfg.suppressDuplicateTopicSubscriptions, sub);
    assert Decide(b, sub, regions) == Admit;
    var added := Emit(b1, [Send(LocalSide, ConsumerInfoCommand(sub.localInfo))]);
    assert AddConsumerInfo(b, consumer, regions).0 == added;
    AddConsumerKeepsInv(b, consumer, regions);
    var s := AckAdvisory(added, md.message.value);
    var r := ServiceRemoteCommand(b, Dispatch(md), matches, regions);
    assert r == s.bridge;
    assert r.registry == b1.registry;
    assert r.log[|b.log|] == Send(LocalSide, ConsumerInfoCommand(sub.localInfo));
    AdvisoryKeepsInv(b, md.message.value, matches, regions);
  }

  /**
   * On a duplex bridge, an acknowledgement from the remote side for a
   * registered remote consumer reaches the local proxy consumer of the same
   * subscription.
   */
  lemma DuplexAckReachesProxy(b: Bridge, ack: MessageAck, matches: Matcher, regions: Regions)
    requires Inv(b) && !b.flags.disposed && Duplex(b) && ack.consumerId in b.registry.byRemote
    ensures var r := ServiceRemoteCommand(b, AckCommand(ack), matches, regions);
      && |r.log| == |b.log| + 1
      && r.log[|b.log|].Send? && r.log[|b.log|].to == LocalSide && r.log[|b.log|].command.AckCommand?
      && var local := r.log[|b.log|].command.ack.consumerId;
         local in b.registry.byLocal && b.registry.byLocal[local].RemoteId() == ack.consumerId
  {
  }

  /** Removal by local id, under the invariant, takes that proxy consumer out of the local map. */
  lemma RemoveByLocalIdRemoves(b: Bridge, localId: ConsumerId)
    requires Inv(b) && localId in b.registry.byLocal
    ensures var (r, done) := RemoveDemandSubscriptionByLocalId(b, localId);
      done && localId !in r.registry.byLocal && b.registry.byLocal[localId].RemoteId() !in r.registry.byRemote
  {
    RemoveKeepsInv(b, b.registry.byLocal[localId].RemoteId());
  }

  // ---------------------------------------------------------------------
  // Advisory acknowledgement batching
  // ---------------------------------------------------------------------

  /** The batch size at which advisories are acknowledged: the least count above three quarters of the prefetch. */
  function AckThreshold(prefetch: nat): nat {
    3 * prefetch / 4 + 1
  }

  /** `count > prefetch * .75` holds exactly from the threshold on. */
  lemma AckThresholdExact(count: int, prefetch: nat)
    ensures 4 * count > 3 * prefetch <==> count >= AckThreshold(prefetch)
  {
    var q, rem := 3 * prefetch / 4, 3 * prefetch % 4;
    assert 3 * prefetch == 4 * q + rem && 0 <= rem < 4;
  }

  /** `k` advisories counted from `dispatched`: the final count and the sizes of the batches acknowledged. */
  function AckRun(dispatched: int, prefetch: int, k: nat): (int, seq<int>)
    decreases k
  {
    if k == 0 then (dispatched, [])
    else
      var (n, ack) := AdvisoryAck(dispatched, prefetch);
      var (last, acks) := AckRun(n, prefetch, k - 1);
      (last, (if ack.Some? then [ack.value] else []) + acks)
  }

  lemma MulSucc(a: nat, t: nat)
    ensures (a + 1) * t == a * t + t
  {
  }

  /**
   * From any count below the threshold `T`, `k` more advisories are
   * acknowledged in batches of exactly `T`, and what is left counted is
   * below `T`: so `count + k == batches * T + left`, the quotient and
   * remainder of `count + k` by `T`.
   */
  lemma {:induction false} AckRunBatches(dispatched: nat, prefetch: nat, k: nat)
    requires dispatched < AckThreshold(prefetch)
    ensures var t := AckThreshold(prefetch);
      var (left, acks) := AckRun(dispatched, prefetch, k);
      && 0 <= left < t
      && (forall i :: 0 <= i < |acks| ==> acks[i] == t)
      && dispatched + k == |acks| * t + left
    decreases k
  {
    if k > 0 {
      var t := AckThreshold(prefetch);
      AckThresholdExact(dispatched + 1, prefetch);
      var (n, ack) := AdvisoryAck(dispatched, prefetch);
      AckRunBatches(n, prefetch, k - 1);
      var (left, acks) := AckRun(n, prefetch, k - 1);
      if dispatched + 1 == t {
        assert n == 0 && ack == Some(t);
        assert AckRun(dispatched, prefetch, k) == (left, [t] + acks);
        MulSucc(|acks|, t);
      } else {
        assert n == dispatched + 1 && ack.None?;
        assert AckRun(dispatched, prefetch, k) == (left, [] + acks);
        assert [] + acks == acks;
      }
    }
  }

  /** With the default prefetch of 1000, advisories are acknowledged in batches of 751. */
  lemma DefaultPrefetchBatches(k: nat)
    ensures var (left, acks) := AckRun(0, 1000, k);
      && left < 751 && (forall i :: 0 <= i < |acks| ==> acks[i] == 751) && k == |acks| * 751 + left
  {
    AckRunBatches(0, 1000, k);
  }

  /** With a prefetch of 100, 75 advisories go unacknowledged and the 76th acknowledges all 76. */
  lemma FirstAckAt76()
    ensures AckRun(0, 100, 75).1 == []
    ensures AckRun(0, 100, 76) == (0, [76])
  {
    AckRunBatches(0, 100, 75);
    AckRunBatches(0, 100, 76);
    var acks := AckRun(0, 100, 76).1;
    assert acks == [acks[0]];
  }

  // ---------------------------------------------------------------------
  // Local dispatches
  // ---------------------------------------------------------------------

  /** The local dispatch reaches a registered proxy consumer that accepts one more outstanding response. */
  predicate Deliverable(b: Bridge, md: MessageDispatch, accepted: bool) {
    !b.flags.disposed && md.consumerId in b.registry.byLocal && md.message.Some? && accepted
  }

  /**
   * A message to a durable proxy consumer whose network filter rejects it is
   * acknowledged to the local broker without being forwarded, and leaves
   * the outstanding count as it was.
   */
  lemma FilteredDurableIsAckedNotForwarded(b: Bridge, md: MessageDispatch,
                                           filterMatches: (NetworkFilter, Message) -> bool, accepted: bool)
    requires Deliverable(b, md, accepted)
    requires b.registry.byLocal[md.consumerId].localInfo.durable
    requires !filterMatches(b.registry.byLocal[md.consumerId].filter, md.message.value)
    ensures var r := ServiceLocalCommand(b, Dispatch(md), filterMatches, accepted);
      && r.log == b.log + [LocalAck(md)]
      && r.counters.outstanding == b.counters.outstanding
      && r.counters.enqueued == b.counters.enqueued + 1 && r.counters.dequeued == b.counters.dequeued
  {
  }

  /**
   * A non-persistent message (sends not forced synchronous) is sent one-way
   * to the remote broker, carrying this broker at the end of its path, and
   * acknowledged locally at once.
   */
  lemma AsyncForwardIsAckedAtOnce(b: Bridge, md: MessageDispatch,
                                  filterMatches: (NetworkFilter, Message) -> bool, accepted: bool)
    requires Deliverable(b, md, accepted) && b.sessions.producer.Some?
    requires var sub := b.registry.byLocal[md.consumerId];
      !(sub.localInfo.durable && !filterMatches(sub.filter, md.message.value))
    requires !b.setup.cfg.alwaysSyncSend && !md.message.value.persistent
    ensures var r := ServiceLocalCommand(b, Dispatch(md), filterMatches, accepted);
      && |r.log| == |b.log| + 2
      && r.log[|b.log|].Send? && r.log[|b.log|].to == RemoteSide && r.log[|b.log|].command.MessageCommand?
      && Ids(r.log[|b.log|].command.message.brokerPath) == Ids(md.message.value.brokerPath) + [b.setup.localBrokerId]
      && r.log[|b.log| + 1] == LocalAck(md)
      && r.counters.outstanding == b.counters.outstanding
      && r.counters.dequeued == b.counters.dequeued + 1
  {
  }

  /**
   * A persistent message is forwarded as a request and acknowledged only
   * when the response comes back; until then one more response is
   * outstanding, and the response brings the count back to where it was.
   */
  lemma SyncForwardAwaitsResponse(b: Bridge, md: MessageDispatch,
                                  filterMatches: (NetworkFilter, Message) -> bool, accepted: bool)
    requires Deliverable(b, md, accepted) && b.sessions.producer.Some?
    requires var sub := b.registry.byLocal[md.consumerId];
      !(sub.localInfo.durable && !filterMatches(sub.filter, md.message.value))
    requires b.setup.cfg.alwaysSyncSend || md.message.value.persistent
    ensures var sent := ServiceLocalCommand(b, Dispatch(md), filterMatches, accepted);
      && Outstanding(sent, md.consumerId) == Outstanding(b, md.consumerId) + 1
      && sent.log[|b.log|..] == [Request(RemoteSide, MessageCommand(ConfigureMessage(md, b.setup.localBrokerId,
                                                                                       b.sessions.producer.value)))]
      && LocalAck(md) !in sent.log[|b.log|..]
    ensures var done := OnForwardResponse(ServiceLocalCommand(b, Dispatch(md), filterMatches, accepted), md, false);
      && Outstanding(done, md.consumerId) == Outstanding(b, md.consumerId)
      && done.log[|done.log| - 1] == LocalAck(md)
      && done.counters.dequeued == b.counters.dequeued + 1
  {
    var b0 := b.(counters := b.counters.(enqueued := b.counters.enqueued + 1));
    assert Outstanding(b0, md.consumerId) == Outstanding(b, md.consumerId);
    var sent := ServiceLocalCommand(b, Dispatch(md), filterMatches, accepted);
    assert sent == Forward(b0, md);
    assert sent.log[|b.log|..] == [Request(RemoteSide, MessageCommand(ConfigureMessage(md, b.setup.localBrokerId,
                                                                                       b.sessions.producer.value)))];
  }
}

=== FILE: broker_paths.dfy ===
/**
 * Broker paths: the ordered list of broker ids a subscription, destination
 * notice or message has crossed, used by the network bridge for loop
 * detection and hop (TTL) limiting.
 */
module BrokerPaths {
  import opened Results

  /** A broker identity, compared by value as `BrokerId.equals` does. */
  type BrokerId = string

  /** A broker path as a command carries it; `None` is a null array. */
  type Path = Option<seq<BrokerId>>

  /** The ids on a path; a null path has none. */
  function Ids(p: Path): seq<BrokerId> {
    if p.Some? then p.value else []
  }

  /** Front-to-back scan of a path for one id. */
  function Scan(ids: seq<BrokerId>, id: BrokerId): (found: bool)
    ensures found <==> exists i :: 0 <= i < |ids| && ids[i] == id
  {
    if |ids| == 0 then false
    else if id == ids[0] then true
    else
      var rest := Scan(ids[1..], id);
      assert forall i :: 1 <= i < |ids| ==> ids[i] == ids[1..][i - 1];
      rest
  }

  /** `contains(brokerPath, brokerId)`: a null path contains nothing. */
  function Contains(path: Path, id: BrokerId): (found: bool)
    ensures found <==> id in Ids(path)
  {
    path.Some? && Scan(path.value, id)
  }

  /**
   * `appendToBrokerPath(brokerPath, pathsToAppend)`: a null or empty path
   * yields the ids to append; otherwise a fresh path with both, in order.
   */
  function Append(path: Path, toAppend: seq<BrokerId>): (r: seq<BrokerId>)
    ensures |r| == |Ids(path)| + |toAppend|
    ensures r[..|Ids(path)|] == Ids(path)
    ensures r[|Ids(path)|..] == toAppend
  {
    if path.None? || |path.value| == 0 then toAppend else path.value + toAppend
  }

  /** `appendToBrokerPath(brokerPath, idToAppend)`: the single-id form. */
  function AppendId(path: Path, id: BrokerId): (r: seq<BrokerId>)
    ensures |r| == |Ids(path)| + 1
    ensures r[..|Ids(path)|] == Ids(path)
    ensures r[|Ids(path)|] == id
  {
    if path.None? || |path.value| == 0 then [id] else path.value + [id]
  }

  /**
   * The guard applied to consumer and destination advisories: a notice is
   * dropped when its path already has `networkTTL` hops or more, or when it
   * has already passed through the local broker.
   */
  predicate Rejected(path: Path, networkTTL: int, localId: BrokerId) {
    (path.Some? && |path.value| >= networkTTL) || Contains(path, localId)
  }

  /** The two append forms agree. */
  lemma AppendIdIsAppend(path: Path, id: BrokerId)
    ensures AppendId(path, id) == Append(path, [id])
  {
    var r, s := AppendId(path, id), Append(path, [id]);
    assert |r| == |s|;
    forall i | 0 <= i < |r|
      ensures r[i] == s[i]
    {
      if i < |Ids(path)| {
        assert r[i] == r[..|Ids(path)|][i] && s[i] == s[..|Ids(path)|][i];
      } else {
        assert s[i] == s[|Ids(path)|..][0];
      }
    }
  }

  /** An id is on an extended path iff it was on the old path or was appended. */
  lemma ContainsAfterAppend(path: Path, toAppend: seq<BrokerId>, id: BrokerId)
    ensures Contains(Some(Append(path, toAppend)), id) <==> Contains(path, id) || id in toAppend
  {
    var r := Append(path, toAppend);
    var n := |Ids(path)|;
    assert r == r[..n] + r[n..];
  }

  /**
   * Loop freedom: once the local broker has put its id on a path, the guard
   * drops the notice should it ever come back, whatever the TTL.
   */
  lemma AppendedLocalIdIsRejected(path: Path, networkTTL: int, localId: BrokerId)
    ensures Rejected(Some(AppendId(path, localId)), networkTTL, localId)
  {
    var r := AppendId(path, localId);
    assert r[|Ids(path)|] == localId;
  }

  /**
   * The TTL boundary is exact: a path of `networkTTL - 1` hops that does not
   * name the local broker passes, one of `networkTTL` hops does not.
   */
  lemma TTLBoundary(ids: seq<BrokerId>, networkTTL: int, localId: BrokerId)
    requires localId !in ids
    ensures |ids| == networkTTL - 1 ==> !Rejected(Some(ids), networkTTL, localId)
    ensures |ids| == networkTTL ==> Rejected(Some(ids), networkTTL, localId)
  {
  }
}

=== FILE: destinations.dfy ===
/**
 * Destinations and the bridge's destination-permission rule
 * (`isPermissableDestination`): temporary destinations first, then the
 * statically included list, then the excluded list, then the dynamically
 * included list, else permit.
 */
module Destinations {
  import opened Results

  /** `ActiveMQDestination.getDestinationType()`. */
  datatype DestinationType = Queue | Topic | TempQueue | TempTopic

  /** A connection id as issued by an id generator: the generator's prefix and a sequence number. */
  datatype ConnectionId = ConnectionId(prefix: string, seqNo: int)

  /**
   * A destination. `owner` is the connection that owns a temporary
   * destination (`ActiveMQTempDestination.getConnectionId()`).
   */
  datatype Destination = Destination(kind: DestinationType, name: string, owner: Option<ConnectionId>) {
    predicate IsTemporary() { kind == TempQueue || kind == TempTopic }
    predicate IsQueue() { kind == Queue || kind == TempQueue }
    predicate IsTopic() { kind == Topic || kind == TempTopic }
  }

  /**
   * `DestinationFilter.parseFilter(pattern).matches(destination)`. The
   * wildcard language is not modelled: callers supply the relation.
   */
  type Matcher = (Destination, Destination) -> bool

  /** The three configured destination lists; a null array is an empty list. */
  datatype DestinationLists = DestinationLists(
    staticallyIncluded: seq<Destination>,
    excluded: seq<Destination>,
    dynamicallyIncluded: seq<Destination>)

  /** One list entry selects a destination: its filter matches and the types agree. */
  predicate Selects(matches: Matcher, pattern: Destination, dest: Destination) {
    matches(pattern, dest) && pattern.kind == dest.kind
  }

  /** Some entry of a list selects the destination. */
  predicate AnySelects(matches: Matcher, patterns: seq<Destination>, dest: Destination) {
    exists i :: 0 <= i < |patterns| && Selects(matches, patterns[i], dest)
  }

  /** The permission decision, rule by rule in the source's order. */
  predicate Permitted(lists: DestinationLists, bridgeTempDestinations: bool, matches: Matcher,
                      dest: Destination, allowTemporary: bool)
  {
    if dest.IsTemporary() then allowTemporary || bridgeTempDestinations
    else if AnySelects(matches, lists.staticallyIncluded, dest) then true
    else if AnySelects(matches, lists.excluded, dest) then false
    else if |lists.dynamicallyIncluded| > 0 then AnySelects(matches, lists.dynamicallyIncluded, dest)
    else true
  }

  /** Linear search of one list, as each of the source's three loops does. */
  method FindSelecting(matches: Matcher, patterns: seq<Destination>, dest: Destination) returns (found: bool)
    ensures found <==> AnySelects(matches, patterns, dest)
  {
    var i := 0;
    while i < |patterns|
      invariant 0 <= i <= |patterns|
      invariant forall j :: 0 <= j < i ==> !Selects(matches, patterns[j], dest)
    {
      if matches(patterns[i], dest) && patterns[i].kind == dest.kind {
        return true;
      }
      i := i + 1;
    }
    return false;
  }

  /** `isPermissableDestination(destination, allowTemporary)`. */
  method IsPermissableDestination(lists: DestinationLists, bridgeTempDestinations: bool, matches: Matcher,
                                  dest: Destination, allowTemporary: bool) returns (permitted: bool)
    ensures dest.IsTemporary() ==> (permitted <==> allowTemporary || bridgeTempDestinations)
    ensures !dest.IsTemporary() && AnySelects(matches, lists.staticallyIncluded, dest) ==> permitted
    ensures (!dest.IsTemporary() && !AnySelects(matches, lists.staticallyIncluded, dest)
             && AnySelects(matches, lists.excluded, dest))
            ==> !permitted
    ensures (!dest.IsTemporary() && !AnySelects(matches, lists.staticallyIncluded, dest)
             && !AnySelects(matches, lists.excluded, dest) && |lists.dynamicallyIncluded| > 0)
            ==> (permitted <==> AnySelects(matches, lists.dynamicallyIncluded, dest))
    ensures (!dest.IsTemporary() && !AnySelects(matches, lists.staticallyIncluded, dest)
             && !AnySelects(matches, lists.excluded, dest) && |lists.dynamicallyIncluded| == 0)
            ==> permitted
    ensures permitted == Permitted(lists, bridgeTempDestinations, matches, dest, allowTemporary)
  {
    if dest.IsTemporary() {
      return allowTemporary || bridgeTempDestinations;
    }
    var included := FindSelecting(matches, lists.staticallyIncluded, dest);
    if included {
      return true;
    }
    var excluded := FindSelecting(matches, lists.excluded, dest);
    if excluded {
      return false;
    }
    if |lists.dynamicallyIncluded| > 0 {
      permitted := FindSelecting(matches, lists.dynamicallyIncluded, dest);
      return;
    }
    return true;
  }

  /**
   * A non-empty dynamic list only ever narrows what is permitted: whatever it
   * lets through would also pass with no dynamic list at all.
   */
  lemma DynamicListOnlyNarrows(lists: DestinationLists, bridgeTemp: bool, matches: Matcher,
                               dest: Destination, allowTemporary: bool)
    ensures Permitted(lists, bridgeTemp, matches, dest, allowTemporary)
            ==> Permitted(lists.(dynamicallyIncluded := []), bridgeTemp, matches, dest, allowTemporary)
  {
  }

  /** An excluded destination is refused unless a static entry also selects it. */
  lemma ExcludedIsRefused(lists: DestinationLists, bridgeTemp: bool, matches: Matcher,
                          dest: Destination, i: int)
    requires !dest.IsTemporary()
    requires 0 <= i < |lists.excluded| && Selects(matches, lists.excluded[i], dest)
    ensures Permitted(lists, bridgeTemp, matches, dest, false)
            <==> AnySelects(matches, lists.staticallyIncluded, dest)
  {
  }
}

=== FILE: list_findings.dfy ===
/**
 * Four places where the list code as written leaves the index out of step
 * with its pages, each shown on a small list, next to the corrected
 * operation the rest of the model uses.
 */
module ListFindings {
  import opened Results
  import opened ListNodes
  import opened PageChains
  import opened ListIndexes
  import opened ListIndexProperties

  type Pair = Entry<int, int>

  /** An overflow check that passes anything. */
  function Roomy(s: seq<Pair>): bool {
    true
  }

  /** An overflow check that passes one entry per page at most. */
  function Single(s: seq<Pair>): bool {
    |s| <= 1
  }

  // ---------------------------------------------------------------------
  // 1. `load` of a one-page list leaves the tail where it was
  // ---------------------------------------------------------------------

  /** A stored one-page list on page 5, freshly constructed (tail field 0). */
  function OnePage(): Index<int, int> {
    New(map[5 := Node(NotSet, [Entry(1, 1)])], 6, 5, true, true)
  }

  /**
   * As written, loading the one-page list keeps the tail at 0, a page that
   * holds no node, so the next `add` fails to load its tail.
   */
  lemma LoadLeavesTailUnset()
    ensures var r := LoadAsWritten(OnePage()).0;
      && r.tail == 0 && !Valid(r)
      && Add(r, Some(2), 2, Roomy) == Err(BrokenChain(0))
  {
    var ix := OnePage();
    var r := LoadAsWritten(ix).0;
    assert r == ix.(loaded := true, size := 1);
    assert IsChain(ix.pages, [5]);
    ChainIsFound(ix.pages, [5]);
  }

  /** Corrected, the tail starts at the head: the loaded list is valid and `add` appends to it. */
  lemma LoadSetsTail()
    ensures var r := Load(OnePage()).0;
      && r.tail == 5 && Valid(r) && Items(r) == [Entry(1, 1)]
      && Add(r, Some(2), 2, Roomy).Ok? && Items(Add(r, Some(2), 2, Roomy).value) == [Entry(1, 1), Entry(2, 2)]
  {
    var ix := OnePage();
    assert WellFormed(ix.pages, ix.limit, [5]);
    LoadFindsChain(ix, [5]);
    var r := Load(ix).0;
    assert Flatten(r.pages, [5]) == [Entry(1, 1)] + Flatten(r.pages, []);
    AddAppends(r, 2, 2, Roomy);
  }

  // ---------------------------------------------------------------------
  // 2. `addFirst` splitting the only page leaves the tail on the head
  // ---------------------------------------------------------------------

  /** A loaded one-page list on page 0 holding one entry. */
  function OneEntry(): Index<int, int> {
    Index(map[0 := Node(NotSet, [Entry(1, 1)])], 1, 0, 0, 1, true, true, true)
  }

  /**
   * As written, `addFirst` that splits the only page keeps the tail on the
   * head, so a following `add` links a new page after the head and the
   * entry that moved to the extension falls out of the list.
   */
  lemma AddFirstLosesEntry()
    ensures var r := AddFirstAsWritten(OneEntry(), Some(2), 2, Single);
      && r.Ok? && r.value.tail == 0 && 1 in r.value.pages && r.value.pages[1] == Node(NotSet, [Entry(1, 1)])
      && var s := Add(r.value, Some(3), 3, Single);
      && s.Ok? && s.value.size == 3 && Items(s.value) == [Entry(2, 2), Entry(3, 3)]
  {
    var r := AddFirstAsWritten(OneEntry(), Some(2), 2, Single);
    var p1 := map[0 := Node(1, [Entry(2, 2)]), 1 := Node(NotSet, [Entry(1, 1)])];
    AsWrittenHeadSplit();
    assert r == Ok(Index(p1, 2, 0, 0, 2, true, true, true));
    AddAfterLostEntry();
  }

  /** The split of the only page by `addFirst` as written: the extension holds the old entry, the tail stays on page 0. */
  lemma AsWrittenHeadSplit()
    ensures AddFirstAsWritten(OneEntry(), Some(2), 2, Single)
         == Ok(Index(map[0 := Node(1, [Entry(2, 2)]), 1 := Node(NotSet, [Entry(1, 1)])], 2, 0, 0, 2, true, true, true))
  {
    var ix := OneEntry();
    var e1, e2 := Entry(1, 1), Entry(2, 2);
    var h := ix.pages[0];
    var n := h.(entries := [e2] + h.entries);
    assert NodeAddFirst(h, Some(2), 2) == Ok(n);
    assert n.entries == [e2, e1] && n.entries[..1] == [e2] && n.entries[1..] == [e1];
    assert !Single(n.entries);
    var ix3 := ix.(limit := 2, pages := ix.pages[0 := Node(1, [e2])]);
    assert Write(ix.(limit := 2), 0, Node(1, n.entries[..1]), Single) == Ok(ix3);
    assert Store(ix3, 1, Node(NotSet, n.entries[1..]), true, Single, false) == Ok(ix3.(pages := ix3.pages[1 := Node(NotSet, [e1])]));
    assert Split(ix, 0, n, true, Single, false) == Ok(ix3.(pages := ix3.pages[1 := Node(NotSet, [e1])]));
    assert ix3.pages[1 := Node(NotSet, [e1])] == map[0 := Node(1, [e2]), 1 := Node(NotSet, [e1])];
  }

  /** The next `add` then splits page 0 again and links the new page after it, past page 1. */
  lemma AddAfterLostEntry()
    ensures var r := Index(map[0 := Node(1, [Entry(2, 2)]), 1 := Node(NotSet, [Entry(1, 1)])], 2, 0, 0, 2, true, true, true);
      var s := Add(r, Some(3), 3, Single);
      && s.Ok? && s.value.size == 3 && Items(s.value) == [Entry(2, 2), Entry(3, 3)]
  {
    var e1, e2, e3 := Entry(1, 1), Entry(2, 2), Entry(3, 3);
    var r := Index(map[0 := Node(1, [e2]), 1 := Node(NotSet, [e1])], 2, 0, 0, 2, true, true, true);
    var t := r.pages[0];
    var m := t.(entries := t.entries + [e3]);
    assert NodePut(t, Some(3), 3) == Ok(m);
    assert m.entries == [e2, e3] && m.entries[..1] == [e2] && m.entries[1..] == [e3];
    assert !Single(m.entries);
    var ix3 := r.(limit := 3, tail := 2, pages := r.pages[0 := Node(2, [e2])]);
    assert Write(r.(limit := 3, tail := 2), 0, Node(2, m.entries[..1]), Single) == Ok(ix3);
    var p2 := ix3.pages[2 := Node(NotSet, [e3])];
    assert Store(ix3, 2, Node(NotSet, m.entries[1..]), false, Single, true) == Ok(ix3.(pages := p2));
    assert Split(r, 0, m, false, Single, true) == Ok(ix3.(pages := p2));
    assert Add(r, Some(3), 3, Single) == Ok(ix3.(pages := p2, size := 3));
    assert p2[0] == Node(2, [e2]) && p2[2] == Node(NotSet, [e3]);
    assert IsChain(p2, [0, 2]);
    ChainIsFound(p2, [0, 2]);
    assert Flatten(p2, [0, 2]) == [e2] + Flatten(p2, [2]);
    assert Flatten(p2, [2]) == [e3] + Flatten(p2, []);
  }

  /** Corrected, the tail moves to the extension: the list stays valid and both entries stay in it. */
  lemma AddFirstKeepsEntry()
    ensures var r := AddFirst(OneEntry(), Some(2), 2, Single);
      && r.Ok? && Valid(r.value) && r.value.tail == 1 && Items(r.value) == [Entry(2, 2), Entry(1, 1)]
  {
    var ix := OneEntry();
    var e1, e2 := Entry(1, 1), Entry(2, 2);
    assert IsChain(ix.pages, [0]);
    assert ValidWith(ix, [0]) by {
      assert Flatten(ix.pages, [0]) == [e1] + Flatten(ix.pages, []);
    }
    ValidWithIsValid(ix, [0]);
    assert AllFit(ix, Single);
    AddFirstPrepends(ix, 2, 2, Single);
    StoreAtHead(ix, 0, e2, Single);
    assert !Single([e2] + [e1]);
  }

  // ---------------------------------------------------------------------
  // 3. `remove` dropping the tail page leaves the tail on the freed page
  // ---------------------------------------------------------------------

  /** A loaded two-page list: page 1 holding `a`, then page 2 holding `rest`. */
  function TwoPages(rest: seq<Pair>): Index<int, int> {
    Index(map[1 := Node(2, [Entry(1, 1)]), 2 := Node(NotSet, rest)], 3, 1, 2, 1 + |rest|, true, true, true)
  }

  /** The two-page list is valid, and the iterator reads both pages. */
  lemma TwoPagesValid(rest: seq<Pair>)
    requires rest != []
    ensures Valid(TwoPages(rest)) && ChainIds(TwoPages(rest)) == [1, 2]
    ensures Items(TwoPages(rest)) == [Entry(1, 1)] + rest
    ensures Scan(TwoPages(rest).pages, 1) == Traversal([1, 2], Complete)
    ensures Scanned(TwoPages(rest)) == ([Entry(1, 1)] + rest, Complete)
  {
    var ix := TwoPages(rest);
    assert IsChain(ix.pages, [1, 2]);
    FlattenCons(ix.pages, 1, [2]);
    FlattenCons(ix.pages, 2, []);
    assert [1] + [2] == [1, 2] && [2] + [] == [2];
    assert Flatten(ix.pages, [1, 2]) == [Entry(1, 1)] + rest;
    assert ValidWith(ix, [1, 2]);
    ValidWithIsValid(ix, [1, 2]);
    ScanOfValid(ix);
  }

  /** Removing key 2, the first entry of page 2, is the page removal there counted off. */
  lemma RemoveFromSecond(rest: seq<Pair>, asWritten: bool)
    requires rest != [] && rest[0] == Entry(2, 2)
    ensures var ix := TwoPages(rest);
      var d := DoRemove(ix, 2, 1, 0, Roomy, asWritten);
      RemoveWith(ix, Some(2), Roomy, asWritten)
        == if d.Ok? then Ok((d.value.(size := d.value.size - 1), Some(2))) else Err(d.error)
  {
    var ix := TwoPages(rest);
    TwoPagesValid(rest);
    var items := [Entry(1, 1)] + rest;
    assert items[1] == Entry(2, 2);
    assert FirstMatch(items, 2) == Some(1);
    assert Entries(ix.pages, 1) == [Entry(1, 1)] && [1, 2][1..] == [2];
    assert Locate(ix.pages, [1, 2], 1) == (1, 0);
    assert Before([1, 2], 1) == 1;
  }

  /**
   * As written, removing the only entry of the last page unlinks and frees
   * that page but leaves the tail on it, so the next `add` fails to load
   * its tail.
   */
  lemma RemoveLeavesTailFreed()
    ensures var r := RemoveAsWritten(TwoPages([Entry(2, 2)]), Some(2), Roomy);
      && r.Ok? && r.value.1 == Some(2) && r.value.0.tail == 2 && 2 !in r.value.0.pages
      && Add(r.value.0, Some(3), 3, Roomy) == Err(BrokenChain(2))
  {
    var ix := TwoPages([Entry(2, 2)]);
    RemoveFromSecond([Entry(2, 2)], true);
    assert RemoveAt([Entry(2, 2)], 0) == [];
    var w := ix.(pages := ix.pages[1 := Node(NotSet, [Entry(1, 1)])]);
    assert DoRemove(ix, 2, 1, 0, Roomy, true) == Ok(w.(pages := w.pages - {2}));
  }

  /** Corrected, the tail moves back to the page before: the list stays valid and holds the other entry. */
  lemma RemoveMovesTailBack()
    ensures var r := Remove(TwoPages([Entry(2, 2)]), Some(2), Roomy);
      && r.Ok? && r.value.1 == Some(2) && r.value.0.tail == 1 && Valid(r.value.0)
      && Items(r.value.0) == [Entry(1, 1)]
  {
    RemoveFromSecond([Entry(2, 2)], false);
    DropSecondPage();
    HeadOnly();
  }

  /** Page 2 emptied: page 1 is linked past it and becomes the tail. */
  lemma DropSecondPage()
    ensures DoRemove(TwoPages([Entry(2, 2)]), 2, 1, 0, Roomy, false)
         == Ok(Index(map[1 := Node(NotSet, [Entry(1, 1)])], 3, 1, 1, 2, true, true, true))
  {
    var ix := TwoPages([Entry(2, 2)]);
    assert RemoveAt([Entry(2, 2)], 0) == [];
    assert ix.pages[1 := Node(NotSet, [Entry(1, 1)])] - {2} == map[1 := Node(NotSet, [Entry(1, 1)])];
  }

  /** What is left: page 1 alone, holding `a`. */
  lemma HeadOnly()
    ensures var r := Index(map[1 := Node(NotSet, [Entry(1, 1)])], 3, 1, 1, 1, true, true, true);
      Valid(r) && Items(r) == [Entry(1, 1)]
  {
    var r := Index(map[1 := Node(NotSet, [Entry(1, 1)])], 3, 1, 1, 1, true, true, true);
    assert IsChain(r.pages, [1]);
    FlattenCons(r.pages, 1, []);
    assert [1] + [] == [1];
    assert ValidWith(r, [1]);
    ValidWithIsValid(r, [1]);
  }

  // ---------------------------------------------------------------------
  // 4. `remove` from a later page stores the head instead of that page
  // ---------------------------------------------------------------------

  /**
   * As written, removing an entry from a page after the head that keeps
   * other entries writes the head page again and not the changed one: the
   * stored pages are unchanged while the size drops by one.
   */
  lemma RemoveStoresHead()
    ensures var ix := TwoPages([Entry(2, 2), Entry(3, 3)]);
      var r := RemoveAsWritten(ix, Some(2), Roomy);
      && r.Ok? && r.value.1 == Some(2) && r.value.0.pages == ix.pages && r.value.0.size == 2
      && Items(r.value.0) == [Entry(1, 1), Entry(2, 2), Entry(3, 3)] && !Valid(r.value.0)
  {
    var ix := TwoPages([Entry(2, 2), Entry(3, 3)]);
    RemoveFromSecond([Entry(2, 2), Entry(3, 3)], true);
    HeadRewritten();
    TwoPagesValid([Entry(2, 2), Entry(3, 3)]);
    assert Items(ix.(size := 2)) == Items(ix);
  }

  /** As written, page 2 keeping `c` leads to the head being written as it was. */
  lemma HeadRewritten()
    ensures var ix := TwoPages([Entry(2, 2), Entry(3, 3)]);
      DoRemove(ix, 2, 1, 0, Roomy, true) == Ok(ix)
  {
    var ix := TwoPages([Entry(2, 2), Entry(3, 3)]);
    assert RemoveAt([Entry(2, 2), Entry(3, 3)], 0) == [Entry(3, 3)];
    assert ix.pages[1 := ix.pages[1]] == ix.pages;
  }

  /** Corrected, the changed page is written: the list stays valid without the entry. */
  lemma RemoveStoresPage()
    ensures var r := Remove(TwoPages([Entry(2, 2), Entry(3, 3)]), Some(2), Roomy);
      && r.Ok? && r.value.1 == Some(2) && Valid(r.value.0) && r.value.0.size == 2
      && Items(r.value.0) == [Entry(1, 1), Entry(3, 3)]
  {
    RemoveFromSecond([Entry(2, 2), Entry(3, 3)], false);
    ShrinkSecondPage();
    TwoPagesValid([Entry(3, 3)]);
    assert TwoPages([Entry(3, 3)]).(size := 3) == TwoPages([Entry(2, 2), Entry(3, 3)]).(pages := TwoPages([Entry(3, 3)]).pages);
  }

  /** Page 2 keeps `c`: it is written without `b`. */
  lemma ShrinkSecondPage()
    ensures var ix := TwoPages([Entry(2, 2), Entry(3, 3)]);
      DoRemove(ix, 2, 1, 0, Roomy, false) == Ok(ix.(pages := TwoPages([Entry(3, 3)]).pages))
  {
    var ix := TwoPages([Entry(2, 2), Entry(3, 3)]);
    assert RemoveAt([Entry(2, 2), Entry(3, 3)], 0) == [Entry(3, 3)];
    assert ix.pages[2 := Node(NotSet, [Entry(3, 3)])] == TwoPages([Entry(3, 3)]).pages;
  }
}

=== FILE: list_index.dfy ===
/**
 * The KahaDB list index: a chain of pages from `head` to `tail`, each page
 * one node, with the entry count kept in `size`. Stored pages are a map
 * from page id to node; page allocation hands out `limit`, the first id
 * past the pages in use. Whether a node's entries fit in one page is the
 * page file's business and enters every storing operation as `fits`.
 */
module ListIndexes {
  import opened Results
  import opened ListNodes
  import opened PageChains

  /** The page file's overflow check: whether a node holding these entries fits in one page. */
  type Fits<!K, !V> = seq<Entry<K, V>> -> bool

  datatype Index<K, V> = Index(
    pages: Pages<K, V>,
    limit: int,
    head: int,
    tail: int,
    size: int,
    loaded: bool,
    keyMarshaller: bool,
    valueMarshaller: bool)

  /** `new ListIndex(pageFile, headPageId)`: not loaded, size 0, and the tail field at its default, 0. */
  function New<K, V>(pages: Pages<K, V>, limit: int, head: int, keyMarshaller: bool, valueMarshaller: bool): (ix: Index<K, V>)
    ensures !ix.loaded && ix.size == 0 && ix.head == head && ix.pages == pages && ix.tail == 0
  {
    Index(pages, limit, head, 0, 0, false, keyMarshaller, valueMarshaller)
  }

  // ---------------------------------------------------------------------
  // The invariant
  // ---------------------------------------------------------------------

  /**
   * `ids` is a list as the pages store it: a chain of distinct pages, every
   * page after the first holding entries, an empty first page only as the
   * sole page, and every stored page below the allocation mark.
   */
  ghost predicate WellFormed<K, V>(pages: Pages<K, V>, limit: int, ids: seq<int>) {
    && IsChain(pages, ids)
    && (forall i :: 1 <= i < |ids| ==> pages[ids[i]].entries != [])
    && (pages[ids[0]].entries == [] ==> |ids| == 1)
    && (forall p :: p in pages ==> 0 <= p < limit)
  }

  /** A loaded index over the well-formed chain `ids`: head first, tail last, `size` entries. */
  ghost predicate ValidWith<K, V>(ix: Index<K, V>, ids: seq<int>) {
    && ix.loaded
    && WellFormed(ix.pages, ix.limit, ids)
    && ids[0] == ix.head
    && ix.tail == ids[|ids| - 1]
    && ix.size == |Flatten(ix.pages, ids)|
  }

  /** The pages from the head, as the walk finds them. */
  function ChainIds<K, V>(ix: Index<K, V>): seq<int> {
    Chain(ix.pages, ix.head).ids
  }

  ghost predicate Valid<K, V>(ix: Index<K, V>) {
    ValidWith(ix, ChainIds(ix))
  }

  /** The list the index holds: the entries along the chain from the head. */
  function Items<K, V>(ix: Index<K, V>): seq<Entry<K, V>> {
    Flatten(ix.pages, ChainIds(ix))
  }

  /** The entries the entry iterator reads from the head, and how its scan ends. */
  function Scanned<K, V>(ix: Index<K, V>): (r: (seq<Entry<K, V>>, End))
    ensures ix.head !in ix.pages ==> r == ([], Dangling(ix.head))
  {
    var t := Scan(ix.pages, ix.head);
    (Flatten(ix.pages, t.ids), t.end)
  }

  /** Every stored page could have been written: its count is a `short` and it passes the overflow check. */
  ghost predicate AllFit<K, V>(ix: Index<K, V>, fits: Fits<K, V>) {
    forall p :: p in ix.pages ==> |ix.pages[p].entries| <= MaxShort && fits(ix.pages[p].entries)
  }

  /** The overflow check passes a page that lost an entry if it passed the page. */
  ghost predicate Shrinks<K(!new), V(!new)>(fits: Fits<K, V>) {
    forall s: seq<Entry<K, V>>, i :: 0 <= i < |s| && fits(s) ==> fits(RemoveAt(s, i))
  }

  lemma ValidWithIsValid<K, V>(ix: Index<K, V>, ids: seq<int>)
    requires ValidWith(ix, ids)
    ensures Valid(ix) && ChainIds(ix) == ids && Items(ix) == Flatten(ix.pages, ids)
  {
    ChainIsFound(ix.pages, ids);
  }

  /** The iterator reads the whole chain of a valid index, so lookups see exactly its items. */
  lemma ScanOfValid<K, V>(ix: Index<K, V>)
    requires Valid(ix)
    ensures Scan(ix.pages, ix.head) == Traversal(ChainIds(ix), Complete)
    ensures Scanned(ix) == (Items(ix), Complete)
  {
    ScanReadsChain(ix.pages, ChainIds(ix));
  }

  // ---------------------------------------------------------------------
  // Loading
  // ---------------------------------------------------------------------

  /** How a traversal's end surfaces: normally, as a failed page load, or as a loop that never returns. */
  function Ended<T>(end: End, value: T): (r: Result<T, Failure>)
    ensures end == Complete <==> r == Ok(value)
    ensures end.Dangling? ==> r == Err(BrokenChain(end.pageId))
    ensures end == Cycle ==> r == Err(Diverges)
  {
    match end
    case Complete => Ok(value)
    case Dangling(p) => Err(BrokenChain(p))
    case Cycle => Err(Diverges)
  }

  /**
   * `load`, with `tailFromHead` choosing whether the tail starts at the
   * head before the walk. Only the first call acts: it marks the index
   * loaded, then refuses missing marshallers; a free head page becomes an
   * empty root that is both head and tail; otherwise the walk adds each
   * page's count to `size`, and the tail follows every page the loop moves
   * to.
   */
  function LoadWith<K, V>(ix: Index<K, V>, tailFromHead: bool): (Index<K, V>, Option<Failure>) {
    if ix.loaded then (ix, None)
    else
      var ix1 := ix.(loaded := true);
      if !ix.keyMarshaller || !ix.valueMarshaller then (ix1, Some(IllegalArgument))
      else if ix.head < 0 || ix.head >= ix.limit then (ix1, Some(BrokenChain(ix.head)))
      else if ix.head !in ix.pages then
        (ix1.(pages := ix.pages[ix.head := Node(NotSet, [])], tail := ix.head), None)
      else
        var t := Chain(ix.pages, ix.head);
        var tail := if tailFromHead || |t.ids| >= 2 then t.ids[|t.ids| - 1] else ix.tail;
        var walked := ix1.(size := ix.size + |Flatten(ix.pages, t.ids)|, tail := tail);
        match t.end
        case Complete => (walked, None)
        case Dangling(p) => (walked, Some(BrokenChain(p)))
        case Cycle => (ix1, Some(Diverges))
  }

  /** `load` as the source writes it: the tail is only assigned inside the loop, so a one-page list keeps the old tail. */
  function LoadAsWritten<K, V>(ix: Index<K, V>): (r: (Index<K, V>, Option<Failure>))
    ensures ix.loaded ==> r == (ix, None)
    ensures r.0.loaded && r.0.head == ix.head
    ensures (!ix.loaded && ix.keyMarshaller && ix.valueMarshaller && ix.head in ix.pages && 0 <= ix.head < ix.limit
             && ix.pages[ix.head].next == NotSet)
            ==> r == (ix.(loaded := true, size := ix.size + |ix.pages[ix.head].entries|), None)
  {
    var r := LoadWith(ix, false);
    assert (!ix.loaded && ix.keyMarshaller && ix.valueMarshaller && ix.head in ix.pages && 0 <= ix.head < ix.limit
            && ix.pages[ix.head].next == NotSet) ==> Chain(ix.pages, ix.head).ids == [ix.head];
    assert Flatten(ix.pages, [ix.head]) == Entries(ix.pages, ix.head) + Flatten(ix.pages, []);
    r
  }

  /** `load` with the tail starting at the head, so a one-page list ends where it starts. */
  function Load<K, V>(ix: Index<K, V>): (r: (Index<K, V>, Option<Failure>))
    ensures ix.loaded ==> r == (ix, None)
    ensures r.0.loaded && r.0.head == ix.head
    ensures !ix.loaded && (!ix.keyMarshaller || !ix.valueMarshaller) ==> r == (ix.(loaded := true), Some(IllegalArgument))
  {
    LoadWith(ix, true)
  }

  /** `unload`: marks the index not loaded; nothing else changes. */
  function Unload<K, V>(ix: Index<K, V>): (r: Index<K, V>)
    ensures !r.loaded && r.(loaded := ix.loaded) == ix
  {
    ix.(loaded := false)
  }

  // ---------------------------------------------------------------------
  // Storing nodes
  // ---------------------------------------------------------------------

  /** `storeNode` without overflow: the count must survive the cast to `short`, then the entries must fit. */
  function Write<K, V>(ix: Index<K, V>, id: int, node: Node<K, V>, fits: Fits<K, V>): (r: Result<Index<K, V>, Failure>)
    ensures r.Ok? <==> |node.entries| <= MaxShort && fits(node.entries)
    ensures r.Ok? ==> r.value == ix.(pages := ix.pages[id := node])
    ensures |node.entries| > MaxShort ==> r == Err(ShortOverflow)
  {
    if |node.entries| > MaxShort then Err(ShortOverflow)
    else if !fits(node.entries) then Err(PageOverflow)
    else Ok(ix.(pages := ix.pages[id := node]))
  }

  /**
   * `store(tx, addFirst)`: write the node; if its entries do not fit, split
   * it. `moveTail` says whether an add-first split of the tail moves the
   * tail to the new page, which the source does not do.
   */
  function Store<K, V>(ix: Index<K, V>, id: int, node: Node<K, V>, addFirst: bool, fits: Fits<K, V>, moveTail: bool)
    : (r: Result<Index<K, V>, Failure>)
    ensures r.Ok? ==> r.value.size == ix.size && r.value.head == ix.head && r.value.loaded == ix.loaded
    ensures r.Ok? && addFirst && !moveTail ==> r.value.tail == ix.tail
    decreases |node.entries|, 1
  {
    if |node.entries| > MaxShort then Err(ShortOverflow)
    else if fits(node.entries) then Ok(ix.(pages := ix.pages[id := node]))
    else Split(ix, id, node, addFirst, fits, moveTail)
  }

  /**
   * `split`: allocate an extension page and link it after this one. Added
   * first, this node keeps only its first entry and the extension takes
   * the rest and this node's old successor; added last, only the last
   * entry moves, into an extension that becomes the tail and has no
   * successor. This node is written as it is, and the extension is then
   * stored the same way, so it may split again.
   */
  function Split<K, V>(ix: Index<K, V>, id: int, node: Node<K, V>, addFirst: bool, fits: Fits<K, V>, moveTail: bool)
    : (r: Result<Index<K, V>, Failure>)
    ensures r.Ok? ==> r.value.size == ix.size && r.value.head == ix.head && r.value.loaded == ix.loaded
    ensures r.Ok? && addFirst && !moveTail ==> r.value.tail == ix.tail
    decreases |node.entries|, 0
  {
    var ext := ix.limit;
    var ix1 := ix.(limit := ix.limit + 1);
    if addFirst then
      if |node.entries| == 0 then Err(NullPointer)
      else
        var ix2 := if moveTail && ix.tail == id then ix1.(tail := ext) else ix1;
        match Write(ix2, id, Node(ext, node.entries[..1]), fits)
        case Err(e) => Err(e)
        case Ok(ix3) => Store(ix3, ext, Node(node.next, node.entries[1..]), true, fits, moveTail)
    else
      if |node.entries| < 2 then Err(NullPointer)
      else
        var last := |node.entries| - 1;
        match Write(ix1.(tail := ext), id, Node(ext, node.entries[..last]), fits)
        case Err(e) => Err(e)
        case Ok(ix3) => Store(ix3, ext, Node(NotSet, node.entries[last..]), false, fits, moveTail)
  }

  // ---------------------------------------------------------------------
  // Adding
  // ---------------------------------------------------------------------

  /** `add` (and `put`, which calls it): append to the tail page, then count the entry. */
  function Add<K, V>(ix: Index<K, V>, key: Option<K>, value: V, fits: Fits<K, V>): (r: Result<Index<K, V>, Failure>)
    ensures !ix.loaded ==> r == Err(IllegalState)
    ensures ix.loaded && ix.tail !in ix.pages ==> r == Err(BrokenChain(ix.tail))
    ensures ix.loaded && ix.tail in ix.pages && key.None? ==> r == Err(IllegalArgument)
  {
    if !ix.loaded then Err(IllegalState)
    else if ix.tail !in ix.pages then Err(BrokenChain(ix.tail))
    else
      match NodePut(ix.pages[ix.tail], key, value)
      case Err(e) => Err(e)
      case Ok(node) =>
        match Store(ix, ix.tail, node, false, fits, true)
        case Err(e) => Err(e)
        case Ok(r) => Ok(r.(size := r.size + 1))
  }

  /** `addFirst`, with `moveTail` as for `Store`. */
  function AddFirstWith<K, V>(ix: Index<K, V>, key: Option<K>, value: V, fits: Fits<K, V>, moveTail: bool)
    : Result<Index<K, V>, Failure>
  {
    if !ix.loaded then Err(IllegalState)
    else if ix.head !in ix.pages then Err(BrokenChain(ix.head))
    else
      match NodeAddFirst(ix.pages[ix.head], key, value)
      case Err(e) => Err(e)
      case Ok(node) =>
        match Store(ix, ix.head, node, true, fits, moveTail)
        case Err(e) => Err(e)
        case Ok(r) => Ok(r.(size := r.size + 1))
  }

  /** `addFirst` as the source writes it: a split of the head never moves the tail. */
  function AddFirstAsWritten<K, V>(ix: Index<K, V>, key: Option<K>, value: V, fits: Fits<K, V>)
    : (r: Result<Index<K, V>, Failure>)
    ensures !ix.loaded ==> r == Err(IllegalState)
    ensures r.Ok? ==> r.value.tail == ix.tail && r.value.size == ix.size + 1
  {
    AddFirstWith(ix, key, value, fits, false)
  }

  /** `addFirst` with the tail moved when the head it splits was also the tail. */
  function AddFirst<K, V>(ix: Index<K, V>, key: Option<K>, value: V, fits: Fits<K, V>): (r: Result<Index<K, V>, Failure>)
    ensures !ix.loaded ==> r == Err(IllegalState)
    ensures ix.loaded && ix.head !in ix.pages ==> r == Err(BrokenChain(ix.head))
    ensures ix.loaded && ix.head in ix.pages && key.None? ==> r == Err(IllegalArgument)
  {
    AddFirstWith(ix, key, value, fits, true)
  }

  // ---------------------------------------------------------------------
  // Lookups
  // ---------------------------------------------------------------------

  /**
   * `get`: iterate from the head and answer the first entry whose key the
   * given key equals. A null key fails on the first entry it is compared
   * with; with no match the scan's end decides.
   */
  function Get<K(==), V>(ix: Index<K, V>, key: Option<K>): (r: Result<Option<V>, Failure>)
    ensures !ix.loaded ==> r == Err(IllegalState)
  {
    if !ix.loaded then Err(IllegalState)
    else
      var (items, end) := Scanned(ix);
      if key.None? then (if |items| > 0 then Err(NullPointer) else Ended(end, None))
      else
        match FirstMatch(items, key.value)
        case Some(g) => Ok(Some(items[g].value))
        case None => Ended(end, None)
  }

  /** `containsKey`: the same scan, answering whether a match exists. */
  function ContainsKey<K(==), V>(ix: Index<K, V>, key: Option<K>): (r: Result<bool, Failure>)
    ensures !ix.loaded ==> r == Err(IllegalState)
  {
    if !ix.loaded then Err(IllegalState)
    else
      var (items, end) := Scanned(ix);
      if key.None? then (if |items| > 0 then Err(NullPointer) else Ended(end, false))
      else if HasKey(items, key.value) then Ok(true)
      else Ended(end, false)
  }

  /** `getFirst`: the head page's first entry (no loaded check). */
  function GetFirst<K, V>(ix: Index<K, V>): (r: Result<Option<Entry<K, V>>, Failure>)
    ensures ix.head !in ix.pages <==> r == Err(BrokenChain(ix.head))
  {
    if ix.head !in ix.pages then Err(BrokenChain(ix.head)) else Ok(NodeFirst(ix.pages[ix.head]))
  }

  /** `getLast`: the tail page's last entry (no loaded check). */
  function GetLast<K, V>(ix: Index<K, V>): (r: Result<Option<Entry<K, V>>, Failure>)
    ensures ix.tail !in ix.pages <==> r == Err(BrokenChain(ix.tail))
  {
    if ix.tail !in ix.pages then Err(BrokenChain(ix.tail)) else Ok(NodeLast(ix.pages[ix.tail]))
  }

  /** `isEmpty`: whether the head page is empty (no loaded check). */
  function IsEmpty<K, V>(ix: Index<K, V>): (r: Result<bool, Failure>)
    ensures ix.head !in ix.pages <==> r == Err(BrokenChain(ix.head))
  {
    if ix.head !in ix.pages then Err(BrokenChain(ix.head)) else Ok(NodeIsEmpty(ix.pages[ix.head]))
  }

  // ---------------------------------------------------------------------
  // Removing
  // ---------------------------------------------------------------------

  /**
   * `doRemove`: take entry `at` out of page `cur`, reached from `prev`. A
   * page left empty is dropped: the head by moving the head on (an only
   * page stays, empty), another page by linking `prev` past it, and the
   * page dropped is freed. With `asWritten`, a page that keeps entries is
   * not written itself: the node the iterator was made from, the head, is
   * written instead; and dropping the tail page leaves the tail on it.
   * Otherwise the changed page is written and the tail moves back to `prev`.
   */
  function DoRemove<K, V>(ix: Index<K, V>, cur: int, prev: int, at: nat, fits: Fits<K, V>, asWritten: bool)
    : (r: Result<Index<K, V>, Failure>)
    requires ix.head in ix.pages && cur in ix.pages && at < |ix.pages[cur].entries|
    requires cur != ix.head ==> prev in ix.pages
    ensures r.Ok? ==> r.value.size == ix.size && r.value.loaded == ix.loaded
  {
    var node := ix.pages[cur];
    var rest := RemoveAt(node.entries, at);
    if rest != [] then
      if asWritten && cur != ix.head then Write(ix, ix.head, ix.pages[ix.head], fits)
      else Write(ix, cur, Node(node.next, rest), fits)
    else if cur == ix.head then
      if node.next != NotSet then Ok(ix.(head := node.next, pages := ix.pages - {cur}))
      else Write(ix, cur, Node(node.next, []), fits)
    else
      match Write(ix, prev, ix.pages[prev].(next := node.next), fits)
      case Err(e) => Err(e)
      case Ok(r) => Ok(r.(pages := r.pages - {cur}, tail := if !asWritten && ix.tail == cur then prev else ix.tail))
  }

  /**
   * The entry iterator's `remove` of the `g`-th entry it has read: find its
   * page and the page the iterator came from, remove it there, and count it
   * off (`onRemove`).
   */
  function RemoveEntry<K, V>(ix: Index<K, V>, g: nat, fits: Fits<K, V>, asWritten: bool): (r: Result<Index<K, V>, Failure>)
    requires g < |Scanned(ix).0|
    ensures r.Ok? ==> r.value.size == ix.size - 1 && r.value.loaded == ix.loaded
  {
    var ids := Scan(ix.pages, ix.head).ids;
    var (i, j) := Locate(ix.pages, ids, g);
    var d := DoRemove(ix, ids[i], Before(ids, i), j, fits, asWritten);
    if d.Ok? then Ok(d.value.(size := d.value.size - 1)) else d
  }

  /** The page the iterator read before page `i`: none for the head. */
  function Before(ids: seq<int>, i: nat): int
    requires i < |ids|
  {
    if i == 0 then NotSet else ids[i - 1]
  }

  /**
   * `remove`: iterate from the head to the first entry whose key the given
   * key equals, remove it through the iterator and answer its value, or
   * null when no entry matches.
   */
  function RemoveWith<K(==), V>(ix: Index<K, V>, key: Option<K>, fits: Fits<K, V>, asWritten: bool)
    : Result<(Index<K, V>, Option<V>), Failure>
  {
    if !ix.loaded then Err(IllegalState)
    else
      var (items, end) := Scanned(ix);
      if key.None? then (if |items| > 0 then Err(NullPointer) else Ended(end, (ix, None)))
      else
        match FirstMatch(items, key.value)
        case None => Ended(end, (ix, None))
        case Some(g) =>
          match RemoveEntry(ix, g, fits, asWritten)
          case Err(e) => Err(e)
          case Ok(r) => Ok((r, Some(items[g].value)))
  }

  /** `remove` as the source writes it. */
  function RemoveAsWritten<K(==), V>(ix: Index<K, V>, key: Option<K>, fits: Fits<K, V>)
    : (r: Result<(Index<K, V>, Option<V>), Failure>)
    ensures !ix.loaded ==> r == Err(IllegalState)
    ensures r.Ok? && r.value.1.Some? ==> r.value.0.size == ix.size - 1
  {
    RemoveWith(ix, key, fits, true)
  }

  /** `remove` writing the page it changed and moving the tail back when the tail page is dropped. */
  function Remove<K(==), V>(ix: Index<K, V>, key: Option<K>, fits: Fits<K, V>): (r: Result<(Index<K, V>, Option<V>), Failure>)
    ensures !ix.loaded ==> r == Err(IllegalState)
    ensures r.Ok? && r.value.1.None? ==> r.value.0 == ix
    ensures r.Ok? && r.value.1.Some? ==> r.value.0.size == ix.size - 1
  {
    RemoveWith(ix, key, fits, false)
  }

  // ---------------------------------------------------------------------
  // Clearing
  // ---------------------------------------------------------------------

  /**
   * The node iterator's pass of `clear`: each step reads the next page
   * before freeing the current one, so a missing next page stops the pass
   * with the current page still stored, and a page linked to itself is
   * freed and then read again.
   */
  function FreeFrom<K, V>(pages: Pages<K, V>, at: int): (r: (Pages<K, V>, Option<Failure>))
    requires at in pages
    ensures forall p :: p in r.0 ==> p in pages && r.0[p] == pages[p]
    ensures at !in r.0 || r.1 == Some(BrokenChain(pages[at].next))
    decreases |pages.Keys|
  {
    var next := pages[at].next;
    if next == NotSet then (pages - {at}, None)
    else if next !in pages then (pages, Some(BrokenChain(next)))
    else if next == at then (pages - {at}, Some(BrokenChain(at)))
    else
      assert |(pages - {at}).Keys| < |pages.Keys| by {
        assert (pages - {at}).Keys == pages.Keys - {at};
      }
      FreeFrom(pages - {at}, next)
  }

  /** `clear` (no loaded check): free every page from the head, then set the size to 0. */
  function Clear<K, V>(ix: Index<K, V>): (r: (Index<K, V>, Option<Failure>))
    ensures r.0.head == ix.head && r.0.tail == ix.tail && r.0.loaded == ix.loaded && r.0.limit == ix.limit
    ensures ix.head !in ix.pages ==> r == (ix, Some(BrokenChain(ix.head)))
    ensures r.1.None? ==> r.0.size == 0 && ix.head !in r.0.pages
  {
    if ix.head !in ix.pages then (ix, Some(BrokenChain(ix.head)))
    else
      var (pages, failure) := FreeFrom(ix.pages, ix.head);
      (ix.(pages := pages, size := if failure.None? then 0 else ix.size), failure)
  }
}

=== FILE: list_iterator.dfy ===
/**
 * The list's entry iterator: it starts on the head page, optionally skips
 * to a position, reads entry by entry across the page chain, and removes
 * the entry it answered last, at most once per `next`.
 */
module ListIterators {
  import opened Results
  import opened ListNodes
  import opened PageChains
  import opened ListIndexes
  import opened ListIndexProperties

  /**
   * The iterator's state: the page it reads (`cur`, with its node as
   * loaded), the page it came from (`prev`, `NotSet` while on the head),
   * the place in the node of the entry `next` answers next (the node's
   * length once its entries are used up), and the place of the entry
   * `next` answered last, until it is removed.
   */
  datatype Cursor<K, V> = Cursor(cur: int, node: Node<K, V>, prev: int, at: nat, toRemove: Option<nat>)

  /**
   * `nextFromNextListNode`: with a next page, move to it, the page left
   * becoming `prev` and its first entry the next, and answer whether it
   * holds an entry. A next page that cannot be loaded fails with
   * `NoSuchElement`.
   */
  function Advance<K, V>(pages: Pages<K, V>, c: Cursor<K, V>): (r: Result<(Cursor<K, V>, bool), Failure>)
    ensures c.node.next == NotSet ==> r == Ok((c, false))
    ensures r.Err? <==> c.node.next != NotSet && c.node.next !in pages
    ensures r.Err? ==> r.error == NoSuchElement
    ensures r.Ok? && r.value.1 ==> r.value.0.at < |r.value.0.node.entries| && r.value.0.toRemove.None?
  {
    var next := c.node.next;
    if next == NotSet then Ok((c, false))
    else if next !in pages then Err(NoSuchElement)
    else Ok((Cursor(next, pages[next], c.cur, 0, None), pages[next].entries != []))
  }

  /** `hasNext`: an entry is left in the node, or the iterator moves on to a next page holding one. */
  function HasNext<K, V>(pages: Pages<K, V>, c: Cursor<K, V>): (r: Result<(Cursor<K, V>, bool), Failure>)
    ensures c.at < |c.node.entries| ==> r == Ok((c, true))
    ensures r.Ok? && r.value.1 ==> r.value.0.at < |r.value.0.node.entries|
  {
    if c.at < |c.node.entries| then Ok((c, true)) else Advance(pages, c)
  }

  /** `next`: answer the next entry of the node and remember it for `remove`; with none left, fail. */
  function Next<K, V>(c: Cursor<K, V>): (r: Result<(Cursor<K, V>, Entry<K, V>), Failure>)
    ensures r.Ok? <==> c.at < |c.node.entries|
    ensures r.Err? ==> r.error == NoSuchElement
    ensures r.Ok? ==> r.value.1 == c.node.entries[c.at] && r.value.0.toRemove == Some(c.at) && r.value.0.at == c.at + 1
  {
    if c.at < |c.node.entries| then Ok((c.(at := c.at + 1, toRemove := Some(c.at)), c.node.entries[c.at]))
    else Err(NoSuchElement)
  }

  /**
   * The positioning loop of the constructor: `n` times step to the entry
   * after, moving to the next page when the node is used up, and fail with
   * `NoSuchElement` when no next page holds an entry.
   */
  function SkipTo<K, V>(pages: Pages<K, V>, c: Cursor<K, V>, n: nat): (r: Result<Cursor<K, V>, Failure>)
    requires c.at < |c.node.entries|
    ensures r.Ok? ==> r.value.at < |r.value.node.entries|
    ensures r.Ok? && c.toRemove.None? ==> r.value.toRemove.None?
    ensures r.Err? ==> r.error == NoSuchElement
    decreases n
  {
    if n == 0 then Ok(c)
    else
      var c1 := c.(at := c.at + 1);
      if c1.at < |c1.node.entries| then SkipTo(pages, c1, n - 1)
      else
        match Advance(pages, c1)
        case Err(e) => Err(e)
        case Ok((d, more)) => if more then SkipTo(pages, d, n - 1) else Err(NoSuchElement)
  }

  /**
   * `iterator(tx, pos)`: load the head page and start at its first entry,
   * first skipping `pos` entries when `pos` is positive and the head holds
   * an entry.
   */
  function Open<K, V>(ix: Index<K, V>, pos: int): (r: Result<Cursor<K, V>, Failure>)
    ensures ix.head !in ix.pages ==> r == Err(BrokenChain(ix.head))
    ensures r.Ok? ==> r.value.toRemove.None?
    ensures r.Ok? && pos <= 0 ==> r.value == Cursor(ix.head, ix.pages[ix.head], NotSet, 0, None)
  {
    if ix.head !in ix.pages then Err(BrokenChain(ix.head))
    else
      var c := Cursor(ix.head, ix.pages[ix.head], NotSet, 0, None);
      if pos > 0 && c.node.entries != [] then SkipTo(ix.pages, c, pos) else Ok(c)
  }

  /**
   * What `remove` relies on: the entry to remove is in the node, the node is
   * the page as stored, and the pages `doRemove` may read are stored.
   */
  ghost predicate Removable<K, V>(ix: Index<K, V>, c: Cursor<K, V>) {
    && c.toRemove.Some?
    && ix.head in ix.pages && c.cur in ix.pages && ix.pages[c.cur] == c.node
    && c.toRemove.value < |c.node.entries|
    && (c.cur != ix.head ==> c.prev in ix.pages)
  }

  /**
   * The iterator's `remove`: refused unless `next` answered an entry since
   * the last `remove`; otherwise that entry leaves the page read
   * (`doRemove`), the index counts it off (`onRemove`), and the iterator
   * goes on from the entry after it.
   */
  function IterRemove<K, V>(ix: Index<K, V>, c: Cursor<K, V>, fits: Fits<K, V>, asWritten: bool)
    : (r: Result<(Index<K, V>, Cursor<K, V>), Failure>)
    requires c.toRemove.Some? ==> Removable(ix, c)
    ensures c.toRemove.None? ==> r == Err(IllegalState)
    ensures r.Ok? ==> r.value.1.toRemove.None? && r.value.0.size == ix.size - 1
  {
    match c.toRemove
    case None => Err(IllegalState)
    case Some(k) =>
      match DoRemove(ix, c.cur, c.prev, k, fits, asWritten)
      case Err(e) => Err(e)
      case Ok(d) =>
        Ok((d.(size := d.size - 1), c.(node := Node(c.node.next, RemoveAt(c.node.entries, k)), at := k, toRemove := None)))
  }

  // ---------------------------------------------------------------------
  // Where the iterator stands on a chain of pages
  // ---------------------------------------------------------------------

  /** The place of the first `id` in `ids`, or `|ids|` when it is not there. */
  function Place(ids: seq<int>, id: int): (i: nat)
    ensures i <= |ids|
    ensures i < |ids| ==> ids[i] == id
    decreases |ids|
  {
    if ids == [] || ids[0] == id then 0 else 1 + Place(ids[1..], id)
  }

  /** In a chain of distinct pages, a page's place is where it stands. */
  lemma {:induction false} PlaceOf(ids: seq<int>, i: nat)
    requires Distinct(ids) && i < |ids|
    ensures Place(ids, ids[i]) == i
    decreases i
  {
    if i > 0 {
      assert ids[0] != ids[i];
      assert ids[1..][i - 1] == ids[i];
      PlaceOf(ids[1..], i - 1);
    }
  }

  /** The chain the iterator walks: linked distinct pages, every page after the first holding entries. */
  ghost predicate Linked<K, V>(pages: Pages<K, V>, ids: seq<int>) {
    IsChain(pages, ids) && forall i :: 1 <= i < |ids| ==> pages[ids[i]].entries != []
  }

  /**
   * On the chain `ids` the iterator is `g` entries in: it reads a page of
   * the chain, as stored, having come from the page before it; the pages
   * before hold `g - at` entries; and an entry awaiting removal is the one
   * just before the next.
   */
  ghost predicate At<K, V>(pages: Pages<K, V>, ids: seq<int>, c: Cursor<K, V>, g: nat) {
    var i := Place(ids, c.cur);
    && i < |ids| && c.cur in pages
    && c.node == pages[c.cur] && c.prev == Before(ids, i)
    && c.at <= |c.node.entries| && |Flatten(pages, ids[..i])| + c.at == g
    && (c.toRemove.Some? ==> c.toRemove.value + 1 == c.at)
  }

  /** On the valid list `ix` the iterator is `g` entries in. */
  ghost predicate Reads<K, V>(ix: Index<K, V>, c: Cursor<K, V>, g: nat) {
    Valid(ix) && At(ix.pages, ChainIds(ix), c, g)
  }

  /** A valid list's chain is one the iterator can walk, and its items are the chain's entries. */
  lemma ValidLinked<K, V>(ix: Index<K, V>)
    requires Valid(ix)
    ensures Linked(ix.pages, ChainIds(ix)) && Items(ix) == Flatten(ix.pages, ChainIds(ix))
  {
  }

  /** The entries of page `i` of a chain sit in its flattening right after those of the pages before it. */
  lemma PageWithin<K, V>(pages: Pages<K, V>, ids: seq<int>, i: nat)
    requires i < |ids|
    ensures var a := |Flatten(pages, ids[..i])|; var es := Entries(pages, ids[i]);
      && a + |es| <= |Flatten(pages, ids)|
      && (i == |ids| - 1 ==> a + |es| == |Flatten(pages, ids)|)
      && forall k :: 0 <= k < |es| ==> Flatten(pages, ids)[a + k] == es[k]
  {
    var a, es, b := Flatten(pages, ids[..i]), Entries(pages, ids[i]), Flatten(pages, ids[i + 1..]);
    FlattenSplit(pages, ids, i);
    if i == |ids| - 1 {
      assert ids[i + 1..] == [];
    }
    forall k | 0 <= k < |es|
      ensures (a + es + b)[|a| + k] == es[k]
    {
    }
  }

  /** The entries left in the node lie within the chain's entries: entry `g` onwards. */
  lemma AtBound<K, V>(pages: Pages<K, V>, ids: seq<int>, c: Cursor<K, V>, g: nat)
    requires At(pages, ids, c, g)
    ensures g + |c.node.entries| - c.at <= |Flatten(pages, ids)|
    ensures Place(ids, c.cur) == |ids| - 1 ==> g + |c.node.entries| - c.at == |Flatten(pages, ids)|
    ensures forall k :: c.at <= k < |c.node.entries| ==> Flatten(pages, ids)[g + k - c.at] == c.node.entries[k]
  {
    var i := Place(ids, c.cur);
    assert Entries(pages, ids[i]) == c.node.entries;
    PageWithin(pages, ids, i);
  }

  /** Page `i + 1` of a chain starts after the entries of pages up to `i`. */
  lemma PrefixGrows<K, V>(pages: Pages<K, V>, ids: seq<int>, i: nat)
    requires i < |ids|
    ensures |Flatten(pages, ids[..i + 1])| == |Flatten(pages, ids[..i])| + |Entries(pages, ids[i])|
  {
    assert ids[..i + 1] == ids[..i] + [ids[i]];
    FlattenConcat(pages, ids[..i], [ids[i]]);
    FlattenCons(pages, ids[i], []);
  }

  /** Off the end of its node the iterator moves to the next page of the chain, whose first entry is entry `g`. */
  lemma AdvanceAt<K, V>(pages: Pages<K, V>, ids: seq<int>, c: Cursor<K, V>, g: nat)
    requires Linked(pages, ids) && At(pages, ids, c, g) && c.at == |c.node.entries|
    requires Place(ids, c.cur) + 1 < |ids|
    ensures var r := Advance(pages, c);
      && r.Ok? && r.value.1 && g < |Flatten(pages, ids)| && At(pages, ids, r.value.0, g)
  {
    var i := Place(ids, c.cur);
    var d := Cursor(ids[i + 1], pages[ids[i + 1]], c.cur, 0, None);
    assert Advance(pages, c) == Ok((d, true));
    PlaceOf(ids, i + 1);
    PrefixGrows(pages, ids, i);
    PageWithin(pages, ids, i + 1);
  }

  /** At the end of the chain's last page the iterator stays, finding no more entries. */
  lemma AdvanceEnds<K, V>(pages: Pages<K, V>, ids: seq<int>, c: Cursor<K, V>, g: nat)
    requires Linked(pages, ids) && At(pages, ids, c, g) && c.at == |c.node.entries|
    requires Place(ids, c.cur) + 1 == |ids|
    ensures Advance(pages, c) == Ok((c, false)) && g == |Flatten(pages, ids)|
  {
    AtBound(pages, ids, c, g);
  }

  /** Off the end of its node, the iterator moves on exactly when entries remain. */
  lemma AdvanceReads<K, V>(pages: Pages<K, V>, ids: seq<int>, c: Cursor<K, V>, g: nat)
    requires Linked(pages, ids) && At(pages, ids, c, g) && c.at == |c.node.entries|
    ensures var r := Advance(pages, c);
      && r.Ok? && (r.value.1 <==> g < |Flatten(pages, ids)|)
      && (r.value.1 ==> At(pages, ids, r.value.0, g))
      && (!r.value.1 ==> r.value.0 == c)
  {
    if Place(ids, c.cur) + 1 < |ids| {
      AdvanceAt(pages, ids, c, g);
    } else {
      AdvanceEnds(pages, ids, c, g);
    }
  }

  /** `hasNext` answers whether entry `g` exists, and leaves the iterator `g` entries in, at that entry when it does. */
  lemma HasNextAt<K, V>(pages: Pages<K, V>, ids: seq<int>, c: Cursor<K, V>, g: nat)
    requires Linked(pages, ids) && At(pages, ids, c, g)
    ensures var r := HasNext(pages, c);
      && r.Ok? && (r.value.1 <==> g < |Flatten(pages, ids)|) && At(pages, ids, r.value.0, g)
      && (r.value.1 ==> r.value.0.at < |r.value.0.node.entries|)
  {
    AtBound(pages, ids, c, g);
    if c.at == |c.node.entries| {
      AdvanceReads(pages, ids, c, g);
    }
  }

  /** `next` answers entry `g`, moves one entry on, and marks that entry for `remove`. */
  lemma NextAt<K, V>(pages: Pages<K, V>, ids: seq<int>, c: Cursor<K, V>, g: nat)
    requires At(pages, ids, c, g) && c.at < |c.node.entries|
    ensures g < |Flatten(pages, ids)|
    ensures var r := Next(c);
      && r.Ok? && r.value.1 == Flatten(pages, ids)[g] && At(pages, ids, r.value.0, g + 1)
      && r.value.0.toRemove == Some(c.at)
  {
    AtBound(pages, ids, c, g);
  }

  /** On a valid list `hasNext` answers whether entry `g` exists, and leaves the iterator there. */
  lemma HasNextReads<K, V>(ix: Index<K, V>, c: Cursor<K, V>, g: nat)
    requires Reads(ix, c, g)
    ensures var r := HasNext(ix.pages, c);
      && r.Ok? && (r.value.1 <==> g < |Items(ix)|) && Reads(ix, r.value.0, g)
      && (r.value.1 ==> r.value.0.at < |r.value.0.node.entries|)
  {
    ValidLinked(ix);
    HasNextAt(ix.pages, ChainIds(ix), c, g);
  }

  /** On a valid list `next` answers entry `g` of the list, moves one entry on, and marks that entry for `remove`. */
  lemma NextReads<K, V>(ix: Index<K, V>, c: Cursor<K, V>, g: nat)
    requires Reads(ix, c, g) && c.at < |c.node.entries|
    ensures g < |Items(ix)|
    ensures var r := Next(c);
      && r.Ok? && r.value.1 == Items(ix)[g] && Reads(ix, r.value.0, g + 1) && r.value.0.toRemove == Some(c.at)
  {
    ValidLinked(ix);
    NextAt(ix.pages, ChainIds(ix), c, g);
  }

  // ---------------------------------------------------------------------
  // Positioning
  // ---------------------------------------------------------------------

  /** The positioning loop off a node's last entry goes on from the next page's first entry, if it holds one. */
  lemma SkipOffNode<K, V>(pages: Pages<K, V>, c: Cursor<K, V>, n: nat)
    requires c.at + 1 == |c.node.entries| && n > 0
    ensures var e := Advance(pages, c.(at := c.at + 1));
      && (e.Ok? && e.value.1 ==> SkipTo(pages, c, n) == SkipTo(pages, e.value.0, n - 1))
      && (e.Ok? && !e.value.1 ==> SkipTo(pages, c, n) == Err(NoSuchElement))
  {
  }

  /**
   * One pass of the positioning loop from entry `g`: it reaches entry
   * `g + 1` as `e`, where the remaining passes go on, or fails when entry
   * `g` is the last.
   */
  lemma SkipStep<K, V>(pages: Pages<K, V>, ids: seq<int>, c: Cursor<K, V>, g: nat, n: nat) returns (e: Cursor<K, V>)
    requires Linked(pages, ids) && At(pages, ids, c, g) && c.at < |c.node.entries| && c.toRemove.None? && n > 0
    ensures g < |Flatten(pages, ids)|
    ensures g + 1 < |Flatten(pages, ids)| ==> && At(pages, ids, e, g + 1) && e.at < |e.node.entries| && e.toRemove.None?
                                              && SkipTo(pages, c, n) == SkipTo(pages, e, n - 1)
    ensures g + 1 == |Flatten(pages, ids)| ==> SkipTo(pages, c, n) == Err(NoSuchElement)
  {
    AtBound(pages, ids, c, g);
    var c1 := c.(at := c.at + 1);
    assert At(pages, ids, c1, g + 1);
    if c1.at < |c1.node.entries| {
      e := c1;
    } else {
      AdvanceReads(pages, ids, c1, g + 1);
      SkipOffNode(pages, c, n);
      e := Advance(pages, c1).value.0;
    }
  }

  /** Skipping `n` entries from entry `g` lands on entry `h`, `g + n`, or fails when the chain has no such entry. */
  lemma {:induction false} SkipReads<K, V>(pages: Pages<K, V>, ids: seq<int>, c: Cursor<K, V>, g: nat, n: nat, h: nat)
    requires Linked(pages, ids) && At(pages, ids, c, g) && c.at < |c.node.entries| && c.toRemove.None? && h == g + n
    ensures var r := SkipTo(pages, c, n);
      && (h < |Flatten(pages, ids)| ==> r.Ok? && At(pages, ids, r.value, h))
      && (h >= |Flatten(pages, ids)| ==> r == Err(NoSuchElement))
    decreases n
  {
    if n > 0 {
      var e := SkipStep(pages, ids, c, g, n);
      if g + 1 < |Flatten(pages, ids)| {
        SkipReads(pages, ids, e, g + 1, n - 1, h);
      }
    } else {
      AtBound(pages, ids, c, g);
    }
  }

  /** Where `iterator(tx, pos)` starts on a list of `n` entries. */
  function Start(pos: int, n: nat): (s: nat)
    ensures s <= n
  {
    if pos <= 0 || n == 0 then 0 else if pos < n then pos else n
  }

  /**
   * `iterator(tx, pos)` on a valid list starts at entry `pos`: at the start
   * for a position of zero or below or an empty list, and with
   * `NoSuchElement` for a position past the last entry.
   */
  lemma OpenReads<K, V>(ix: Index<K, V>, pos: int)
    requires Valid(ix)
    ensures 0 < |Items(ix)| <= pos ==> Open(ix, pos) == Err(NoSuchElement)
    ensures !(0 < |Items(ix)| <= pos) ==> Open(ix, pos).Ok? && Reads(ix, Open(ix, pos).value, Start(pos, |Items(ix)|))
  {
    var ids := ChainIds(ix);
    ValidLinked(ix);
    var c := Cursor(ix.head, ix.pages[ix.head], NotSet, 0, None);
    PlaceOf(ids, 0);
    assert At(ix.pages, ids, c, 0);
    if c.node.entries == [] {
      assert |ids| == 1 && ids[1..] == [];
      assert Items(ix) == Entries(ix.pages, ids[0]) + Flatten(ix.pages, ids[1..]);
    } else {
      FlattenSplit(ix.pages, ids, 0);
      if pos > 0 {
        SkipReads(ix.pages, ids, c, 0, pos, pos);
      }
    }
  }

  // ---------------------------------------------------------------------
  // Removing through the iterator
  // ---------------------------------------------------------------------

  /**
   * On a valid list `remove` after `next` takes out exactly the entry
   * `next` answered, leaves a valid list one shorter, and refuses a second
   * `remove` before the next `next`.
   */
  lemma IterRemoveReads<K(!new), V(!new)>(ix: Index<K, V>, c: Cursor<K, V>, g: nat, fits: Fits<K, V>)
    requires Reads(ix, c, g) && c.toRemove.Some? && AllFit(ix, fits) && Shrinks(fits)
    ensures 0 < g <= |Items(ix)| && Removable(ix, c)
    ensures var r := IterRemove(ix, c, fits, false);
      && r.Ok? && Valid(r.value.0) && AllFit(r.value.0, fits)
      && Items(r.value.0) == RemoveAt(Items(ix), g - 1) && r.value.0.size == ix.size - 1
      && IterRemove(r.value.0, r.value.1, fits, false) == Err(IllegalState)
  {
    var ids := ChainIds(ix);
    var i := Place(ids, c.cur);
    var k := c.toRemove.value;
    AtBound(ix.pages, ids, c, g);
    assert RemovalAt(ix, fits, g - 1, i, k);
    DoRemoveCounted(ix, fits, g - 1, i, k);
  }

  /**
   * When the removed entry's page keeps other entries, the iterator goes on
   * reading the shorter list from the entry that followed the removed one.
   */
  lemma IterRemoveGoesOn<K(!new), V(!new)>(ix: Index<K, V>, c: Cursor<K, V>, g: nat, fits: Fits<K, V>)
    requires Reads(ix, c, g) && c.toRemove.Some? && AllFit(ix, fits) && Shrinks(fits)
    requires |c.node.entries| > 1
    ensures 0 < g && Removable(ix, c)
    ensures var r := IterRemove(ix, c, fits, false);
      r.Ok? && Reads(r.value.0, r.value.1, g - 1)
  {
    var ids := ChainIds(ix);
    var i := Place(ids, c.cur);
    var k := c.toRemove.value;
    assert Entries(ix.pages, ids[i]) == c.node.entries;
    AtBound(ix.pages, ids, c, g);
    assert fits(RemoveAt(c.node.entries, k));
    RewrittenPage(ix, fits, ids, g - 1, i, k);
    var d := DoRemove(ix, ids[i], Before(ids, i), k, fits, false).value;
    var r0 := d.(size := d.size - 1);
    var c' := c.(node := Node(c.node.next, RemoveAt(c.node.entries, k)), at := k, toRemove := None);
    assert IterRemove(ix, c, fits, false) == Ok((r0, c'));
    assert At(r0.pages, ids, c', g - 1);
  }

  /** Removing in place rewrites only page `i`, so the chain and the pages before it stay as they were. */
  lemma RewrittenPage<K, V>(ix: Index<K, V>, fits: Fits<K, V>, ids: seq<int>, g: nat, i: nat, j: nat)
    requires ValidWith(ix, ids) && AllFit(ix, fits) && i < |ids| && j < |ix.pages[ids[i]].entries|
    requires var rest := RemoveAt(ix.pages[ids[i]].entries, j); rest != [] && fits(rest)
    requires g == |Flatten(ix.pages, ids[..i])| + j
    ensures var d := DoRemove(ix, ids[i], Before(ids, i), j, fits, false);
      && d.Ok? && var r := d.value.(size := d.value.size - 1);
      && Valid(r) && ChainIds(r) == ids
      && r.pages[ids[i]] == Node(ix.pages[ids[i]].next, RemoveAt(ix.pages[ids[i]].entries, j))
      && Flatten(r.pages, ids[..i]) == Flatten(ix.pages, ids[..i])
  {
    RemoveInPage(ix, fits, ids, g, i, j);
    var node := ix.pages[ids[i]];
    var q := Node(node.next, RemoveAt(node.entries, j));
    KeptPage(ix, ids[i], Before(ids, i), j, fits);
    var d := DoRemove(ix, ids[i], Before(ids, i), j, fits, false);
    var r := d.value.(size := d.value.size - 1);
    ValidWithIsValid(r, ids);
    PrefixFrame(ix.pages, ids, i, q);
  }

  /** A page that keeps entries is written back without the removed one, and nothing else changes. */
  lemma KeptPage<K, V>(ix: Index<K, V>, cur: int, prev: int, j: nat, fits: Fits<K, V>)
    requires ix.head in ix.pages && cur in ix.pages && j < |ix.pages[cur].entries|
    requires cur != ix.head ==> prev in ix.pages
    requires var rest := RemoveAt(ix.pages[cur].entries, j); rest != [] && fits(rest) && |rest| <= MaxShort
    ensures DoRemove(ix, cur, prev, j, fits, false)
         == Ok(ix.(pages := ix.pages[cur := Node(ix.pages[cur].next, RemoveAt(ix.pages[cur].entries, j))]))
  {
  }

  /** Rewriting page `i` of a chain of distinct pages leaves the pages before it as they were. */
  lemma PrefixFrame<K, V>(pages: Pages<K, V>, ids: seq<int>, i: nat, node: Node<K, V>)
    requires Distinct(ids) && i < |ids|
    ensures Flatten(pages[ids[i] := node], ids[..i]) == Flatten(pages, ids[..i])
  {
    forall k | 0 <= k < i
      ensures Entries(pages, ids[..i][k]) == Entries(pages[ids[i] := node], ids[..i][k])
    {
      assert ids[..i][k] == ids[k] != ids[i];
    }
    FlattenFrame(pages, pages[ids[i] := node], ids[..i]);
  }

  // ---------------------------------------------------------------------
  // Reading the list through the iterator
  // ---------------------------------------------------------------------

  /**
   * Open the iterator at `pos` and read with `hasNext` and `next` until
   * `hasNext` answers false: on a valid list this reads the entries from
   * position `pos` on, and a position past the last entry fails.
   */
  method ReadFrom<K, V>(ix: Index<K, V>, pos: int) returns (r: Result<seq<Entry<K, V>>, Failure>)
    requires Valid(ix)
    ensures 0 < |Items(ix)| <= pos ==> r == Err(NoSuchElement)
    ensures !(0 < |Items(ix)| <= pos) ==> r == Ok(Items(ix)[Start(pos, |Items(ix)|)..])
  {
    OpenReads(ix, pos);
    var o := Open(ix, pos);
    if o.Err? {
      return Err(o.error);
    }
    ValidLinked(ix);
    var read := ReadRest(ix.pages, ChainIds(ix), o.value, Start(pos, |Items(ix)|));
    return Ok(read);
  }

  /** Read with `hasNext` and `next` until `hasNext` answers false: from entry `g0` on, this reads the rest of the chain. */
  method ReadRest<K, V>(pages: Pages<K, V>, ghost ids: seq<int>, c0: Cursor<K, V>, ghost g0: nat) returns (read: seq<Entry<K, V>>)
    requires Linked(pages, ids) && At(pages, ids, c0, g0)
    ensures g0 <= |Flatten(pages, ids)| && read == Flatten(pages, ids)[g0..]
  {
    ghost var items := Flatten(pages, ids);
    var c := c0;
    ghost var g: nat := g0;
    read := [];
    AtBound(pages, ids, c, g);
    while true
      invariant At(pages, ids, c, g) && g0 <= g <= |items|
      invariant read == items[g0..g]
      decreases |items| - g
    {
      HasNextAt(pages, ids, c, g);
      var h := HasNext(pages, c);
      if !h.value.1 {
        SliceToEnd(items, g0, g);
        return;
      }
      NextAt(pages, ids, h.value.0, g);
      var n := Next(h.value.0);
      c := n.value.0;
      SliceExtend(items, g0, g);
      read := read + [n.value.1];
      g := g + 1;
    }
  }

  lemma SliceExtend<T>(s: seq<T>, a: nat, b: nat)
    requires a <= b < |s|
    ensures s[a..b] + [s[b]] == s[a..b + 1]
  {
  }

  lemma SliceToEnd<T>(s: seq<T>, a: nat, b: nat)
    requires a <= b == |s|
    ensures s[a..b] == s[a..]
  {
  }
}

=== FILE: list_node.dfy ===
/**
 * One node of the KahaDB paged list: the ordered key/value entries one page
 * holds and the id of the next page. Keys are `Option<K>` where a caller
 * may pass a null key; stored keys are never null.
 */
module ListNodes {
  import opened Results

  /** The `next` of the last node: no page follows. */
  const NotSet: int := -1

  /** The largest entry count a node's payload can record (a Java `short`). */
  const MaxShort: int := 32767

  datatype Entry<K, V> = Entry(key: K, value: V)

  datatype Node<K, V> = Node(next: int, entries: seq<Entry<K, V>>)

  /** The exceptions the list code raises, by Java class, and a call that never returns. */
  datatype Failure =
    | IllegalArgument
    | IllegalState
    | NullPointer
    | NoSuchElement
    | PageOverflow
    | ShortOverflow
    | BrokenChain(pageId: int)
    | EndOfStream
    | Diverges

  predicate HasKey<K(==), V>(entries: seq<Entry<K, V>>, key: K) {
    exists i :: 0 <= i < |entries| && entries[i].key == key
  }

  /** The position of the first entry with `key`, scanning from the head. */
  function FirstMatch<K(==), V>(entries: seq<Entry<K, V>>, key: K): (r: Option<nat>)
    ensures r.Some? ==> r.value < |entries| && entries[r.value].key == key
    ensures r.Some? ==> forall i :: 0 <= i < r.value ==> entries[i].key != key
    ensures r.None? <==> !HasKey(entries, key)
  {
    if |entries| == 0 then None
    else if entries[0].key == key then Some(0)
    else
      match FirstMatch(entries[1..], key)
      case None =>
        assert forall i :: 1 <= i < |entries| ==> entries[i] == entries[1..][i - 1];
        None
      case Some(i) => Some(i + 1)
  }

  /** The position of the last entry with `key`: the first met scanning from the tail. */
  function LastMatch<K(==), V>(entries: seq<Entry<K, V>>, key: K): (r: Option<nat>)
    ensures r.Some? ==> r.value < |entries| && entries[r.value].key == key
    ensures r.Some? ==> forall i :: r.value < i < |entries| ==> entries[i].key != key
    ensures r.None? <==> !HasKey(entries, key)
  {
    if |entries| == 0 then None
    else if entries[|entries| - 1].key == key then Some(|entries| - 1)
    else
      var r := LastMatch(entries[..|entries| - 1], key);
      assert forall i :: 0 <= i < |entries| - 1 ==> entries[i] == entries[..|entries| - 1][i];
      r
  }

  /** `entries` without the one at `at`, the others in order. */
  function RemoveAt<T>(s: seq<T>, at: nat): (r: seq<T>)
    requires at < |s|
    ensures |r| == |s| - 1
    ensures forall i :: 0 <= i < at ==> r[i] == s[i]
    ensures forall i :: at <= i < |r| ==> r[i] == s[i + 1]
  {
    s[..at] + s[at + 1..]
  }

  // ---------------------------------------------------------------------
  // Node operations
  // ---------------------------------------------------------------------

  /** `put` on a node: a null key is refused; otherwise the entry goes last. */
  function NodePut<K, V>(node: Node<K, V>, key: Option<K>, value: V): (r: Result<Node<K, V>, Failure>)
    ensures key.None? <==> r.Err?
    ensures r.Err? ==> r.error == IllegalArgument
    ensures r.Ok? ==> r.value.next == node.next && |r.value.entries| == |node.entries| + 1
    ensures r.Ok? ==> r.value.entries[..|node.entries|] == node.entries
    ensures r.Ok? ==> r.value.entries[|node.entries|] == Entry(key.value, value)
  {
    if key.None? then Err(IllegalArgument)
    else Ok(node.(entries := node.entries + [Entry(key.value, value)]))
  }

  /** `addFirst` on a node: a null key is refused; otherwise the entry goes first. */
  function NodeAddFirst<K, V>(node: Node<K, V>, key: Option<K>, value: V): (r: Result<Node<K, V>, Failure>)
    ensures key.None? <==> r.Err?
    ensures r.Err? ==> r.error == IllegalArgument
    ensures r.Ok? ==> r.value.next == node.next && |r.value.entries| == |node.entries| + 1
    ensures r.Ok? ==> r.value.entries[1..] == node.entries && r.value.entries[0] == Entry(key.value, value)
  {
    if key.None? then Err(IllegalArgument)
    else Ok(node.(entries := [Entry(key.value, value)] + node.entries))
  }

  /** `get` on a node: the value of the entry with the key nearest the tail, or null. */
  function NodeGet<K(==), V>(node: Node<K, V>, key: Option<K>): (r: Result<Option<V>, Failure>)
    ensures key.None? <==> r.Err?
    ensures r.Err? ==> r.error == IllegalArgument
    ensures r.Ok? ==> (r.value.Some? <==> HasKey(node.entries, key.value))
    ensures r.Ok? && r.value.Some? ==>
              exists i :: 0 <= i < |node.entries| && node.entries[i] == Entry(key.value, r.value.value)
                          && forall j :: i < j < |node.entries| ==> node.entries[j].key != key.value
  {
    if key.None? then Err(IllegalArgument)
    else
      match LastMatch(node.entries, key.value)
      case None => Ok(None)
      case Some(i) => Ok(Some(node.entries[i].value))
  }

  /** `contains` on a node: whether some entry has the key. */
  function NodeContains<K(==), V>(node: Node<K, V>, key: Option<K>): (r: Result<bool, Failure>)
    ensures key.None? <==> r.Err?
    ensures r.Err? ==> r.error == IllegalArgument
    ensures r.Ok? ==> (r.value <==> HasKey(node.entries, key.value))
  {
    if key.None? then Err(IllegalArgument)
    else Ok(LastMatch(node.entries, key.value).Some?)
  }

  /** `size` and `isEmpty` on a node. */
  function NodeSize<K, V>(node: Node<K, V>): (n: nat)
    ensures n == 0 <==> NodeIsEmpty(node)
  {
    |node.entries|
  }

  predicate NodeIsEmpty<K, V>(node: Node<K, V>) {
    node.entries == []
  }

  /** `getFirst` and `getLast` on a node: null when it has no entries. */
  function NodeFirst<K, V>(node: Node<K, V>): (r: Option<Entry<K, V>>)
    ensures r.None? <==> NodeIsEmpty(node)
    ensures r.Some? ==> r.value == node.entries[0]
  {
    if |node.entries| == 0 then None else Some(node.entries[0])
  }

  function NodeLast<K, V>(node: Node<K, V>): (r: Option<Entry<K, V>>)
    ensures r.None? <==> NodeIsEmpty(node)
    ensures r.Some? ==> r.value == node.entries[|node.entries| - 1]
  {
    if |node.entries| == 0 then None else Some(node.entries[|node.entries| - 1])
  }

  // ---------------------------------------------------------------------
  // Properties
  // ---------------------------------------------------------------------

  /** What was put last is what `get` finds, whatever else the node holds. */
  lemma PutThenGet<K, V>(node: Node<K, V>, key: K, value: V)
    ensures NodeGet(NodePut(node, Some(key), value).value, Some(key)) == Ok(Some(value))
  {
    var n := NodePut(node, Some(key), value).value;
    assert n.entries[|n.entries| - 1] == Entry(key, value);
  }

  /**
   * What was added first is found by `get` only if no later entry has the
   * same key: the node searches from the tail.
   */
  lemma AddFirstThenGet<K, V>(node: Node<K, V>, key: K, value: V)
    ensures var n := NodeAddFirst(node, Some(key), value).value;
      NodeGet(n, Some(key)) == if HasKey(node.entries, key) then NodeGet(node, Some(key)) else Ok(Some(value))
  {
    var n := NodeAddFirst(node, Some(key), value).value;
    if HasKey(node.entries, key) {
      var i :| 0 <= i < |node.entries| && node.entries[i].key == key;
      assert n.entries[i + 1].key == key;
      var j := LastMatch(n.entries, key).value;
      var j0 := LastMatch(node.entries, key).value;
      assert n.entries[j0 + 1] == node.entries[j0];
      assert j == j0 + 1;
    } else {
      assert forall i :: 1 <= i < |n.entries| ==> n.entries[i] == node.entries[i - 1];
    }
  }

  /**
   * The node's `get` and the list's first-match lookup disagree on a node
   * holding two entries with one key: the node answers with the later one.
   */
  lemma NodeGetIsNotFirstMatch()
    ensures var node := Node(NotSet, [Entry(1, 10), Entry(1, 20)]);
      && NodeGet(node, Some(1)) == Ok(Some(20))
      && FirstMatch(node.entries, 1) == Some(0) && node.entries[0].value == 10
  {
    var node := Node(NotSet, [Entry(1, 10), Entry(1, 20)]);
    assert LastMatch(node.entries, 1) == Some(1);
  }
}

=== FILE: list_props.dfy ===
/**
 * What the list index promises about the list it holds, stated against
 * `Items`, the entries along the chain from the head: loading finds the
 * list, `add` appends, `addFirst` prepends, lookups answer the first match,
 * `remove` takes out exactly the first match, and `clear` frees the chain.
 */
module ListIndexProperties {
  import opened Results
  import opened ListNodes
  import opened PageChains
  import opened ListIndexes
  import opened ListShapes

  // ---------------------------------------------------------------------
  // Loading
  // ---------------------------------------------------------------------

  /** Loading over a free head page makes it an empty list whose head and tail are that page. */
  lemma LoadFreeHead<K, V>(ix: Index<K, V>)
    requires !ix.loaded && ix.keyMarshaller && ix.valueMarshaller && ix.size == 0
    requires 0 <= ix.head < ix.limit && ix.head !in ix.pages
    requires forall p :: p in ix.pages ==> 0 <= p < ix.limit
    ensures var (r, failure) := Load(ix);
      && failure.None? && Valid(r) && Items(r) == []
      && r.head == ix.head && r.tail == ix.head && r.size == 0
  {
    var r := Load(ix).0;
    assert r == ix.(loaded := true, pages := ix.pages[ix.head := Node(NotSet, [])], tail := ix.head);
    FreshPage(ix.pages, ix.limit, ix.head);
    assert ValidWith(r, [ix.head]);
    ValidWithIsValid(r, [ix.head]);
  }

  /**
   * Loading over a stored list finds it: the chain from the head is the
   * list, the tail is its last page and the size is its entry count.
   */
  lemma LoadFindsChain<K, V>(ix: Index<K, V>, ids: seq<int>)
    requires !ix.loaded && ix.keyMarshaller && ix.valueMarshaller && ix.size == 0
    requires WellFormed(ix.pages, ix.limit, ids) && ids[0] == ix.head
    ensures var (r, failure) := Load(ix);
      && failure.None? && Valid(r) && r.pages == ix.pages
      && ChainIds(r) == ids && r.tail == ids[|ids| - 1] && r.size == |Items(r)|
  {
    ChainIsFound(ix.pages, ids);
    var r := Load(ix).0;
    assert ValidWith(r, ids);
    ValidWithIsValid(r, ids);
  }

  // ---------------------------------------------------------------------
  // Adding
  // ---------------------------------------------------------------------

  /** Writing one page that passes the checks keeps every page passing them. */
  lemma FitsUpdate<K, V>(ix: Index<K, V>, r: Index<K, V>, id: int, node: Node<K, V>, fits: Fits<K, V>)
    requires AllFit(ix, fits) && |node.entries| <= MaxShort && fits(node.entries)
    requires r.pages == ix.pages[id := node]
    ensures AllFit(r, fits)
  {
  }

  /** `add` of a key stores the tail page grown by the entry and counts the entry when that succeeds. */
  lemma AddStores<K, V>(ix: Index<K, V>, key: K, value: V, fits: Fits<K, V>)
    requires ix.loaded && ix.tail in ix.pages
    ensures var t := ix.pages[ix.tail];
      var s := Store(ix, ix.tail, Node(t.next, t.entries + [Entry(key, value)]), false, fits, true);
      Add(ix, Some(key), value, fits) == if s.Ok? then Ok(s.value.(size := s.value.size + 1)) else s
  {
    var t := ix.pages[ix.tail];
    assert NodePut(t, Some(key), value) == Ok(Node(t.next, t.entries + [Entry(key, value)]));
  }

  /** `addFirst` of a key stores the head page grown by the entry and counts the entry when that succeeds. */
  lemma AddFirstStores<K, V>(ix: Index<K, V>, key: K, value: V, fits: Fits<K, V>)
    requires ix.loaded && ix.head in ix.pages
    ensures var h := ix.pages[ix.head];
      var s := Store(ix, ix.head, Node(h.next, [Entry(key, value)] + h.entries), true, fits, true);
      AddFirst(ix, Some(key), value, fits) == if s.Ok? then Ok(s.value.(size := s.value.size + 1)) else s
  {
    var h := ix.pages[ix.head];
    assert NodeAddFirst(h, Some(key), value) == Ok(Node(h.next, [Entry(key, value)] + h.entries));
  }

  /** How storing the grown tail page ends: in place, split with the new entry on a new last page, or an error. */
  lemma StoreAtTail<K, V>(ix: Index<K, V>, t: int, es: seq<Entry<K, V>>, e: Entry<K, V>, fits: Fits<K, V>)
    requires fits(es)
    ensures var s := Store(ix, t, Node(NotSet, es + [e]), false, fits, true);
      && (|es| + 1 > MaxShort ==> s == Err(ShortOverflow))
      && (|es| + 1 <= MaxShort && fits(es + [e]) ==> s == Ok(ix.(pages := ix.pages[t := Node(NotSet, es + [e])])))
      && (|es| + 1 <= MaxShort && !fits(es + [e]) && es != [] && fits([e]) ==>
            s == Ok(ix.(limit := ix.limit + 1, tail := ix.limit,
                        pages := ix.pages[t := Node(ix.limit, es)][ix.limit := Node(NotSet, [e])])))
      && (|es| + 1 <= MaxShort && !fits(es + [e]) && (es == [] || !fits([e])) ==> s.Err?)
  {
    var node := Node(NotSet, es + [e]);
    if |es| + 1 <= MaxShort && !fits(es + [e]) {
      if es == [] {
        assert es + [e] == [e];
      } else {
        var last := |es + [e]| - 1;
        assert (es + [e])[..last] == es && (es + [e])[last..] == [e];
        var ix3 := ix.(limit := ix.limit + 1, tail := ix.limit, pages := ix.pages[t := Node(ix.limit, es)]);
        assert Split(ix, t, node, false, fits, true) == Store(ix3, ix.limit, Node(NotSet, [e]), false, fits, true);
        if !fits([e]) {
          assert Split(ix3, ix.limit, Node(NotSet, [e]), false, fits, true) == Err(NullPointer);
        }
      }
    }
  }

  /** The tail page grown in place: still valid, one more entry at the end. */
  lemma TailGrown<K, V>(ix: Index<K, V>, e: Entry<K, V>, fits: Fits<K, V>)
    requires Valid(ix) && AllFit(ix, fits)
    requires var es := ix.pages[ix.tail].entries; |es| + 1 <= MaxShort && fits(es + [e])
    ensures var r := ix.(pages := ix.pages[ix.tail := Node(NotSet, ix.pages[ix.tail].entries + [e])], size := ix.size + 1);
      Valid(r) && AllFit(r, fits) && Items(r) == Items(ix) + [e]
  {
    var ids := ChainIds(ix);
    var n := |ids|;
    var es := ix.pages[ix.tail].entries;
    var r := ix.(pages := ix.pages[ix.tail := Node(NotSet, es + [e])], size := ix.size + 1);
    var a := Flatten(ix.pages, ids[..n - 1]);
    FlattenSplit(ix.pages, ids, n - 1);
    assert ids[n..] == [];
    assert Items(ix) == a + es;
    ReplaceEntries(ix.pages, ix.limit, ids, n - 1, es + [e]);
    assert Flatten(r.pages, ids) == a + (es + [e]);
    assert ValidWith(r, ids);
    ValidWithIsValid(r, ids);
    FitsUpdate(ix, r, ix.tail, Node(NotSet, es + [e]), fits);
  }

  /** The grown tail page split: the new entry on a new last page that becomes the tail. */
  lemma TailSplit<K, V>(ix: Index<K, V>, e: Entry<K, V>, fits: Fits<K, V>)
    requires Valid(ix) && AllFit(ix, fits) && ix.pages[ix.tail].entries != [] && fits([e])
    ensures var es := ix.pages[ix.tail].entries;
      var r := ix.(limit := ix.limit + 1, tail := ix.limit, size := ix.size + 1,
                   pages := ix.pages[ix.tail := Node(ix.limit, es)][ix.limit := Node(NotSet, [e])]);
      Valid(r) && AllFit(r, fits) && Items(r) == Items(ix) + [e]
  {
    var ids := ChainIds(ix);
    var n := |ids|;
    var es := ix.pages[ix.tail].entries;
    var r := ix.(limit := ix.limit + 1, tail := ix.limit, size := ix.size + 1,
                 pages := ix.pages[ix.tail := Node(ix.limit, es)][ix.limit := Node(NotSet, [e])]);
    assert ix.pages[ids[0]].entries != [] by {
      if n == 1 {
        assert ids[0] == ix.tail;
      }
    }
    AppendPage(ix.pages, ix.limit, ids, [e]);
    assert ix.pages[ix.tail].(next := ix.limit) == Node(ix.limit, es);
    assert ValidWith(r, ids + [ix.limit]);
    ValidWithIsValid(r, ids + [ix.limit]);
    var mid := ix.(pages := ix.pages[ix.tail := Node(ix.limit, es)]);
    FitsUpdate(ix, mid, ix.tail, Node(ix.limit, es), fits);
    FitsUpdate(mid, r, ix.limit, Node(NotSet, [e]), fits);
  }

  /**
   * `add` on a valid list appends the entry at the end and counts it, and
   * succeeds exactly when the tail page can take it or a new page can.
   */
  lemma AddAppends<K, V>(ix: Index<K, V>, key: K, value: V, fits: Fits<K, V>)
    requires Valid(ix) && AllFit(ix, fits)
    ensures var es := ix.pages[ix.tail].entries;
      var e := Entry(key, value);
      var r := Add(ix, Some(key), value, fits);
      && (r.Ok? <==> |es| < MaxShort && (fits(es + [e]) || fits([e])))
      && (r.Ok? ==> && Valid(r.value) && AllFit(r.value, fits)
                    && Items(r.value) == Items(ix) + [e]
                    && r.value.size == ix.size + 1 && r.value.head == ix.head)
  {
    var es := ix.pages[ix.tail].entries;
    var e := Entry(key, value);
    if es == [] {
      assert es + [e] == [e];
    }
    if |es| < MaxShort && fits(es + [e]) {
      AddGrown(ix, key, value, fits);
    } else if |es| < MaxShort && es != [] && fits([e]) {
      AddSplit(ix, key, value, fits);
    } else {
      AddRefused(ix, key, value, fits);
    }
  }

  /** The entries the tail holds plus the new one fit: the tail page grows in place. */
  lemma AddGrown<K, V>(ix: Index<K, V>, key: K, value: V, fits: Fits<K, V>)
    requires Valid(ix) && AllFit(ix, fits)
    requires var es := ix.pages[ix.tail].entries; |es| < MaxShort && fits(es + [Entry(key, value)])
    ensures Appended(ix, Entry(key, value), fits, Add(ix, Some(key), value, fits))
  {
    AddStores(ix, key, value, fits);
    StoreAtTail(ix, ix.tail, ix.pages[ix.tail].entries, Entry(key, value), fits);
    TailGrown(ix, Entry(key, value), fits);
  }

  /** They do not fit but the new entry alone does: it goes to a new last page. */
  lemma AddSplit<K, V>(ix: Index<K, V>, key: K, value: V, fits: Fits<K, V>)
    requires Valid(ix) && AllFit(ix, fits)
    requires var es := ix.pages[ix.tail].entries;
      |es| < MaxShort && !fits(es + [Entry(key, value)]) && es != [] && fits([Entry(key, value)])
    ensures Appended(ix, Entry(key, value), fits, Add(ix, Some(key), value, fits))
  {
    AddStores(ix, key, value, fits);
    StoreAtTail(ix, ix.tail, ix.pages[ix.tail].entries, Entry(key, value), fits);
    TailSplit(ix, Entry(key, value), fits);
  }

  /** The tail page is full, or neither it grown nor the new entry alone fits: `add` fails. */
  lemma AddRefused<K, V>(ix: Index<K, V>, key: K, value: V, fits: Fits<K, V>)
    requires Valid(ix) && AllFit(ix, fits)
    requires var es := ix.pages[ix.tail].entries; var e := Entry(key, value);
      !(|es| < MaxShort && (fits(es + [e]) || fits([e])))
    ensures Add(ix, Some(key), value, fits).Err?
  {
    var es := ix.pages[ix.tail].entries;
    var e := Entry(key, value);
    AddStores(ix, key, value, fits);
    StoreAtTail(ix, ix.tail, es, e, fits);
    if es == [] {
      assert es + [e] == [e];
    }
  }

  /** `r` succeeded with the valid list `ix` and the entry `e` after it, counted, every page still fitting. */
  ghost predicate Appended<K, V>(ix: Index<K, V>, e: Entry<K, V>, fits: Fits<K, V>, r: Result<Index<K, V>, Failure>) {
    && r.Ok? && Valid(r.value) && AllFit(r.value, fits)
    && Items(r.value) == Items(ix) + [e]
    && r.value.size == ix.size + 1 && r.value.head == ix.head
  }

  /** How storing the grown head page ends: in place, split after its first entry, or an error. */
  lemma StoreAtHead<K, V>(ix: Index<K, V>, h: int, e: Entry<K, V>, fits: Fits<K, V>)
    requires h in ix.pages && fits(ix.pages[h].entries) && |ix.pages[h].entries| <= MaxShort
    ensures var es := ix.pages[h].entries;
      var node := Node(ix.pages[h].next, [e] + es);
      var s := Store(ix, h, node, true, fits, true);
      && (|es| + 1 > MaxShort ==> s == Err(ShortOverflow))
      && (|es| + 1 <= MaxShort && fits([e] + es) ==> s == Ok(ix.(pages := ix.pages[h := node])))
      && (|es| + 1 <= MaxShort && !fits([e] + es) && fits([e]) ==>
            es != [] &&
            s == Ok(ix.(limit := ix.limit + 1, tail := if ix.tail == h then ix.limit else ix.tail,
                        pages := SplitHead(ix.pages, h, ix.limit, e))))
      && (|es| + 1 <= MaxShort && !fits([e] + es) && !fits([e]) ==> s.Err?)
  {
    var es := ix.pages[h].entries;
    var node := Node(ix.pages[h].next, [e] + es);
    if |es| + 1 <= MaxShort && !fits([e] + es) {
      if es == [] {
        assert [e] + es == [e];
      }
      assert ([e] + es)[..1] == [e] && ([e] + es)[1..] == es;
      var ix2 := ix.(limit := ix.limit + 1, tail := if ix.tail == h then ix.limit else ix.tail);
      if fits([e]) {
        var ix3 := ix2.(pages := ix.pages[h := Node(ix.limit, [e])]);
        assert Split(ix, h, node, true, fits, true) == Store(ix3, ix.limit, Node(ix.pages[h].next, es), true, fits, true);
      }
    }
  }

  /** The head page grown in place: still valid, one more entry at the front. */
  lemma HeadGrown<K, V>(ix: Index<K, V>, e: Entry<K, V>, fits: Fits<K, V>)
    requires Valid(ix) && AllFit(ix, fits)
    requires var es := ix.pages[ix.head].entries; |es| + 1 <= MaxShort && fits([e] + es)
    ensures var h := ix.pages[ix.head];
      var r := ix.(pages := ix.pages[ix.head := Node(h.next, [e] + h.entries)], size := ix.size + 1);
      Valid(r) && AllFit(r, fits) && Items(r) == [e] + Items(ix)
  {
    var ids := ChainIds(ix);
    var h := ix.pages[ix.head];
    var r := ix.(pages := ix.pages[ix.head := Node(h.next, [e] + h.entries)], size := ix.size + 1);
    GrowFirst(ix.pages, ix.limit, ids, e);
    assert ValidWith(r, ids);
    ValidWithIsValid(r, ids);
    FitsUpdate(ix, r, ix.head, Node(h.next, [e] + h.entries), fits);
  }

  /** The grown head page split: the head keeps the new entry, a new page after it takes the rest. */
  lemma HeadSplit<K, V>(ix: Index<K, V>, e: Entry<K, V>, fits: Fits<K, V>)
    requires Valid(ix) && AllFit(ix, fits) && ix.pages[ix.head].entries != [] && fits([e])
    ensures var r := ix.(limit := ix.limit + 1, tail := if ix.tail == ix.head then ix.limit else ix.tail,
                         size := ix.size + 1, pages := SplitHead(ix.pages, ix.head, ix.limit, e));
      Valid(r) && AllFit(r, fits) && Items(r) == [e] + Items(ix)
  {
    var ids := ChainIds(ix);
    var n := |ids|;
    var h := ix.head;
    var r := ix.(limit := ix.limit + 1, tail := if ix.tail == ix.head then ix.limit else ix.tail,
                 size := ix.size + 1, pages := SplitHead(ix.pages, ix.head, ix.limit, e));
    InsertAfterHead(ix.pages, ix.limit, ids, e);
    var ids' := [h, ix.limit] + ids[1..];
    assert r.tail == ids'[|ids'| - 1] by {
      if n > 1 {
        assert ids[n - 1] != h;
        assert ids'[|ids'| - 1] == ids[n - 1];
      }
    }
    assert ValidWith(r, ids');
    ValidWithIsValid(r, ids');
    var mid := ix.(pages := ix.pages[h := Node(ix.limit, [e])]);
    FitsUpdate(ix, mid, h, Node(ix.limit, [e]), fits);
    FitsUpdate(mid, r, ix.limit, Node(ix.pages[h].next, ix.pages[h].entries), fits);
  }

  /**
   * `addFirst` on a valid list puts the entry at the front and counts it,
   * and succeeds exactly when the head page can take it or can keep it
   * alone.
   */
  lemma AddFirstPrepends<K, V>(ix: Index<K, V>, key: K, value: V, fits: Fits<K, V>)
    requires Valid(ix) && AllFit(ix, fits)
    ensures var es := ix.pages[ix.head].entries;
      var e := Entry(key, value);
      var r := AddFirst(ix, Some(key), value, fits);
      && (r.Ok? <==> |es| < MaxShort && (fits([e] + es) || fits([e])))
      && (r.Ok? ==> && Valid(r.value) && AllFit(r.value, fits)
                    && Items(r.value) == [e] + Items(ix)
                    && r.value.size == ix.size + 1 && r.value.head == ix.head)
  {
    var es := ix.pages[ix.head].entries;
    var e := Entry(key, value);
    if |es| < MaxShort && fits([e] + es) {
      AddFirstGrown(ix, key, value, fits);
    } else if |es| < MaxShort && fits([e]) {
      AddFirstSplit(ix, key, value, fits);
    } else {
      AddFirstRefused(ix, key, value, fits);
    }
  }

  /** The new entry and the head's fit: the head page grows in place. */
  lemma AddFirstGrown<K, V>(ix: Index<K, V>, key: K, value: V, fits: Fits<K, V>)
    requires Valid(ix) && AllFit(ix, fits)
    requires var es := ix.pages[ix.head].entries; |es| < MaxShort && fits([Entry(key, value)] + es)
    ensures Prepended(ix, Entry(key, value), fits, AddFirst(ix, Some(key), value, fits))
  {
    AddFirstStores(ix, key, value, fits);
    StoreAtHead(ix, ix.head, Entry(key, value), fits);
    HeadGrown(ix, Entry(key, value), fits);
  }

  /** They do not fit but the new entry alone does: the head keeps it and a new page after the head takes the rest. */
  lemma AddFirstSplit<K, V>(ix: Index<K, V>, key: K, value: V, fits: Fits<K, V>)
    requires Valid(ix) && AllFit(ix, fits)
    requires var es := ix.pages[ix.head].entries;
      |es| < MaxShort && !fits([Entry(key, value)] + es) && fits([Entry(key, value)])
    ensures Prepended(ix, Entry(key, value), fits, AddFirst(ix, Some(key), value, fits))
  {
    AddFirstStores(ix, key, value, fits);
    StoreAtHead(ix, ix.head, Entry(key, value), fits);
    HeadSplit(ix, Entry(key, value), fits);
  }

  /** The head page is full, or neither it grown nor the new entry alone fits: `addFirst` fails. */
  lemma AddFirstRefused<K, V>(ix: Index<K, V>, key: K, value: V, fits: Fits<K, V>)
    requires Valid(ix) && AllFit(ix, fits)
    requires var es := ix.pages[ix.head].entries; var e := Entry(key, value);
      !(|es| < MaxShort && (fits([e] + es) || fits([e])))
    ensures AddFirst(ix, Some(key), value, fits).Err?
  {
    AddFirstStores(ix, key, value, fits);
    StoreAtHead(ix, ix.head, Entry(key, value), fits);
  }

  /** `r` succeeded with the entry `e` before the valid list `ix`, counted, every page still fitting. */
  ghost predicate Prepended<K, V>(ix: Index<K, V>, e: Entry<K, V>, fits: Fits<K, V>, r: Result<Index<K, V>, Failure>) {
    && r.Ok? && Valid(r.value) && AllFit(r.value, fits)
    && Items(r.value) == [e] + Items(ix)
    && r.value.size == ix.size + 1 && r.value.head == ix.head
  }

  // ---------------------------------------------------------------------
  // Lookups
  // ---------------------------------------------------------------------

  /**
   * On a valid list `get` answers the value of the first entry, from the
   * head, with the key, and null exactly when no entry has it; a null key
   * fails unless the list is empty.
   */
  lemma GetFindsFirst<K, V>(ix: Index<K, V>, key: K)
    requires Valid(ix)
    ensures var r := Get(ix, Some(key));
      && r.Ok?
      && (r.value.Some? <==> HasKey(Items(ix), key))
      && (r.value.Some? ==> exists g :: && 0 <= g < |Items(ix)| && Items(ix)[g] == Entry(key, r.value.value)
                                       && forall k :: 0 <= k < g ==> Items(ix)[k].key != key)
    ensures Get(ix, None) == if Items(ix) == [] then Ok(None) else Err(NullPointer)
  {
    ScanOfValid(ix);
    var items := Items(ix);
    match FirstMatch(items, key)
    case None =>
    case Some(g) =>
      assert items[g] == Entry(key, items[g].value);
  }

  /** On a valid list `containsKey` holds exactly when some entry has the key. */
  lemma ContainsKeyIff<K, V>(ix: Index<K, V>, key: K)
    requires Valid(ix)
    ensures ContainsKey(ix, Some(key)) == Ok(HasKey(Items(ix), key))
  {
    ScanOfValid(ix);
  }

  /**
   * The list's `get` and its node's `get` disagree on a one-page list
   * holding two entries with one key: the list answers the earlier value,
   * the node the later one.
   */
  lemma IndexGetIsNotNodeGet()
    ensures var node := Node(NotSet, [Entry(1, 10), Entry(1, 20)]);
      var ix := Index(map[0 := node], 1, 0, 0, 2, true, true, true);
      && Valid(ix)
      && Get(ix, Some(1)) == Ok(Some(10))
      && NodeGet(node, Some(1)) == Ok(Some(20))
  {
    var node := Node(NotSet, [Entry(1, 10), Entry(1, 20)]);
    var ix := Index(map[0 := node], 1, 0, 0, 2, true, true, true);
    assert Flatten(ix.pages, [0]) == node.entries + Flatten(ix.pages, []);
    assert ValidWith(ix, [0]);
    ValidWithIsValid(ix, [0]);
    ScanOfValid(ix);
    assert FirstMatch(node.entries, 1) == Some(0);
    assert LastMatch(node.entries, 1) == Some(1);
  }

  /**
   * On a valid list `getFirst` is the first entry, `getLast` the last,
   * `isEmpty` whether there is none, and `size` counts them.
   */
  lemma EndsOfValid<K, V>(ix: Index<K, V>)
    requires Valid(ix)
    ensures GetFirst(ix) == Ok(if Items(ix) == [] then None else Some(Items(ix)[0]))
    ensures GetLast(ix) == Ok(if Items(ix) == [] then None else Some(Items(ix)[|Items(ix)| - 1]))
    ensures IsEmpty(ix) == Ok(Items(ix) == [])
    ensures ix.size == |Items(ix)|
  {
    FrontOfValid(ix);
    BackOfValid(ix);
  }

  /** The head page's entries start the list, and it is empty only when the list is. */
  lemma FrontOfValid<K, V>(ix: Index<K, V>)
    requires Valid(ix)
    ensures var es := ix.pages[ix.head].entries;
      && (es == [] <==> Items(ix) == [])
      && (es != [] ==> Items(ix)[0] == es[0])
  {
    var ids := ChainIds(ix);
    assert ids == [ids[0]] + ids[1..];
    FlattenCons(ix.pages, ids[0], ids[1..]);
    if ix.pages[ix.head].entries == [] {
      assert ids[1..] == [];
    }
  }

  /** The tail page's entries end the list, and it is empty only when the list is. */
  lemma BackOfValid<K, V>(ix: Index<K, V>)
    requires Valid(ix)
    ensures var es := ix.pages[ix.tail].entries;
      && (es == [] <==> Items(ix) == [])
      && (es != [] ==> Items(ix)[|Items(ix)| - 1] == es[|es| - 1])
  {
    var ids := ChainIds(ix);
    var n := |ids|;
    FlattenSplit(ix.pages, ids, n - 1);
    assert ids[n..] == [];
    if ix.pages[ix.tail].entries == [] {
      assert n == 1 && ids[..n - 1] == [];
    }
  }

  // ---------------------------------------------------------------------
  // Removing
  // ---------------------------------------------------------------------

  /**
   * Entry `g` of a valid list sits at place `j` of its page `i`, every page
   * passed the overflow check, and losing an entry keeps a page passing it.
   */
  ghost predicate RemovalAt<K(!new), V(!new)>(ix: Index<K, V>, fits: Fits<K, V>, g: nat, i: nat, j: nat) {
    && Valid(ix) && AllFit(ix, fits) && Shrinks(fits)
    && i < |ChainIds(ix)| && j < |Entries(ix.pages, ChainIds(ix)[i])|
    && |Flatten(ix.pages, ChainIds(ix)[..i])| + j == g && g < |Items(ix)|
  }

  /** The removed entry's page keeps other entries: it is written without it, in place. */
  lemma RemoveInPage<K, V>(ix: Index<K, V>, fits: Fits<K, V>, ids: seq<int>, g: nat, i: nat, j: nat)
    requires ValidWith(ix, ids) && AllFit(ix, fits) && i < |ids| && j < |ix.pages[ids[i]].entries|
    requires var rest := RemoveAt(ix.pages[ids[i]].entries, j); rest != [] && fits(rest)
    requires g == |Flatten(ix.pages, ids[..i])| + j
    ensures g < |Flatten(ix.pages, ids)|
    ensures var d := DoRemove(ix, ids[i], Before(ids, i), j, fits, false);
      && d.Ok? && ValidWith(d.value.(size := d.value.size - 1), ids) && AllFit(d.value, fits)
      && Flatten(d.value.pages, ids) == RemoveAt(Flatten(ix.pages, ids), g)
  {
    var cur := ids[i];
    var rest := RemoveAt(ix.pages[cur].entries, j);
    var d := ix.(pages := ix.pages[cur := Node(ix.pages[cur].next, rest)]);
    FitsUpdate(ix, d, cur, Node(ix.pages[cur].next, rest), fits);
    assert DoRemove(ix, cur, Before(ids, i), j, fits, false) == Ok(d);
    RemoveInPlace(ix.pages, ix.limit, ids, g, i, j);
    assert ValidWith(d.(size := d.size - 1), ids);
  }


  /** The emptied page is the head and others follow: the next page becomes the head. */
  lemma RemoveDropsHead<K(!new), V(!new)>(ix: Index<K, V>, fits: Fits<K, V>, g: nat, j: nat)
    requires RemovalAt(ix, fits, g, 0, j)
    requires RemoveAt(ix.pages[ix.head].entries, j) == [] && ix.pages[ix.head].next != NotSet
    ensures var ids := ChainIds(ix);
      var d := DoRemove(ix, ix.head, NotSet, j, fits, false);
      && |ids| > 1 && d.Ok? && ValidWith(d.value.(size := d.value.size - 1), ids[1..]) && AllFit(d.value, fits)
      && Flatten(d.value.pages, ids[1..]) == RemoveAt(Items(ix), g)
  {
    var ids := ChainIds(ix);
    assert |ids| > 1;
    DropHead(ix.pages, ix.limit, ids);
    FlattenSplit(ix.pages, ids, 0);
    assert ids[..0] == [];
    assert ids[1..][|ids[1..]| - 1] == ids[|ids| - 1];
  }

  /** The emptied page is the only one: it stays, empty, as head and tail. */
  lemma RemoveEmptiesList<K(!new), V(!new)>(ix: Index<K, V>, fits: Fits<K, V>, g: nat, j: nat)
    requires RemovalAt(ix, fits, g, 0, j)
    requires RemoveAt(ix.pages[ix.head].entries, j) == [] && ix.pages[ix.head].next == NotSet
    ensures var ids := ChainIds(ix);
      var d := DoRemove(ix, ix.head, NotSet, j, fits, false);
      && d.Ok? && ValidWith(d.value.(size := d.value.size - 1), ids) && AllFit(d.value, fits)
      && Flatten(d.value.pages, ids) == RemoveAt(Items(ix), g)
  {
    var ids := ChainIds(ix);
    var es := ix.pages[ix.head].entries;
    assert fits(RemoveAt(es, j));
    assert |ids| == 1;
    ReplaceEntries(ix.pages, ix.limit, ids, 0, []);
    assert ix.pages[ix.head].(entries := []) == Node(NotSet, []);
    FlattenSplit(ix.pages, ids, 0);
    assert ids[..0] == [] && ids[1..] == [];
  }

  /** The emptied page follows another: the one before is linked past it, and it becomes the tail if the emptied page was. */
  lemma RemoveUnlinksPage<K, V>(ix: Index<K, V>, fits: Fits<K, V>, ids: seq<int>, g: nat, i: nat, j: nat)
    requires ValidWith(ix, ids) && AllFit(ix, fits) && 0 < i < |ids| && j < |ix.pages[ids[i]].entries|
    requires RemoveAt(ix.pages[ids[i]].entries, j) == [] && g == |Flatten(ix.pages, ids[..i])| + j
    ensures g < |Flatten(ix.pages, ids)|
    ensures var ids' := ids[..i] + ids[i + 1..];
      var d := DoRemove(ix, ids[i], Before(ids, i), j, fits, false);
      && d.Ok? && ValidWith(d.value.(size := d.value.size - 1), ids') && AllFit(d.value, fits)
      && Flatten(d.value.pages, ids') == RemoveAt(Flatten(ix.pages, ids), g)
  {
    var cur := ids[i];
    var prev := ids[i - 1];
    var a := Flatten(ix.pages, ids[..i]);
    var b := Flatten(ix.pages, ids[i + 1..]);
    RemoveFromChain(ix.pages, ids, i, j);
    assert RemoveAt(Entries(ix.pages, cur), j) == [];
    AppendEmpty(a, b);
    assert cur != ix.head && prev in ix.pages;
    assert ix.pages[prev].(next := ix.pages[cur].next).entries == ix.pages[prev].entries;
    var tail := if ix.tail == cur then prev else ix.tail;
    assert DoRemove(ix, cur, prev, j, fits, false) == Ok(ix.(pages := Unlinked(ix.pages, ids, i), tail := tail));
    UnlinkIndex(ix, fits, ids, i);
  }

  /** The index with page `i`, holding one entry, unlinked from its chain and counted off. */
  lemma UnlinkIndex<K, V>(ix: Index<K, V>, fits: Fits<K, V>, ids: seq<int>, i: nat)
    requires ValidWith(ix, ids) && AllFit(ix, fits) && 0 < i < |ids| && |ix.pages[ids[i]].entries| == 1
    ensures var ids' := ids[..i] + ids[i + 1..];
      var tail := if ix.tail == ids[i] then ids[i - 1] else ix.tail;
      var r := ix.(pages := Unlinked(ix.pages, ids, i), tail := tail);
      && ValidWith(r.(size := r.size - 1), ids') && AllFit(r, fits)
      && Flatten(r.pages, ids') == Flatten(ix.pages, ids[..i]) + Flatten(ix.pages, ids[i + 1..])
  {
    var ids' := ids[..i] + ids[i + 1..];
    var tail := if ix.tail == ids[i] then ids[i - 1] else ix.tail;
    var r := ix.(pages := Unlinked(ix.pages, ids, i), tail := tail);
    Unlink(ix.pages, ix.limit, ids, i);
    assert |Flatten(ix.pages, ids)| == |Flatten(ix.pages, ids[..i])| + 1 + |Flatten(ix.pages, ids[i + 1..])| by {
      FlattenSplit(ix.pages, ids, i);
    }
    assert ids'[0] == ids[0];
    UnlinkedTail(ids, i);
    UnlinkedFits(ix, fits, ids, i);
  }

  /**
   * On a valid list the iterator's `remove` of entry `g` takes out exactly
   * that entry: the list stays valid and every page still fits, the other
   * entries keep their order and the size drops by one.
   */
  lemma RemoveEntryRemoves<K(!new), V(!new)>(ix: Index<K, V>, g: nat, fits: Fits<K, V>)
    requires Valid(ix) && AllFit(ix, fits) && Shrinks(fits) && g < |Items(ix)|
    ensures g < |Scanned(ix).0|
    ensures var r := RemoveEntry(ix, g, fits, false);
      && r.Ok? && Valid(r.value) && AllFit(r.value, fits)
      && Items(r.value) == RemoveAt(Items(ix), g) && r.value.size == ix.size - 1
  {
    ScanOfValid(ix);
    var ids := ChainIds(ix);
    var (i, j) := Locate(ix.pages, ids, g);
    assert RemovalAt(ix, fits, g, i, j);
    assert ids[0] == ix.head && ids[i] in ix.pages && (i > 0 ==> ids[i - 1] in ix.pages);
    assert j < |ix.pages[ids[i]].entries|;
    DoRemoveCounted(ix, fits, g, i, j);
    RemoveEntryAt(ix, g, fits, false, ids, i, j);
  }

  /** The iterator's remove of entry `g`, found at place `j` of page `i`, is the page removal there, counted off. */
  lemma RemoveEntryAt<K, V>(ix: Index<K, V>, g: nat, fits: Fits<K, V>, asWritten: bool, ids: seq<int>, i: nat, j: nat)
    requires g < |Scanned(ix).0| && Scan(ix.pages, ix.head).ids == ids && Locate(ix.pages, ids, g) == (i, j)
    requires ix.head in ix.pages && i < |ids| && ids[i] in ix.pages && j < |ix.pages[ids[i]].entries|
    requires ids[i] != ix.head ==> Before(ids, i) in ix.pages
    ensures var d := DoRemove(ix, ids[i], Before(ids, i), j, fits, asWritten);
      RemoveEntry(ix, g, fits, asWritten) == if d.Ok? then Ok(d.value.(size := d.value.size - 1)) else d
  {
    assert Locate(ix.pages, Scan(ix.pages, ix.head).ids, g) == (i, j);
  }

  /** Whichever way the page of entry `g` changes, the list counted off is valid and lacks exactly that entry. */
  lemma DoRemoveCounted<K(!new), V(!new)>(ix: Index<K, V>, fits: Fits<K, V>, g: nat, i: nat, j: nat)
    requires RemovalAt(ix, fits, g, i, j)
    ensures var ids := ChainIds(ix);
      Counted(ix, g, fits, DoRemove(ix, ids[i], Before(ids, i), j, fits, false))
  {
    var ids := ChainIds(ix);
    if RemoveAt(ix.pages[ids[i]].entries, j) != [] {
      InPageCounted(ix, fits, g, i, j);
    } else if i == 0 {
      if ix.pages[ix.head].next != NotSet {
        DropsHeadCounted(ix, fits, g, j);
      } else {
        EmptiesListCounted(ix, fits, g, j);
      }
    } else {
      UnlinksPageCounted(ix, fits, g, i, j);
    }
  }

  lemma InPageCounted<K(!new), V(!new)>(ix: Index<K, V>, fits: Fits<K, V>, g: nat, i: nat, j: nat)
    requires RemovalAt(ix, fits, g, i, j)
    requires RemoveAt(ix.pages[ChainIds(ix)[i]].entries, j) != []
    ensures var ids := ChainIds(ix);
      Counted(ix, g, fits, DoRemove(ix, ids[i], Before(ids, i), j, fits, false))
  {
    var ids := ChainIds(ix);
    assert fits(RemoveAt(ix.pages[ids[i]].entries, j));
    RemoveInPage(ix, fits, ids, g, i, j);
    CountedOf(ix, g, fits, DoRemove(ix, ids[i], Before(ids, i), j, fits, false), ids, ids);
  }

  /** The page removal `d` leaves a valid chain `ids'` holding the list without entry `g` of chain `ids`. */
  lemma CountedOf<K, V>(ix: Index<K, V>, g: nat, fits: Fits<K, V>, d: Result<Index<K, V>, Failure>, ids: seq<int>, ids': seq<int>)
    requires Items(ix) == Flatten(ix.pages, ids) && g < |Items(ix)| && ix.size == |Items(ix)|
    requires d.Ok? && ValidWith(d.value.(size := d.value.size - 1), ids') && AllFit(d.value, fits)
    requires Flatten(d.value.pages, ids') == RemoveAt(Flatten(ix.pages, ids), g)
    ensures Counted(ix, g, fits, d)
  {
    ValidWithIsValid(d.value.(size := d.value.size - 1), ids');
  }

  lemma DropsHeadCounted<K(!new), V(!new)>(ix: Index<K, V>, fits: Fits<K, V>, g: nat, j: nat)
    requires RemovalAt(ix, fits, g, 0, j)
    requires RemoveAt(ix.pages[ix.head].entries, j) == [] && ix.pages[ix.head].next != NotSet
    ensures Counted(ix, g, fits, DoRemove(ix, ix.head, NotSet, j, fits, false))
  {
    RemoveDropsHead(ix, fits, g, j);
    var d := DoRemove(ix, ix.head, NotSet, j, fits, false);
    ValidWithIsValid(d.value.(size := d.value.size - 1), ChainIds(ix)[1..]);
  }

  lemma EmptiesListCounted<K(!new), V(!new)>(ix: Index<K, V>, fits: Fits<K, V>, g: nat, j: nat)
    requires RemovalAt(ix, fits, g, 0, j)
    requires RemoveAt(ix.pages[ix.head].entries, j) == [] && ix.pages[ix.head].next == NotSet
    ensures Counted(ix, g, fits, DoRemove(ix, ix.head, NotSet, j, fits, false))
  {
    RemoveEmptiesList(ix, fits, g, j);
    var d := DoRemove(ix, ix.head, NotSet, j, fits, false);
    ValidWithIsValid(d.value.(size := d.value.size - 1), ChainIds(ix));
  }

  lemma UnlinksPageCounted<K(!new), V(!new)>(ix: Index<K, V>, fits: Fits<K, V>, g: nat, i: nat, j: nat)
    requires RemovalAt(ix, fits, g, i, j) && i > 0
    requires RemoveAt(ix.pages[ChainIds(ix)[i]].entries, j) == []
    ensures var ids := ChainIds(ix);
      Counted(ix, g, fits, DoRemove(ix, ids[i], Before(ids, i), j, fits, false))
  {
    var ids := ChainIds(ix);
    RemoveUnlinksPage(ix, fits, ids, g, i, j);
    CountedOf(ix, g, fits, DoRemove(ix, ids[i], Before(ids, i), j, fits, false), ids, ids[..i] + ids[i + 1..]);
  }

  /** Page removal `d` succeeded and, counted off, leaves the valid list without entry `g`. */
  ghost predicate Counted<K, V>(ix: Index<K, V>, g: nat, fits: Fits<K, V>, d: Result<Index<K, V>, Failure>)
    requires g < |Items(ix)|
  {
    && d.Ok?
    && var n := d.value.(size := d.value.size - 1);
    && Valid(n) && AllFit(n, fits) && Items(n) == RemoveAt(Items(ix), g) && n.size == ix.size - 1
  }

  /**
   * On a valid list `remove` takes out the first entry, from the head, with
   * the key and answers its value; with no such entry it answers null and
   * changes nothing. A null key fails unless the list is empty.
   */
  lemma RemoveTakesFirstMatch<K(!new), V(!new)>(ix: Index<K, V>, key: K, fits: Fits<K, V>)
    requires Valid(ix) && AllFit(ix, fits) && Shrinks(fits)
    ensures var r := Remove(ix, Some(key), fits);
      && r.Ok? && Valid(r.value.0) && AllFit(r.value.0, fits)
      && (r.value.1.Some? <==> HasKey(Items(ix), key))
      && (r.value.1.None? ==> r.value.0 == ix)
      && (r.value.1.Some? ==> exists g :: && 0 <= g < |Items(ix)| && Items(ix)[g] == Entry(key, r.value.1.value)
                                       && (forall k :: 0 <= k < g ==> Items(ix)[k].key != key)
                                       && Items(r.value.0) == RemoveAt(Items(ix), g)
                                       && r.value.0.size == ix.size - 1)
    ensures Remove(ix, None, fits) == if Items(ix) == [] then Ok((ix, None)) else Err(NullPointer)
  {
    ScanOfValid(ix);
    var items := Items(ix);
    match FirstMatch(items, key)
    case None =>
    case Some(g) =>
      RemoveEntryRemoves(ix, g, fits);
      assert items[g] == Entry(key, items[g].value);
  }

  /** Without page `i`, the last page is the one before it if it was last, else the same. */
  lemma UnlinkedTail(ids: seq<int>, i: nat)
    requires Distinct(ids) && 0 < i < |ids|
    ensures var ids' := ids[..i] + ids[i + 1..];
      ids'[|ids'| - 1] == if ids[|ids| - 1] == ids[i] then ids[i - 1] else ids[|ids| - 1]
  {
    var n := |ids|;
    if i == n - 1 {
      assert ids[..i] + ids[i + 1..] == ids[..i];
    } else {
      assert ids[n - 1] != ids[i];
    }
  }

  /** Relinking a page keeps its entries, so the pages still all pass the overflow check. */
  lemma UnlinkedFits<K, V>(ix: Index<K, V>, fits: Fits<K, V>, ids: seq<int>, i: nat)
    requires AllFit(ix, fits) && 0 < i < |ids| && ids[i - 1] in ix.pages && ids[i] in ix.pages
    ensures AllFit(ix.(pages := Unlinked(ix.pages, ids, i)), fits)
  {
    var q := Unlinked(ix.pages, ids, i);
    forall p | p in q
      ensures |q[p].entries| <= MaxShort && fits(q[p].entries)
    {
      assert q[p].entries == ix.pages[p].entries;
    }
  }

  lemma AppendEmpty<T>(a: seq<T>, b: seq<T>)
    ensures a + [] + b == a + b
  {
  }

  // ---------------------------------------------------------------------
  // Clearing
  // ---------------------------------------------------------------------

  /** The pages of a chain, as a set. */
  function Members(ids: seq<int>): set<int> {
    set k | k in ids
  }

  /** Freeing from the first page of a chain frees exactly its pages and reports nothing. */
  lemma {:induction false} FreeChain<K, V>(pages: Pages<K, V>, ids: seq<int>)
    requires IsChain(pages, ids)
    ensures FreeFrom(pages, ids[0]) == (pages - Members(ids), None)
    decreases |ids|
  {
    if |ids| == 1 {
      assert Members(ids) == {ids[0]};
    } else {
      var rest := pages - {ids[0]};
      assert pages[ids[0]].next == ids[1];
      assert ids[1] != ids[0];
      assert IsChain(rest, ids[1..]) by {
        ChainSuffix(pages, ids);
        forall k | 0 <= k < |ids[1..]|
          ensures ids[1..][k] in rest
        {
          assert ids[1..][k] == ids[k + 1] != ids[0];
        }
      }
      FreeChain(rest, ids[1..]);
      assert Members(ids) == {ids[0]} + Members(ids[1..]) by {
        assert ids == [ids[0]] + ids[1..];
      }
      assert rest - Members(ids[1..]) == pages - Members(ids);
    }
  }

  /** On a valid list `clear` frees exactly the chain's pages, keeps every other page, and sets the size to 0. */
  lemma ClearFreesChain<K, V>(ix: Index<K, V>)
    requires Valid(ix)
    ensures Clear(ix) == (ix.(pages := ix.pages - Members(ChainIds(ix)), size := 0), None)
    ensures forall p :: p in Clear(ix).0.pages <==> p in ix.pages && p !in ChainIds(ix)
  {
    FreeChain(ix.pages, ChainIds(ix));
  }

  /** After `clear` the head and tail pages are free, so adding at either end fails to load them. */
  lemma ClearedIndexRefusesAdd<K, V>(ix: Index<K, V>, key: K, value: V, fits: Fits<K, V>)
    requires Valid(ix)
    ensures var r := Clear(ix).0;
      && Add(r, Some(key), value, fits) == Err(BrokenChain(ix.tail))
      && AddFirst(r, Some(key), value, fits) == Err(BrokenChain(ix.head))
      && GetFirst(r) == Err(BrokenChain(ix.head))
  {
    ClearFreesChain(ix);
    var ids := ChainIds(ix);
    assert ids[|ids| - 1] == ix.tail && ids[0] == ix.head;
  }

  /** Cleared, unloaded and loaded again, the index holds the empty list on its old head page. */
  lemma ClearThenReload<K, V>(ix: Index<K, V>)
    requires Valid(ix) && ix.keyMarshaller && ix.valueMarshaller
    ensures var (r, failure) := Load(Unload(Clear(ix).0));
      && failure.None? && Valid(r) && Items(r) == [] && r.head == ix.head && r.tail == ix.head
  {
    ClearFreesChain(ix);
    var ids := ChainIds(ix);
    var c := Unload(Clear(ix).0);
    assert ids[0] == ix.head;
    assert forall p :: p in c.pages ==> p in ix.pages;
    LoadFreeHead(c);
  }
}

=== FILE: list_shapes.dfy ===
/**
 * The page edits the list operations make, each shown to take a
 * well-formed chain to a well-formed chain and to change its entries in
 * the one way the operation intends.
 */
module ListShapes {
  import opened ListNodes
  import opened PageChains
  import opened ListIndexes

  /** Removing entry `j` of a middle stretch `e` removes entry `|a| + j` of the whole. */
  lemma RemoveAtMiddle<T>(a: seq<T>, e: seq<T>, b: seq<T>, j: nat)
    requires j < |e|
    ensures RemoveAt(a + e + b, |a| + j) == a + RemoveAt(e, j) + b
  {
    var l := RemoveAt(a + e + b, |a| + j);
    var r := a + RemoveAt(e, j) + b;
    assert |l| == |r|;
    forall k | 0 <= k < |l|
      ensures l[k] == r[k]
    {
      if k < |a| + j {
      } else if k < |a| + |e| - 1 {
        assert r[k] == RemoveAt(e, j)[k - |a|];
      } else {
        assert r[k] == b[k - |a| - |e| + 1];
      }
    }
  }

  /** Page `ids[i]` rewritten without its entry `j`, others remaining: the chain keeps its shape and loses that entry. */
  lemma RemoveInPlace<K, V>(pages: Pages<K, V>, limit: int, ids: seq<int>, g: nat, i: nat, j: nat)
    requires WellFormed(pages, limit, ids) && i < |ids| && j < |pages[ids[i]].entries|
    requires RemoveAt(pages[ids[i]].entries, j) != [] && g == |Flatten(pages, ids[..i])| + j
    ensures g < |Flatten(pages, ids)|
    ensures var q := pages[ids[i] := Node(pages[ids[i]].next, RemoveAt(pages[ids[i]].entries, j))];
      && WellFormed(q, limit, ids)
      && Flatten(q, ids) == RemoveAt(Flatten(pages, ids), g)
  {
    var rest := RemoveAt(pages[ids[i]].entries, j);
    assert pages[ids[i]].(entries := rest) == Node(pages[ids[i]].next, rest);
    ReplaceEntries(pages, limit, ids, i, rest);
    RemoveFromChain(pages, ids, i, j);
  }

  /** A free page below the mark written empty, with no next page, is a chain of its own holding nothing. */
  lemma FreshPage<K, V>(pages: Pages<K, V>, limit: int, h: int)
    requires 0 <= h < limit && forall p :: p in pages ==> 0 <= p < limit
    ensures WellFormed(pages[h := Node(NotSet, [])], limit, [h])
    ensures Flatten(pages[h := Node(NotSet, [])], [h]) == []
  {
    var q := pages[h := Node(NotSet, [])];
    FlattenCons(q, h, []);
  }

  /** Removing entry `j` of page `ids[i]` removes the entry at its place in the whole chain. */
  lemma RemoveFromChain<K, V>(pages: Pages<K, V>, ids: seq<int>, i: nat, j: nat)
    requires i < |ids| && j < |Entries(pages, ids[i])|
    ensures Flatten(pages, ids) == Flatten(pages, ids[..i]) + Entries(pages, ids[i]) + Flatten(pages, ids[i + 1..])
    ensures RemoveAt(Flatten(pages, ids), |Flatten(pages, ids[..i])| + j)
         == Flatten(pages, ids[..i]) + RemoveAt(Entries(pages, ids[i]), j) + Flatten(pages, ids[i + 1..])
  {
    FlattenSplit(pages, ids, i);
    RemoveAtMiddle(Flatten(pages, ids[..i]), Entries(pages, ids[i]), Flatten(pages, ids[i + 1..]), j);
  }

  /** Page `ids[i]` with other entries, same link: the chain keeps its shape; the entries change in that stretch. */
  lemma ReplaceEntries<K, V>(pages: Pages<K, V>, limit: int, ids: seq<int>, i: nat, es: seq<Entry<K, V>>)
    requires WellFormed(pages, limit, ids) && i < |ids|
    requires es != [] || |ids| == 1
    ensures var q := pages[ids[i] := pages[ids[i]].(entries := es)];
      && WellFormed(q, limit, ids)
      && Flatten(q, ids) == Flatten(pages, ids[..i]) + es + Flatten(pages, ids[i + 1..])
  {
    var q := pages[ids[i] := pages[ids[i]].(entries := es)];
    FlattenUpdate(pages, ids, i, q[ids[i]]);
    assert forall k :: 0 <= k < |ids| ==> q[ids[k]].next == pages[ids[k]].next;
    assert forall k :: 1 <= k < |ids| ==> q[ids[k]].entries != [] by {
      forall k | 1 <= k < |ids|
        ensures q[ids[k]].entries != []
      {
        if k != i {
          assert ids[k] != ids[i];
        }
      }
    }
  }

  /** One more entry at the front of the first page: the entries grow by it at the front. */
  lemma GrowFirst<K, V>(pages: Pages<K, V>, limit: int, ids: seq<int>, e: Entry<K, V>)
    requires WellFormed(pages, limit, ids)
    ensures var h := pages[ids[0]];
      var q := pages[ids[0] := Node(h.next, [e] + h.entries)];
      WellFormed(q, limit, ids) && Flatten(q, ids) == [e] + Flatten(pages, ids)
  {
    var h := pages[ids[0]];
    var q := pages[ids[0] := Node(h.next, [e] + h.entries)];
    assert h.(entries := [e] + h.entries) == Node(h.next, [e] + h.entries);
    ReplaceEntries(pages, limit, ids, 0, [e] + h.entries);
    GrowFirstEntries(pages, ids, e);
  }

  lemma GrowFirstEntries<K, V>(pages: Pages<K, V>, ids: seq<int>, e: Entry<K, V>)
    requires Distinct(ids) && |ids| > 0 && ids[0] in pages
    ensures var h := pages[ids[0]];
      Flatten(pages[ids[0] := Node(h.next, [e] + h.entries)], ids) == [e] + Flatten(pages, ids)
  {
    var h := pages[ids[0]];
    var q := pages[ids[0] := Node(h.next, [e] + h.entries)];
    assert ids[0] !in ids[1..];
    FlattenFrame(pages, q, ids[1..]);
    var b := Flatten(pages, ids[1..]);
    assert Flatten(q, ids) == ([e] + h.entries) + b;
    assert Flatten(pages, ids) == h.entries + b;
  }

  /** A new last page `limit` after the chain, holding `es`: the entries grow by `es` at the end. */
  lemma AppendPage<K, V>(pages: Pages<K, V>, limit: int, ids: seq<int>, es: seq<Entry<K, V>>)
    requires WellFormed(pages, limit, ids) && pages[ids[0]].entries != [] && es != []
    ensures var last := ids[|ids| - 1];
      var q := pages[last := pages[last].(next := limit)][limit := Node(NotSet, es)];
      && WellFormed(q, limit + 1, ids + [limit])
      && Flatten(q, ids + [limit]) == Flatten(pages, ids) + es
  {
    AppendPageLinks(pages, limit, ids, es);
    AppendPageEntries(pages, limit, ids, es);
  }

  lemma AppendPageLinks<K, V>(pages: Pages<K, V>, limit: int, ids: seq<int>, es: seq<Entry<K, V>>)
    requires WellFormed(pages, limit, ids) && pages[ids[0]].entries != [] && es != []
    ensures var last := ids[|ids| - 1];
      WellFormed(pages[last := pages[last].(next := limit)][limit := Node(NotSet, es)], limit + 1, ids + [limit])
  {
    var n := |ids|;
    var last := ids[n - 1];
    var q := pages[last := pages[last].(next := limit)][limit := Node(NotSet, es)];
    var ids' := ids + [limit];
    forall k | 0 <= k < n
      ensures ids'[k] == ids[k] && ids[k] < limit && ids[k] in q && q[ids[k]].entries == pages[ids[k]].entries
    {
    }
    forall a, b | 0 <= a < b < |ids'|
      ensures ids'[a] != ids'[b]
    {
      if b < n {
        assert ids[a] != ids[b];
      }
    }
    forall k | 0 <= k < n - 1
      ensures q[ids'[k]].next == ids'[k + 1]
    {
      assert ids[k] != last;
    }
    assert q[ids'[n - 1]].next == ids'[n];
    assert IsChain(q, ids');
  }

  lemma AppendPageEntries<K, V>(pages: Pages<K, V>, limit: int, ids: seq<int>, es: seq<Entry<K, V>>)
    requires WellFormed(pages, limit, ids)
    ensures var last := ids[|ids| - 1];
      var q := pages[last := pages[last].(next := limit)][limit := Node(NotSet, es)];
      Flatten(q, ids + [limit]) == Flatten(pages, ids) + es
  {
    var n := |ids|;
    var last := ids[n - 1];
    var q := pages[last := pages[last].(next := limit)][limit := Node(NotSet, es)];
    forall k | 0 <= k < n
      ensures Entries(q, ids[k]) == Entries(pages, ids[k])
    {
      assert ids[k] < limit;
    }
    FlattenFrame(pages, q, ids);
    FlattenConcat(q, ids, [limit]);
    assert Flatten(q, [limit]) == Entries(q, limit) + Flatten(q, []);
  }

  /** The pages after an add-first split of the head `h` into `h` and `ext`. */
  function SplitHead<K, V>(pages: Pages<K, V>, h: int, ext: int, first: Entry<K, V>): Pages<K, V>
    requires h in pages
  {
    pages[h := Node(ext, [first])][ext := Node(pages[h].next, pages[h].entries)]
  }

  /**
   * The head keeps only `first` and links to a new page `limit` that takes
   * its entries and its successor: the entries grow by `first` at the front.
   */
  lemma InsertAfterHead<K, V>(pages: Pages<K, V>, limit: int, ids: seq<int>, first: Entry<K, V>)
    requires WellFormed(pages, limit, ids) && pages[ids[0]].entries != []
    ensures var q := SplitHead(pages, ids[0], limit, first);
      && WellFormed(q, limit + 1, [ids[0], limit] + ids[1..])
      && Flatten(q, [ids[0], limit] + ids[1..]) == [first] + Flatten(pages, ids)
  {
    InsertAfterHeadLinks(pages, limit, ids, first);
    InsertAfterHeadEntries(pages, limit, ids, first);
  }

  lemma InsertAfterHeadLinks<K, V>(pages: Pages<K, V>, limit: int, ids: seq<int>, first: Entry<K, V>)
    requires WellFormed(pages, limit, ids) && pages[ids[0]].entries != []
    ensures WellFormed(SplitHead(pages, ids[0], limit, first), limit + 1, [ids[0], limit] + ids[1..])
  {
    var h := ids[0];
    var q := SplitHead(pages, h, limit, first);
    var ids' := [h, limit] + ids[1..];
    assert forall k :: 2 <= k < |ids'| ==> ids'[k] == ids[k - 1];
    assert forall k :: 0 <= k < |ids| ==> 0 <= ids[k] < limit;
    forall k | 0 <= k < |ids'|
      ensures ids'[k] in q && ids'[k] >= 0
    {
    }
    forall a, b | 0 <= a < b < |ids'|
      ensures ids'[a] != ids'[b]
    {
      if a >= 2 {
        assert ids[a - 1] != ids[b - 1];
      } else if a == 0 && b >= 2 {
        assert ids[0] != ids[b - 1];
      }
    }
    forall k | 1 <= k < |ids'|
      ensures q[ids'[k]].entries != []
    {
      if k >= 2 {
        assert ids[k - 1] != h;
      }
    }
    forall k | 0 <= k < |ids'| - 1
      ensures q[ids'[k]].next == ids'[k + 1]
    {
      if k >= 2 {
        assert ids[k - 1] != h;
      }
    }
    assert q[ids'[|ids'| - 1]].next == NotSet by {
      if |ids| > 1 {
        assert ids'[|ids'| - 1] == ids[|ids| - 1] != h;
      }
    }
    assert IsChain(q, ids');
  }

  lemma InsertAfterHeadEntries<K, V>(pages: Pages<K, V>, limit: int, ids: seq<int>, first: Entry<K, V>)
    requires WellFormed(pages, limit, ids) && pages[ids[0]].entries != []
    ensures Flatten(SplitHead(pages, ids[0], limit, first), [ids[0], limit] + ids[1..]) == [first] + Flatten(pages, ids)
  {
    var h := ids[0];
    var q := SplitHead(pages, h, limit, first);
    var rest := ids[1..];
    forall k | 0 <= k < |rest|
      ensures Entries(q, rest[k]) == Entries(pages, rest[k])
    {
      assert rest[k] == ids[k + 1] && ids[k + 1] != h && ids[k + 1] < limit;
    }
    FlattenFrame(pages, q, rest);
    assert [h, limit] + rest == [h] + ([limit] + rest);
    FlattenCons(q, h, [limit] + rest);
    FlattenCons(q, limit, rest);
    assert ids == [h] + rest;
    FlattenCons(pages, h, rest);
  }

  /** Dropping the head of a chain of several pages leaves the chain from the second page. */
  lemma DropHead<K, V>(pages: Pages<K, V>, limit: int, ids: seq<int>)
    requires WellFormed(pages, limit, ids) && |ids| > 1
    ensures var q := pages - {ids[0]};
      && WellFormed(q, limit, ids[1..])
      && Flatten(q, ids[1..]) == Flatten(pages, ids[1..])
  {
    var q := pages - {ids[0]};
    var rest := ids[1..];
    assert forall k :: 0 <= k < |rest| ==> rest[k] != ids[0] && Entries(q, rest[k]) == Entries(pages, rest[k]) by {
      forall k | 0 <= k < |rest|
        ensures rest[k] != ids[0] && Entries(q, rest[k]) == Entries(pages, rest[k])
      {
        assert rest[k] == ids[k + 1];
      }
    }
    FlattenFrame(pages, q, rest);
    ChainSuffix(pages, ids);
    assert rest[|rest| - 1] == ids[|ids| - 1];
  }

  /** The pages after linking the page before `ids[i]` past it and freeing `ids[i]`. */
  function Unlinked<K, V>(pages: Pages<K, V>, ids: seq<int>, i: nat): Pages<K, V>
    requires 0 < i < |ids| && ids[i - 1] in pages && ids[i] in pages
  {
    pages[ids[i - 1] := pages[ids[i - 1]].(next := pages[ids[i]].next)] - {ids[i]}
  }

  /**
   * Linking the page before `ids[i]` past it and freeing it leaves the chain
   * without that page, and the entries without that page's.
   */
  lemma Unlink<K, V>(pages: Pages<K, V>, limit: int, ids: seq<int>, i: nat)
    requires WellFormed(pages, limit, ids) && 0 < i < |ids|
    ensures && WellFormed(Unlinked(pages, ids, i), limit, ids[..i] + ids[i + 1..])
            && Flatten(Unlinked(pages, ids, i), ids[..i] + ids[i + 1..]) == Flatten(pages, ids[..i]) + Flatten(pages, ids[i + 1..])
  {
    UnlinkLinks(pages, limit, ids, i);
    UnlinkEntries(pages, limit, ids, i);
  }

  lemma UnlinkLinks<K, V>(pages: Pages<K, V>, limit: int, ids: seq<int>, i: nat)
    requires WellFormed(pages, limit, ids) && 0 < i < |ids|
    ensures WellFormed(Unlinked(pages, ids, i), limit, ids[..i] + ids[i + 1..])
  {
    var p := ids[i - 1];
    var gone := ids[i];
    var q := Unlinked(pages, ids, i);
    var ids' := ids[..i] + ids[i + 1..];
    SkipPositions(ids, i);
    SkipDistinct(ids, i);
    forall k | 0 <= k < |ids'|
      ensures ids'[k] in q && ids'[k] >= 0 && q[ids'[k]].entries == pages[ids'[k]].entries
    {
      assert ids[Skip(k, i)] != gone;
    }
    forall k | 0 <= k < |ids'| - 1
      ensures q[ids'[k]].next == ids'[k + 1]
    {
      if k < i - 1 {
        assert ids[k] != p && ids[k] != gone;
      } else if k >= i {
        assert ids[k + 1] != p && ids[k + 1] != gone;
      }
    }
    assert q[ids'[|ids'| - 1]].next == NotSet by {
      if i < |ids| - 1 {
        assert ids'[|ids'| - 1] == ids[|ids| - 1];
        assert ids[|ids| - 1] != p && ids[|ids| - 1] != gone;
      }
    }
    assert IsChain(q, ids');
  }

  /** Position `k` of a sequence without position `i`, in the sequence itself. */
  function Skip(k: nat, i: nat): nat {
    if k < i then k else k + 1
  }

  lemma SkipPositions<T>(s: seq<T>, i: nat)
    requires i < |s|
    ensures forall k :: 0 <= k < |s| - 1 ==> (s[..i] + s[i + 1..])[k] == s[Skip(k, i)]
  {
    var t := s[..i] + s[i + 1..];
    forall k | 0 <= k < |t|
      ensures t[k] == s[Skip(k, i)]
    {
      if k < i {
        assert t[k] == s[..i][k];
      } else {
        assert t[k] == s[i + 1..][k - i];
      }
    }
  }

  /** Leaving out one of distinct pages leaves distinct pages. */
  lemma SkipDistinct(ids: seq<int>, i: nat)
    requires Distinct(ids) && i < |ids|
    ensures Distinct(ids[..i] + ids[i + 1..])
  {
    var t := ids[..i] + ids[i + 1..];
    SkipPositions(ids, i);
    forall a, b | 0 <= a < b < |t|
      ensures t[a] != t[b]
    {
      assert ids[Skip(a, i)] != ids[Skip(b, i)];
    }
  }

  lemma UnlinkEntries<K, V>(pages: Pages<K, V>, limit: int, ids: seq<int>, i: nat)
    requires WellFormed(pages, limit, ids) && 0 < i < |ids|
    ensures Flatten(Unlinked(pages, ids, i), ids[..i] + ids[i + 1..]) == Flatten(pages, ids[..i]) + Flatten(pages, ids[i + 1..])
  {
    var gone := ids[i];
    var q := Unlinked(pages, ids, i);
    var ids' := ids[..i] + ids[i + 1..];
    forall k | 0 <= k < |ids'|
      ensures Entries(q, ids'[k]) == Entries(pages, ids'[k])
    {
      if k < i {
        assert ids'[k] == ids[k];
      } else {
        assert ids'[k] == ids[k + 1];
      }
    }
    FlattenFrame(pages, q, ids');
    FlattenConcat(pages, ids[..i], ids[i + 1..]);
  }
}

=== FILE: page_chain.dfy ===
/**
 * The pages of a list as a map from page id to node, and the two ways the
 * list code follows `next` links: the node walk (`load`, `clear` and the
 * node iterator visit every page) and the entry scan (the entry iterator
 * stops at the first empty page after the head).
 */
module PageChains {
  import opened Results
  import opened ListNodes

  /** The stored pages; a page id that is not a key is a free page. */
  type Pages<K, V> = map<int, Node<K, V>>

  /** How a traversal ended: at a page with no next, at a page that holds no node, or not at all. */
  datatype End = Complete | Dangling(pageId: int) | Cycle

  datatype Traversal = Traversal(ids: seq<int>, end: End)

  function Entries<K, V>(pages: Pages<K, V>, id: int): seq<Entry<K, V>> {
    if id in pages then pages[id].entries else []
  }

  /** The entries of the pages `ids`, in order. */
  function Flatten<K, V>(pages: Pages<K, V>, ids: seq<int>): seq<Entry<K, V>>
    decreases |ids|
  {
    if |ids| == 0 then [] else Entries(pages, ids[0]) + Flatten(pages, ids[1..])
  }

  predicate Distinct(ids: seq<int>) {
    forall i, j :: 0 <= i < j < |ids| ==> ids[i] != ids[j]
  }

  /** `ids` are distinct stored pages, each linked to the next, the last linked to nothing. */
  ghost predicate IsChain<K, V>(pages: Pages<K, V>, ids: seq<int>) {
    && |ids| > 0
    && (forall i :: 0 <= i < |ids| ==> ids[i] in pages && ids[i] >= 0)
    && Distinct(ids)
    && (forall i :: 0 <= i < |ids| - 1 ==> pages[ids[i]].next == ids[i + 1])
    && pages[ids[|ids| - 1]].next == NotSet
  }

  // ---------------------------------------------------------------------
  // Traversals
  // ---------------------------------------------------------------------

  /** Every page from `at` along `next` links; `fuel` bounds the steps taken. */
  function Walk<K, V>(pages: Pages<K, V>, at: int, fuel: nat): (t: Traversal)
    ensures forall i :: 0 <= i < |t.ids| ==> t.ids[i] in pages
    ensures forall i :: 0 <= i < |t.ids| - 1 ==> pages[t.ids[i]].next == t.ids[i + 1]
    ensures |t.ids| > 0 ==> t.ids[0] == at
    ensures t.end == Complete ==> |t.ids| > 0 && pages[t.ids[|t.ids| - 1]].next == NotSet
    ensures t.end.Dangling? ==> t.end.pageId !in pages
    ensures t.end.Dangling? && |t.ids| == 0 ==> t.end.pageId == at
    ensures t.end.Dangling? && |t.ids| > 0 ==> pages[t.ids[|t.ids| - 1]].next == t.end.pageId
    decreases fuel
  {
    if at !in pages then Traversal([], Dangling(at))
    else if pages[at].next == NotSet then Traversal([at], Complete)
    else if fuel == 0 then Traversal([at], Cycle)
    else
      var t := Walk(pages, pages[at].next, fuel - 1);
      Traversal([at] + t.ids, t.end)
  }

  /** The walk from the head, with as many steps as there are pages. */
  function Chain<K, V>(pages: Pages<K, V>, head: int): Traversal {
    Walk(pages, head, |pages.Keys|)
  }

  /** The pages after the current one that the entry iterator moves into: it stops at an empty page. */
  function ScanFrom<K, V>(pages: Pages<K, V>, next: int, fuel: nat): (t: Traversal)
    ensures forall i :: 0 <= i < |t.ids| ==> t.ids[i] in pages && pages[t.ids[i]].entries != []
    decreases fuel
  {
    if next == NotSet then Traversal([], Complete)
    else if next !in pages then Traversal([], Dangling(next))
    else if pages[next].entries == [] then Traversal([], Complete)
    else if fuel == 0 then Traversal([], Cycle)
    else
      var t := ScanFrom(pages, pages[next].next, fuel - 1);
      Traversal([next] + t.ids, t.end)
  }

  /** The pages the entry iterator reads: the head, then each following page up to the first empty one. */
  function Scan<K, V>(pages: Pages<K, V>, head: int): (t: Traversal)
    ensures head in pages ==> |t.ids| > 0 && t.ids[0] == head
    ensures head !in pages ==> t == Traversal([], Dangling(head))
    ensures forall i :: 0 <= i < |t.ids| ==> t.ids[i] in pages
  {
    if head !in pages then Traversal([], Dangling(head))
    else
      var t := ScanFrom(pages, pages[head].next, |pages.Keys|);
      Traversal([head] + t.ids, t.end)
  }

  // ---------------------------------------------------------------------
  // Chains
  // ---------------------------------------------------------------------

  lemma ChainSuffix<K, V>(pages: Pages<K, V>, ids: seq<int>)
    requires IsChain(pages, ids) && |ids| > 1
    ensures IsChain(pages, ids[1..])
  {
    assert ids[1..][|ids[1..]| - 1] == ids[|ids| - 1];
  }

  /** Distinct members of `s` are no more than `s` has. */
  lemma {:induction false} DistinctBound(ids: seq<int>, s: set<int>)
    requires Distinct(ids) && forall i :: 0 <= i < |ids| ==> ids[i] in s
    ensures |ids| <= |s|
    decreases |ids|
  {
    if |ids| > 0 {
      assert forall i :: 1 <= i < |ids| ==> ids[i] != ids[0];
      DistinctBound(ids[1..], s - {ids[0]});
    }
  }

  /** A walk with enough steps follows a chain to its end. */
  lemma {:induction false} WalkFollowsChain<K, V>(pages: Pages<K, V>, ids: seq<int>, fuel: nat)
    requires IsChain(pages, ids) && fuel >= |ids| - 1
    ensures Walk(pages, ids[0], fuel) == Traversal(ids, Complete)
    decreases |ids|
  {
    if |ids| > 1 {
      assert pages[ids[0]].next == ids[1] != NotSet;
      ChainSuffix(pages, ids);
      WalkFollowsChain(pages, ids[1..], fuel - 1);
      assert [ids[0]] + ids[1..] == ids;
    }
  }

  /** So the walk from the head finds any chain that starts there. */
  lemma ChainIsFound<K, V>(pages: Pages<K, V>, ids: seq<int>)
    requires IsChain(pages, ids)
    ensures Chain(pages, ids[0]) == Traversal(ids, Complete)
  {
    DistinctBound(ids, pages.Keys);
    WalkFollowsChain(pages, ids, |pages.Keys|);
  }

  /** Along a chain whose pages after the head all hold entries, the entry scan reads every page. */
  lemma {:induction false} ScanFollowsChain<K, V>(pages: Pages<K, V>, ids: seq<int>, fuel: nat)
    requires IsChain(pages, ids) && fuel >= |ids|
    requires forall i :: 0 <= i < |ids| ==> pages[ids[i]].entries != []
    ensures ScanFrom(pages, ids[0], fuel) == Traversal(ids, Complete)
    decreases |ids|
  {
    assert ids[0] != NotSet;
    if |ids| > 1 {
      assert pages[ids[0]].next == ids[1];
      ChainSuffix(pages, ids);
      ScanFollowsChain(pages, ids[1..], fuel - 1);
      assert [ids[0]] + ids[1..] == ids;
    } else {
      assert ScanFrom(pages, NotSet, fuel - 1) == Traversal([], Complete);
    }
  }

  lemma ScanReadsChain<K, V>(pages: Pages<K, V>, ids: seq<int>)
    requires IsChain(pages, ids)
    requires forall i :: 1 <= i < |ids| ==> pages[ids[i]].entries != []
    ensures Scan(pages, ids[0]) == Traversal(ids, Complete)
  {
    DistinctBound(ids, pages.Keys);
    if |ids| > 1 {
      ChainSuffix(pages, ids);
      ScanFollowsChain(pages, ids[1..], |pages.Keys|);
      assert [ids[0]] + ids[1..] == ids;
    }
  }

  // ---------------------------------------------------------------------
  // Entries along a chain
  // ---------------------------------------------------------------------

  lemma {:induction false} FlattenConcat<K, V>(pages: Pages<K, V>, a: seq<int>, b: seq<int>)
    ensures Flatten(pages, a + b) == Flatten(pages, a) + Flatten(pages, b)
    decreases |a|
  {
    if |a| > 0 {
      assert (a + b)[1..] == a[1..] + b;
      FlattenConcat(pages, a[1..], b);
    } else {
      assert a + b == b;
    }
  }

  /** The entries along `ids` depend only on those pages' entries. */
  lemma {:induction false} FlattenFrame<K, V>(p: Pages<K, V>, q: Pages<K, V>, ids: seq<int>)
    requires forall i :: 0 <= i < |ids| ==> Entries(p, ids[i]) == Entries(q, ids[i])
    ensures Flatten(p, ids) == Flatten(q, ids)
    decreases |ids|
  {
    if |ids| > 0 {
      FlattenFrame(p, q, ids[1..]);
    }
  }

  /** The entries of a page followed by more pages. */
  lemma FlattenCons<K, V>(pages: Pages<K, V>, id: int, rest: seq<int>)
    ensures Flatten(pages, [id] + rest) == Entries(pages, id) + Flatten(pages, rest)
  {
    assert ([id] + rest)[1..] == rest;
  }

  lemma FlattenSplit<K, V>(pages: Pages<K, V>, ids: seq<int>, i: nat)
    requires i < |ids|
    ensures Flatten(pages, ids) == Flatten(pages, ids[..i]) + Entries(pages, ids[i]) + Flatten(pages, ids[i + 1..])
  {
    assert ids == ids[..i] + ([ids[i]] + ids[i + 1..]);
    FlattenConcat(pages, ids[..i], [ids[i]] + ids[i + 1..]);
  }

  /**
   * Replacing the entries of one page of distinct `ids` replaces exactly
   * its stretch of the flattened entries.
   */
  lemma FlattenUpdate<K, V>(pages: Pages<K, V>, ids: seq<int>, i: nat, node: Node<K, V>)
    requires i < |ids| && Distinct(ids)
    ensures Flatten(pages[ids[i] := node], ids)
            == Flatten(pages, ids[..i]) + node.entries + Flatten(pages, ids[i + 1..])
  {
    var q := pages[ids[i] := node];
    FlattenSplit(q, ids, i);
    FlattenFrame(pages, q, ids[..i]);
    FlattenFrame(pages, q, ids[i + 1..]);
  }

  /** Which page of `ids` and which place in it hold entry `g` of the flattened entries. */
  function Locate<K, V>(pages: Pages<K, V>, ids: seq<int>, g: nat): (r: (nat, nat))
    requires g < |Flatten(pages, ids)|
    ensures r.0 < |ids| && r.1 < |Entries(pages, ids[r.0])|
    ensures |Flatten(pages, ids[..r.0])| + r.1 == g
    decreases |ids|
  {
    if g < |Entries(pages, ids[0])| then
      assert ids[..0] == [];
      (0, g)
    else
      var (i, j) := Locate(pages, ids[1..], g - |Entries(pages, ids[0])|);
      assert ids[..i + 1] == [ids[0]] + ids[1..][..i];
      FlattenConcat(pages, [ids[0]], ids[1..][..i]);
      (i + 1, j)
  }

  /** The located entry is the flattened one. */
  lemma LocateFinds<K, V>(pages: Pages<K, V>, ids: seq<int>, g: nat)
    requires g < |Flatten(pages, ids)|
    ensures var (i, j) := Locate(pages, ids, g);
      Flatten(pages, ids)[g] == Entries(pages, ids[i])[j]
  {
    var (i, j) := Locate(pages, ids, g);
    FlattenSplit(pages, ids, i);
  }

  /** No entry: every page of `ids` is empty. */
  lemma FlattenEmpty<K, V>(pages: Pages<K, V>, ids: seq<int>, i: nat)
    requires i < |ids| && Flatten(pages, ids) == []
    ensures Entries(pages, ids[i]) == []
  {
    FlattenSplit(pages, ids, i);
  }
}

=== FILE: payload.dfy ===
/**
 * The node marshaller: a node's payload is its `next` page id as a Java
 * `long`, its entry count as a Java `short` (both big-endian two's
 * complement, as `DataOutput` writes them), then each key and value as
 * their own marshallers write them.
 */
module Payload {
  import opened Results
  import opened ListNodes

  newtype Byte = x: int | 0 <= x < 256

  function Pow256(n: nat): (p: nat)
    ensures p >= 1
  {
    if n == 0 then 1 else 256 * Pow256(n - 1)
  }

  /** `u` as `n` bytes, most significant first. */
  function Unsigned(u: nat, n: nat): (bs: seq<Byte>)
    requires u < Pow256(n)
    ensures |bs| == n
  {
    if n == 0 then []
    else Unsigned(u / 256, n - 1) + [(u % 256) as Byte]
  }

  /** The number `bs` spells, most significant byte first. */
  function ReadUnsigned(bs: seq<Byte>): (u: nat)
    ensures u < Pow256(|bs|)
  {
    if |bs| == 0 then 0
    else ReadUnsigned(bs[..|bs| - 1]) * 256 + bs[|bs| - 1] as int
  }

  lemma {:induction false} UnsignedRoundTrip(u: nat, n: nat)
    requires u < Pow256(n)
    ensures ReadUnsigned(Unsigned(u, n)) == u
  {
    if n > 0 {
      var bs := Unsigned(u, n);
      assert bs[..n - 1] == Unsigned(u / 256, n - 1);
      UnsignedRoundTrip(u / 256, n - 1);
    }
  }

  /** A Java integer of `n` bytes: the two's complement range. */
  predicate Fits(x: int, n: nat) {
    var half: int := Pow256(n) / 2;
    -half <= x < half
  }

  /** The `n`-byte two's complement of `x`, big-endian: what `writeLong` (n = 8) and `writeShort` (n = 2) emit. */
  function WriteSigned(x: int, n: nat): (bs: seq<Byte>)
    requires n > 0 && Fits(x, n)
    ensures |bs| == n
  {
    Unsigned(if x < 0 then x + Pow256(n) else x, n)
  }

  /** What `readLong` and `readShort` return for `n` bytes. */
  function ReadSigned(bs: seq<Byte>): (x: int)
    requires |bs| > 0
    ensures Fits(x, |bs|)
  {
    var u := ReadUnsigned(bs);
    PowEven(|bs|);
    if u >= Pow256(|bs|) / 2 then u - Pow256(|bs|) else u
  }

  lemma PowEven(n: nat)
    requires n > 0
    ensures Pow256(n) == 2 * (Pow256(n) / 2)
  {
    assert Pow256(n) == 2 * (128 * Pow256(n - 1));
  }

  lemma SignedRoundTrip(x: int, n: nat)
    requires n > 0 && Fits(x, n)
    ensures ReadSigned(WriteSigned(x, n)) == x
  {
    UnsignedRoundTrip(if x < 0 then x + Pow256(n) else x, n);
  }

  /** How a key or value type is written and read back: a read yields the value and the bytes it consumed. */
  datatype Codec<!T> = Codec(write: T -> seq<Byte>, read: seq<Byte> -> Option<(T, nat)>)

  /** The codec reads back what it wrote, whatever follows it in the stream. */
  ghost predicate RoundTrips<T(!new)>(c: Codec<T>) {
    forall x, rest :: c.read(c.write(x) + rest) == Some((x, |c.write(x)| as nat))
  }

  function WriteEntries<K, V>(entries: seq<Entry<K, V>>, keys: Codec<K>, values: Codec<V>): seq<Byte>
    decreases |entries|
  {
    if |entries| == 0 then []
    else keys.write(entries[0].key) + values.write(entries[0].value) + WriteEntries(entries[1..], keys, values)
  }

  /**
   * `writePayload`: the long `next`, then the entry count, refused when it
   * does not survive the cast to `short`, then the entries in order.
   */
  function WritePayload<K, V>(node: Node<K, V>, keys: Codec<K>, values: Codec<V>): (r: Result<seq<Byte>, Failure>)
    requires Fits(node.next, 8)
    ensures r.Err? <==> |node.entries| > MaxShort
    ensures r.Err? ==> r.error == ShortOverflow
    ensures r.Ok? ==> |r.value| >= 10 && r.value[..8] == WriteSigned(node.next, 8)
    ensures r.Ok? ==> r.value[8..10] == WriteSigned(|node.entries|, 2)
  {
    if |node.entries| > MaxShort then Err(ShortOverflow)
    else
      assert Pow256(2) == 65536;
      Ok(WriteSigned(node.next, 8) + WriteSigned(|node.entries|, 2) + WriteEntries(node.entries, keys, values))
  }

  /** Reads `count` entries, a key then a value each; running out of bytes is an end of stream. */
  function ReadEntries<K, V>(bs: seq<Byte>, count: int, keys: Codec<K>, values: Codec<V>): (r: Result<seq<Entry<K, V>>, Failure>)
    ensures r.Ok? ==> |r.value| == if count < 0 then 0 else count
    decreases if count < 0 then 0 else count
  {
    if count <= 0 then Ok([])
    else
      match keys.read(bs)
      case None => Err(EndOfStream)
      case Some((k, m)) =>
        if m > |bs| then Err(EndOfStream)
        else
          match values.read(bs[m..])
          case None => Err(EndOfStream)
          case Some((v, n)) =>
            if n > |bs| - m then Err(EndOfStream)
            else
              match ReadEntries(bs[m + n..], count - 1, keys, values)
              case Err(e) => Err(e)
              case Ok(rest) => Ok([Entry(k, v)] + rest)
  }

  /**
   * `readPayload`: the long `next`, the signed `short` count (a negative
   * count reads no entries), then that many entries. Bytes after the last
   * entry, the rest of the page, are ignored.
   */
  function ReadPayload<K, V>(bs: seq<Byte>, keys: Codec<K>, values: Codec<V>): (r: Result<Node<K, V>, Failure>)
    ensures r.Ok? ==> Fits(r.value.next, 8) && |r.value.entries| <= MaxShort
    ensures |bs| < 10 ==> r == Err(EndOfStream)
  {
    if |bs| < 10 then Err(EndOfStream)
    else
      var count := ReadSigned(bs[8..10]);
      assert Pow256(2) == 65536;
      match ReadEntries(bs[10..], count, keys, values)
      case Err(e) => Err(e)
      case Ok(entries) => Ok(Node(ReadSigned(bs[..8]), entries))
  }

  lemma {:induction false} EntriesRoundTrip<K(!new), V(!new)>(entries: seq<Entry<K, V>>, keys: Codec<K>, values: Codec<V>,
                                                 rest: seq<Byte>)
    requires RoundTrips(keys) && RoundTrips(values)
    ensures ReadEntries(WriteEntries(entries, keys, values) + rest, |entries|, keys, values) == Ok(entries)
    decreases |entries|
  {
    if |entries| > 0 {
      var e := entries[0];
      var kb, vb := keys.write(e.key), values.write(e.value);
      var tail := WriteEntries(entries[1..], keys, values) + rest;
      var bs := WriteEntries(entries, keys, values) + rest;
      assert bs == kb + (vb + tail);
      assert keys.read(kb + (vb + tail)) == Some((e.key, |kb| as nat));
      assert bs[|kb|..] == vb + tail;
      assert values.read(vb + tail) == Some((e.value, |vb| as nat));
      assert bs[|kb| + |vb|..] == tail;
      EntriesRoundTrip(entries[1..], keys, values, rest);
      assert [Entry(e.key, e.value)] + entries[1..] == entries;
    }
  }

  /**
   * Reading back a written payload, followed by whatever else the page
   * holds, gives the same `next` and the same entries in the same order.
   */
  lemma PayloadRoundTrip<K(!new), V(!new)>(node: Node<K, V>, keys: Codec<K>, values: Codec<V>, rest: seq<Byte>)
    requires RoundTrips(keys) && RoundTrips(values)
    requires Fits(node.next, 8) && |node.entries| <= MaxShort
    ensures WritePayload(node, keys, values).Ok?
    ensures ReadPayload(WritePayload(node, keys, values).value + rest, keys, values) == Ok(node)
  {
    assert Pow256(2) == 65536;
    var bs := WritePayload(node, keys, values).value + rest;
    SignedRoundTrip(node.next, 8);
    SignedRoundTrip(|node.entries|, 2);
    assert bs[..8] == WriteSigned(node.next, 8);
    assert bs[8..10] == WriteSigned(|node.entries|, 2);
    assert bs[10..] == WriteEntries(node.entries, keys, values) + rest;
    EntriesRoundTrip(node.entries, keys, values, rest);
  }

  /** A node with more entries than a `short` counts cannot be written, whatever it holds. */
  lemma TooManyEntriesRefused<K, V>(node: Node<K, V>, keys: Codec<K>, values: Codec<V>)
    requires Fits(node.next, 8) && |node.entries| == MaxShort + 1
    ensures WritePayload(node, keys, values) == Err(ShortOverflow)
  {
  }
}

=== FILE: registry.dfy ===
/**
 * Consumer descriptors, demand subscriptions and the bridge's subscription
 * registry: two maps, keyed by the local proxy consumer's id and by the
 * remote consumer's id, that must always name the same subscriptions.
 */
module Registry {
  import opened Results
  import opened BrokerPaths
  import opened Destinations

  /** `ConsumerId`: connection, session and consumer sequence number. */
  datatype ConsumerId = ConsumerId(connectionId: ConnectionId, sessionId: int, value: int)

  /**
   * The filter attached to a demand subscription. The filter factory is not
   * modelled, so the filter records what it was created from: the remote
   * consumer, the remote broker's path and the network TTL.
   */
  datatype NetworkFilter = NetworkFilter(consumerId: ConsumerId, destination: Destination,
                                         networkBrokerPath: seq<BrokerId>, networkTTL: int)

  /** The fields of `ConsumerInfo` the bridge reads or writes. */
  datatype ConsumerInfo = ConsumerInfo(
    consumerId: ConsumerId,
    destination: Destination,
    brokerPath: Path,
    browser: bool,
    durable: bool,
    priority: int,
    networkConsumerIds: seq<ConsumerId>,
    dispatchAsync: bool,
    prefetchSize: int,
    additionalPredicate: Option<NetworkFilter>)

  /**
   * A remote consumer's subscription paired with the local proxy consumer
   * created for it, plus its network filter.
   */
  datatype DemandSubscription = DemandSubscription(remoteInfo: ConsumerInfo, localInfo: ConsumerInfo,
                                                   filter: NetworkFilter)
  {
    function LocalId(): ConsumerId { localInfo.consumerId }
    function RemoteId(): ConsumerId { remoteInfo.consumerId }
  }

  /** `subscriptionMapByLocalId` and `subscriptionMapByRemoteId`. */
  datatype Registry = Registry(byLocal: map<ConsumerId, DemandSubscription>,
                               byRemote: map<ConsumerId, DemandSubscription>)

  const Empty: Registry := Registry(map[], map[])

  /**
   * The lockstep invariant: every subscription sits under its own local id in
   * one map and its own remote id in the other, or in neither.
   */
  ghost predicate Lockstep(r: Registry) {
    && (forall l :: l in r.byLocal ==>
          r.byLocal[l].LocalId() == l
          && r.byLocal[l].RemoteId() in r.byRemote
          && r.byRemote[r.byLocal[l].RemoteId()] == r.byLocal[l])
    && (forall k :: k in r.byRemote ==>
          r.byRemote[k].RemoteId() == k
          && r.byRemote[k].LocalId() in r.byLocal
          && r.byLocal[r.byRemote[k].LocalId()] == r.byRemote[k])
  }

  /** A subscription is registered when it sits under its local id. */
  ghost predicate Registered(r: Registry, sub: DemandSubscription) {
    sub.LocalId() in r.byLocal && r.byLocal[sub.LocalId()] == sub
  }

  /** The registration done by `configureDemandSubscription`: both puts. */
  function Register(r: Registry, sub: DemandSubscription): (r': Registry)
    ensures r'.byLocal.Keys == r.byLocal.Keys + {sub.LocalId()}
    ensures r'.byRemote.Keys == r.byRemote.Keys + {sub.RemoteId()}
    ensures r'.byLocal[sub.LocalId()] == sub && r'.byRemote[sub.RemoteId()] == sub
    ensures forall l :: l in r.byLocal && l != sub.LocalId() ==> r'.byLocal[l] == r.byLocal[l]
    ensures forall k :: k in r.byRemote && k != sub.RemoteId() ==> r'.byRemote[k] == r.byRemote[k]
  {
    Registry(r.byLocal[sub.LocalId() := sub], r.byRemote[sub.RemoteId() := sub])
  }

  /** `undoMapRegistration` and the first half of `removeSubscription`: both removes. */
  function Unregister(r: Registry, sub: DemandSubscription): (r': Registry)
    ensures r'.byLocal.Keys == r.byLocal.Keys - {sub.LocalId()}
    ensures r'.byRemote.Keys == r.byRemote.Keys - {sub.RemoteId()}
    ensures forall l :: l in r'.byLocal ==> r'.byLocal[l] == r.byLocal[l]
    ensures forall k :: k in r'.byRemote ==> r'.byRemote[k] == r.byRemote[k]
  {
    Registry(r.byLocal - {sub.LocalId()}, r.byRemote - {sub.RemoteId()})
  }

  /**
   * `removeDemandSubscription(id)` on the maps: take the subscription out of
   * the remote map by `id`, then out of both maps by its own ids. Returns the
   * subscription removed, if any.
   */
  function RemoveByRemoteId(r: Registry, id: ConsumerId): (res: (Registry, Option<DemandSubscription>))
    ensures id !in r.byRemote ==> res == (r, None)
    ensures id in r.byRemote ==> res.1 == Some(r.byRemote[id])
    ensures id in r.byRemote ==> id !in res.0.byRemote && r.byRemote[id].LocalId() !in res.0.byLocal
    ensures id in r.byRemote ==>
              res.0.byLocal.Keys == r.byLocal.Keys - {r.byRemote[id].LocalId()}
              && res.0.byRemote.Keys == r.byRemote.Keys - {id, r.byRemote[id].RemoteId()}
  {
    if id in r.byRemote then
      var sub := r.byRemote[id];
      (Unregister(Registry(r.byLocal, r.byRemote - {id}), sub), Some(sub))
    else
      (r, None)
  }

  /** `clearDownSubscriptions`. */
  function Clear(r: Registry): (r': Registry)
    ensures r'.byLocal == map[] && r'.byRemote == map[]
  {
    Empty
  }

  /** Registering a subscription whose ids are both new keeps the maps in lockstep. */
  lemma RegisterKeepsLockstep(r: Registry, sub: DemandSubscription)
    requires Lockstep(r)
    requires sub.LocalId() !in r.byLocal && sub.RemoteId() !in r.byRemote
    ensures Lockstep(Register(r, sub)) && Registered(Register(r, sub), sub)
  {
    var r' := Register(r, sub);
    forall l | l in r'.byLocal
      ensures r'.byLocal[l].LocalId() == l && r'.byLocal[l].RemoteId() in r'.byRemote
              && r'.byRemote[r'.byLocal[l].RemoteId()] == r'.byLocal[l]
    {
      if l != sub.LocalId() {
        assert r.byLocal[l].RemoteId() != sub.RemoteId();
      }
    }
    forall k | k in r'.byRemote
      ensures r'.byRemote[k].RemoteId() == k && r'.byRemote[k].LocalId() in r'.byLocal
              && r'.byLocal[r'.byRemote[k].LocalId()] == r'.byRemote[k]
    {
      if k != sub.RemoteId() {
        assert r.byRemote[k].LocalId() != sub.LocalId();
      }
    }
  }

  /** Removing a registered subscription by both ids keeps the maps in lockstep. */
  lemma UnregisterKeepsLockstep(r: Registry, sub: DemandSubscription)
    requires Lockstep(r) && Registered(r, sub)
    ensures Lockstep(Unregister(r, sub))
    ensures !Registered(Unregister(r, sub), sub) && sub.RemoteId() !in Unregister(r, sub).byRemote
  {
    var r' := Unregister(r, sub);
    forall l | l in r'.byLocal
      ensures r'.byLocal[l].RemoteId() in r'.byRemote
    {
      if r.byLocal[l].RemoteId() == sub.RemoteId() {
        assert false;
      }
    }
    forall k | k in r'.byRemote
      ensures r'.byRemote[k].LocalId() in r'.byLocal
    {
      if r.byRemote[k].LocalId() == sub.LocalId() {
        assert false;
      }
    }
  }

  /**
   * Undoing a registration restores the maps exactly, provided neither id was
   * registered before: this is what makes a suppressed `addConsumerInfo`
   * leave the registry as it found it.
   */
  lemma UndoRestores(r: Registry, sub: DemandSubscription)
    requires sub.LocalId() !in r.byLocal && sub.RemoteId() !in r.byRemote
    ensures Unregister(Register(r, sub), sub) == r
  {
    assert Unregister(Register(r, sub), sub).byLocal == r.byLocal;
    assert Unregister(Register(r, sub), sub).byRemote == r.byRemote;
  }

  /** Removal by remote id keeps the maps in lockstep. */
  lemma RemoveByRemoteIdKeepsLockstep(r: Registry, id: ConsumerId)
    requires Lockstep(r)
    ensures Lockstep(RemoveByRemoteId(r, id).0)
  {
    if id in r.byRemote {
      var sub := r.byRemote[id];
      assert Registered(r, sub);
      UnregisterKeepsLockstep(r, sub);
      assert RemoveByRemoteId(r, id).0 == Unregister(r, sub);
    }
  }

  /**
   * The lockstep invariant depends on remote ids being distinct: registering
   * a second subscription under a remote id already present overwrites the
   * remote map's entry and strands the first subscription in the local map.
   */
  lemma ReusedRemoteIdBreaksLockstep(r: Registry, first: DemandSubscription, second: DemandSubscription)
    requires Lockstep(r) && Registered(r, first)
    requires second.RemoteId() == first.RemoteId() && second.LocalId() != first.LocalId()
    ensures !Lockstep(Register(r, second))
  {
    var r' := Register(r, second);
    assert r'.byLocal[first.LocalId()] == first;
    assert r'.byRemote[first.RemoteId()] == second;
  }
}

=== FILE: results.dfy ===
/** Option and Result values standing in for Java's null returns and thrown exceptions. */
module Results {

  /** A value that may be absent; `None` plays the part of a Java `null`. */
  datatype Option<T> = None | Some(value: T) {
    function GetOr(default: T): T {
      match this
      case Some(v) => v
      case None => default
    }
  }

  /** The outcome of an operation that either produces a value or throws. */
  datatype Result<T, E> = Ok(value: T) | Err(error: E)
}
